=== FILE: README.md ===
# TESS Proposal Tool — a Dafny model of its target and sector logic

The TESS Proposal Tool is a Flask web application. It tells an observer
which TESS sectors cover a target. A target can be given in three ways:

- a position (RA and Dec in degrees);
- a TIC id (TESS Input Catalog);
- an object name.

The tool then turns the survey's sector table into result rows. It also
groups those rows into a CSV download, and draws targets and CCD
footprints on a sky map.

This project models that logic as pure Dafny functions and proves what
they promise. It covers:

- the classification of a search text and the choice of footprint query;
- sector normalisation: cycle numbers, zipping with cutouts, and the
  sector filter;
- batch processing of uploaded target lists, one row at a time;
- the form validators and the upload request router;
- the CSV writers: the server-side `download`, and the two browser-side
  table builders;
- the padding of chart columns and the metadata dispatch;
- the sky-map page's classification of what was typed, its TIC prefixing,
  and its footprint overlay for a cycle;
- the `/lookup_tic` route.

The network services are not modelled. These are the footprint service,
the catalog, the coordinate parser, the name resolver, and Python's
`float`/`int` conversions. The model receives them as function-valued
fields of `External.Services` and only calls them. The catalog, footprint
and metadata queries answer with a `Base.Result`, and the model passes
their `Raise` on unchanged wherever the program lets the exception
propagate. `SkyCoord`, `SkyCoord.from_name`, `float` and `int` answer with
an `Option`; where the program lets their exception propagate, the model
raises a placeholder exception of its own (`BadLiteral`,
`NameResolveError`). `str` of a float cannot fail. A failure of
a modelled function is likewise a `Base.Result` carrying the exception
that would propagate, so a `try`/`except` becomes a match on `Raise`.

Modules follow the program:

| module | file | source |
|---|---|---|
| `Base` | base.dfy | shared Option/Result/Exception, ordered map with first failure |
| `Text` | text.dfy | Python/JS string operations: `strip`, `split`, `replace`, `isdigit`, `str(int)`, `\s` |
| `Grouping` | grouping.dfy | insertion-ordered dictionaries as association lists |
| `External` | external.dfy | the oracle services |
| `Sectors` | sectors.dfy | `process_sectors`, the cycle formula, the sector filter |
| `Resolution` | resolution.dfy | `resolve_input`, `query_sectors*`, `get_ra_dec_from_tic_id`, `sectors`, `process_data` |
| `Batch` | batch.dfy | `process_row`, `process_row_with_results`, `process_csv`, `process_csv_for_sky_map` |
| `ResultsCsv` | results_csv.dfy | `download` and `csv_upload` of utils/csv_processing.py |
| `Validation` | validation.dfy | `validate_inputs` and the column padding of `target_list_page` |
| `Metadata` | metadata.dfy | `get_metadata` |
| `TableCsv` | table_csv.dfy | `table_to_csv` of static/download.js, the selected-rows builder of utils/download.js |
| `SkyMap` | skymap.dfy | static/skymap.js |
| `TicLookup` | lookup.dfy | `lookup_tic` of main.py |

## Model

| member | source | states |
|---|---|---|
| Base.MapAll | utils/sector_processing.py:158-159 | Mapping a raising call over a list succeeds exactly when every element succeeds. The results keep element order. |
| Base.MapAllFirstFailure | utils/sector_processing.py:158-159 | A failed map raises the error of the first failing element. Every earlier element succeeded. |
| Sectors.Cycle | utils/sector_processing.py:442 | The cycle c of sector s satisfies 13(c-1)+1 <= s <= 13c. It is at least 1 for every sector >= 1. |
| Sectors.CycleUnique | utils/sector_processing.py:442 | Only one cycle contains a given sector: any c whose 13-sector range holds s is its cycle. |
| Sectors.CycleBoundaries | utils/sector_processing.py:442 | Sectors 1 and 13 are in cycle 1, sectors 14 and 26 in cycle 2, and sector 27 in cycle 3. |
| Sectors.ObsDate | utils/sector_processing.py:448 | The observation date is read exactly when the cutout has a first file whose header has DATE-OBS. Otherwise it is an IndexError or a KeyError. |
| Sectors.Zip | utils/sector_processing.py:438 | Pairs are formed index by index up to the shorter length. The surplus is dropped silently. |
| Sectors.NormalizePairs | utils/sector_processing.py:434-453 | Succeeds exactly when every pair is dated. It gives one [sector, cycle, camera, date] record per pair, in order, with the cycle computed by the cycle formula. It also returns the last pair's cycle and date, or None/None for no pairs. |
| Sectors.NormalizePairsFirstFailure | utils/sector_processing.py:438-452 | A failure carries the error of the first undated pair. |
| Sectors.ProcessSectors | utils/sector_processing.py:420-453 | Gives exactly min(\|sectors\|, \|cutouts\|) records. Record i is built from sector i and cutout i. It fails only when one of those cutouts is undated, and returns the last cycle and date. |
| Sectors.ProcessSectorsFirstFailure | utils/sector_processing.py:438-452 | A failure carries the error of the first zipped cutout without a date. |
| Sectors.KeepSector | utils/sector_processing.py:198-201 | With no filter, every record is kept. With a filter, every kept record has that sector. The result is always an order-preserving subsequence of the input. |
| Sectors.KeepSectorCounts | utils/sector_processing.py:198-199 | Each record whose sector matches is kept as often as it occurs. No other record is kept. |
| Resolution.SplitRetryRebuilds | utils/sector_processing.py:318-322 | Re-joining the two pieces of a two-piece split on " " gives back the original text. |
| Resolution.SplitRetryRedundant | utils/sector_processing.py:316-325 | The split-and-retry branch never finds a position that the first parse missed. |
| Resolution.Resolve | utils/sector_processing.py:270-331 | A digit-only input sets `tic_id = int(input)` and the name "TIC " + str(id). It fails exactly when the catalog query raises, with that exception. Otherwise it has a position exactly when the catalog returns a row, and then it is the first row. Any other input never fails, has no TIC id and is parsed as a position. Its name is set exactly when that parse fails, and the name is then the unchanged input. |
| Resolution.ChooseQuery | utils/sector_processing.py:392-417 | The query runs on the position if there is one. Otherwise it uses a non-empty name, and otherwise a non-zero TIC id. A ValueError with the fixed message is raised exactly when none is truthy. |
| Resolution.ResolvedQuery | utils/sector_processing.py:410-417 | Only a digit-only input can make `resolve_input` raise. After a successful resolution the TIC-id query is never chosen, and the query fails exactly for an empty text that does not parse. |
| Resolution.TicQueryString | utils/sector_processing.py:384-386 | The query text starts with "TIC". It is the stripped id itself exactly when that id already starts with "TIC"; otherwise it is "TIC " followed by the stripped id. |
| Resolution.TicQueryIdempotent | utils/sector_processing.py:384-386 | Prefixing is idempotent for ids that are not blank. |
| Resolution.TicQueryBlank | utils/sector_processing.py:384-386 | A blank id is the exception: "" gives "TIC ", which prefixes again to "TIC". |
| Resolution.TicQueryOfId | utils/sector_processing.py:384-386 | An integer id always gets the "TIC " prefix. The prefixed text is left unchanged. |
| Resolution.Fetch | utils/sector_processing.py:346-347 | Sectors and cutouts are both fetched. Otherwise the first failing call's exception propagates: the sector call's if it failed, else the cutout call's. |
| Resolution.RenameUnresolved | utils/sector_processing.py:367-368 | A NameResolveError becomes a ValueError. Every other exception is unchanged. |
| Resolution.QueryWithCoord | utils/sector_processing.py:334-348 | Both service calls get the position. The result is their pair, or the first failing call's exception. |
| Resolution.QueryWithObjectName | utils/sector_processing.py:350-369 | The name goes to `get_sectors` as an object name and to `get_cutouts` as coordinates. The first failing call's exception propagates, except that a name-resolution failure surfaces as "Invalid object name". |
| Resolution.QueryWithTicId | utils/sector_processing.py:371-390 | Both calls get the text "TIC n". A failure is the first failing call's exception. |
| Resolution.RunQuery | utils/sector_processing.py:410-415 | The chosen query is sent with the target that query passes to each service. The result is Ok exactly when both calls succeed, and is then their pair. Otherwise it is the first failing call's exception, renamed for a name query. |
| Resolution.RaDecFromTicId | utils/sector_processing.py:455-472 | For digits: an exception of the catalog query propagates unchanged. Otherwise there is a position exactly when the catalog has a row, and then it is the first row. For other text: the position the text parses to. Every other failure is "Invalid TIC ID". |
| Resolution.RaDecOfId | utils/sector_processing.py:469-471 | For an integer id: the catalog's exception if it raises, else the first catalog row, else "Invalid TIC ID" exactly when the catalog has no row. |
| Resolution.SectorsFor | utils/sector_processing.py:215-267 | A failure of `resolve_input` propagates. The "enter a correct input" answer is given exactly for an empty text that does not parse. Otherwise the chosen query runs: its exception propagates, then the exception of `process_sectors` on its answer, and on success the result is the resolution together with exactly what `process_sectors` returned. |
| Resolution.ProcessData | utils/sector_processing.py:174-213 | A failure of `sectors()` propagates. Its error string makes unpacking raise. On success the star name is the resolved name and the records are a subsequence of the sector records. With no filter they are all of them; with a filter each has that sector. When nothing resolves, unpacking raises. When the search finds a star, the view holds exactly the sector filter's records (`KeepSector`), the resolved name and the filter. |
| Batch.ProcessRow | utils/sector_processing.py:42-81 | Two fields are parsed as "ra dec". One digit-only field is a TIC id with its first catalog row; the catalog's exception propagates and no row is "Invalid TIC ID". One other field is resolved as a name. Any other field count raises "Invalid input format". Each branch's error cases are stated. |
| Batch.RowQuery | utils/sector_processing.py:93-113 | A row with a TIC id is queried by TIC id; one with only a name by name; one with neither by its position. Each answer is that query's pair, or its first failing call's exception. |
| Batch.ProcessRowWithResults | utils/sector_processing.py:83-126 | A bad row's error propagates, and so does a failure of the row's query or of `process_sectors`. When all three succeed the answer is Ok. The answer is None exactly when no sector record came back. Otherwise it carries the row's position, the records, and the last record's cycle and date. |
| Batch.Flatten | utils/sector_processing.py:162-166 | Each record of a row result becomes one output row, prefixed with the row's position, in order. A None result contributes nothing. |
| Batch.FlattenAll | utils/sector_processing.py:162-166 | A record is in the output exactly when it is a flattened record of some row result. |
| Batch.FlattenAllAppend | utils/sector_processing.py:162-166 | Flattening distributes over concatenation of the row results. |
| Batch.ProcessCsv | utils/sector_processing.py:128-172 | Succeeds exactly when every row succeeds. Otherwise it raises the error of the first failing row in row order. |
| Batch.ProcessCsvAppend | utils/sector_processing.py:158-172 | Processing two row lists one after the other gives the concatenation of their outputs. |
| Batch.ProcessCsvSingle | utils/sector_processing.py:162-166 | A single row yields exactly its flattened records. |
| Batch.SkyMapRow | utils/sector_processing.py:494-520 | Two fields go through `float`. A digit field is looked up as a TIC id and labelled "TIC n"; the catalog's exception propagates and no row is "Invalid TIC ID". Another single field is resolved as a name and labelled with itself. Any other count raises "Invalid input format". |
| Batch.ProcessCsvForSkyMap | utils/sector_processing.py:474-522 | One target per row, in order. The first bad row aborts the call with its error. |
| Text.NatToStringOfDigitsValue | utils/sector_processing.py:300-301 | `str(int(s)) == s` for digit strings without a leading zero. |
| Text.LeadingZerosDropped | utils/sector_processing.py:300-301 | The input "007" is labelled with "7": leading zeros do not survive `str(int(...))`. |
| Text.DigitsValueOfNatToString | utils/sector_processing.py:469 | `int(str(n)) == n`: passing an integer id through `str` loses nothing. |
| ResultsCsv.ParseResult | utils/csv_processing.py:96-108 | A result is accepted exactly when it splits into six comma fields and both bracket-stripped coordinates parse. The value fields are the stripped fields 3 to 6. |
| ResultsCsv.ParseJoined | utils/csv_processing.py:98-101 | Six comma-free fields joined by "," split back into those fields and parse as them. |
| ResultsCsv.AcceptedMembers | utils/csv_processing.py:96-108 | An entry is kept exactly when some result string parses to it. |
| ResultsCsv.AcceptedConcat | utils/csv_processing.py:96-108 | Each result is kept or dropped on its own: the entries of two result lists, one after the other, are the entries of the first followed by those of the second. |
| ResultsCsv.AcceptedSingle | utils/csv_processing.py:96-108 | A single result gives its entry exactly when it parses, and nothing otherwise. |
| Grouping.CollectSpec | utils/csv_processing.py:102-106 | The nested dict has its keys in order of first appearance. Under each key is the fold of exactly that key's values, in input order. |
| ResultsCsv.Group | utils/csv_processing.py:102-106 | RAs are in order of first appearance. Under each RA, Decs are in order of first appearance among its results. Under each (RA, Dec) are exactly those results' fields, in input order. |
| Grouping.Partition | utils/csv_processing.py:102-106 | Grouping loses and duplicates nothing: the values gathered under the keys, in order of first appearance, are a permutation of the input values. |
| ResultsCsv.DropClosingBrackets | utils/csv_processing.py:119 | The result is a prefix of the field that does not end in ']', and every character removed is a ']'. |
| ResultsCsv.EmitRow | utils/csv_processing.py:117-119 | RA and Dec appear only on a group's first row; later rows have '' in both cells. Then come sector, cycle, camera and date in input order, the date without trailing ']'. |
| ResultsCsv.EmitGroup | utils/csv_processing.py:117-119 | One row per value of the group. Only row 0 is marked first. |
| ResultsCsv.EmitDecs | utils/csv_processing.py:116-119 | One written row per value under one RA. |
| ResultsCsv.EmitAll | utils/csv_processing.py:115-119 | One written row per value in the whole dict. |
| ResultsCsv.EmitAllRegrouped | utils/csv_processing.py:115-119 | The rows written from the dictionary are its reference layout: one block per RA in order of first appearance; inside it one block per Dec in order of first appearance; inside that, the group's results in input order, with RA and Dec on the block's first row only. |
| ResultsCsv.RegroupedPermutes | utils/csv_processing.py:102-119 | The value cells of the written rows are a permutation of the value cells of the accepted entries. |
| ResultsCsv.DownloadAsWritten | utils/csv_processing.py:111-119 | The header RA, Dec, Sector, Camera, Cycle, Observation Date, followed by the accepted entries in their grouped layout. |
| ResultsCsv.Download | utils/csv_processing.py:111-119 | The same data rows under the header naming the columns in their written order. |
| ResultsCsv.DownloadPermutes | utils/csv_processing.py:95-119 | The value cells of the downloaded rows are a permutation of those of the accepted results, and the corrected download differs from the written one only in its header. |
| ResultsCsv.AddToDecGrows | utils/csv_processing.py:104-106 | One append adds exactly one row to the dict. |
| ResultsCsv.RowCount | utils/csv_processing.py:95-119 | The number of data rows written equals the number of accepted results. |
| ResultsCsv.HeaderMislabelsColumns | utils/csv_processing.py:113-119 | As written, the column headed "Camera" holds the cycle and the column headed "Cycle" holds the camera. |
| ResultsCsv.HeaderMislabelExample | utils/csv_processing.py:113-119 | A result with cycle 1 and camera 2 is written with 1 under "Camera" and 2 under "Cycle". |
| ResultsCsv.HeaderLabelsMatch | utils/csv_processing.py:113-119 | With the corrected header, every named column holds that value. |
| ResultsCsv.CsvUpload | utils/csv_processing.py:20-79 | No file gives 400. A file without a radius gives the sky-map targets, or the sky-map failure. Then, in this order: empty radius, unparsable radius, nameless file. Past those checks, a successful `process_csv` gives a results page carrying exactly what it returned, and a failing one gives "Error processing CSV file: " followed by its exception's text. |
| ResultsCsv.UploadCheckOrder | utils/csv_processing.py:37-61 | A missing radius value wins over a nameless file and bad rows. An unparsable radius wins over a nameless file. |
| Validation.ValidateInputs | utils/input_validation.py:154-191 | A missing or empty search is rejected first, and only then is this message given. A missing radius raises TypeError. An unparsable radius is rejected before its sign is checked. A radius <= 0 is rejected. An empty or missing sector gives None, and an unparsable sector is rejected. A search, a positive radius and a sector that is empty, missing or parsable are accepted. On success the search is unchanged, the radius is positive and the sector is the parsed one. |
| Validation.ValidationOrder | utils/input_validation.py:175-184 | A missing search is reported whatever the radius is. A bad radius is reported before its sign is looked at. |
| Validation.PadTo | utils/input_validation.py:107-110 | The padded list has length max(len, n). The original is an unchanged prefix and the rest is the fill value. |
| Validation.PadToNoop | utils/input_validation.py:107-110 | Padding to a length the list already has changes nothing. |
| Validation.PadColumns | utils/input_validation.py:102-122 | All eight columns have the maximum of the five lengths. The originals are unchanged prefixes. The padding is "" for metadata, None for sectors and dates, and -1 for cycles and cameras. |
| Validation.PadColumnsAligned | utils/input_validation.py:103-110 | Metadata lists that already have the results' length are left unchanged. |
| Metadata.Describe | utils/metadata.py:50-57 | The four columns have one entry per catalog row, taken from the same row. The star name is passed through. |
| Metadata.DescribeRoundTrip | utils/metadata.py:51-57 | Reading the four columns back row by row gives the catalog answer. |
| Metadata.GetMetadata | utils/metadata.py:14-59 | Coordinates win over names, and names win over TIC ids. The result is None exactly when all three are empty. Otherwise it succeeds exactly when every catalog query succeeds, with one tuple per input, in order, labelled "ra dec", the name, or "TIC " + id; a failure is the first failing query's exception. |
| Metadata.TicIdsLabelled | utils/metadata.py:37-41 | TIC ids are queried exactly like the same strings as names: the same success, the same exception, the same rows. Only the label gains "TIC ". |
| TableCsv.CellText | static/download.js:31 | A cell's text is read exactly when the index is inside the column and the cell is not null. Otherwise TypeError. |
| TableCsv.RowCells | static/download.js:28-33 | One cell per column, in column order, or the first unreadable cell's error. |
| TableCsv.TableToCsv | static/download.js:12-36 | Succeeds exactly when every selected cell is readable. The output ends with a newline. An empty selection gives the header line only. |
| TableCsv.TableToCsvReadsBack | static/download.js:13-35 | The output splits into the header (the column names) and one line per selected index, in order, duplicates kept. Each line splits into that row's cells in column order. |
| TableCsv.LinesReadBack | static/download.js:27-34 | Every data line is newline-free and splits into its row's cells. |
| TableCsv.LineReadsBack | static/download.js:28-33 | One row's line is newline-free and splits into its cells. |
| TableCsv.ColumnNamed | utils/download.js:14-23 | `source.data[key]` finds a column with that name exactly when one exists. |
| TableCsv.JoinedCell | utils/download.js:14-24 | Inside `join`, a null or out-of-range cell is written as the empty string. |
| TableCsv.SelectedRow | utils/download.js:12-23 | The eight cells of one index, in header order. |
| TableCsv.SelectedRowsCsv | utils/download.js:3-42 | Nothing is produced exactly when rows are selected but a key is missing. The output always starts with the fixed header and a newline. An empty selection gives only that. |
| TableCsv.SelectedRowsReadBack | utils/download.js:12-28 | After the header, line k splits into the eight cells of the k-th selected index. |
| TableCsv.EffectiveSelection | utils/download.js:93-97 | A non-empty selection is kept. An empty one becomes 0..n-1, with n the length of the first data column. With no column, reading that length throws. |
| TableCsv.EffectiveSelectionInRange | utils/download.js:93-97 | For a non-empty table of equal-length columns, the effective selection is non-empty and inside every column. |
| SkyMap.ScanNumber | static/skymap.js:211 | A scanned number `-?\d+(\.\d*)?` ends after its start. A fractional part starts at a '.'. |
| SkyMap.ScanNumberText | static/skymap.js:211 | What a scan finds is the text of a well-formed number `-?\d+(\.\d*)?`, and its fractional part is that number's. |
| SkyMap.ScanDecimal | static/skymap.js:211 | A well-formed number followed by a non-continuing character is scanned exactly, fraction included. |
| SkyMap.MatchRaDec | static/skymap.js:211-212 | A text without a comma never matches. A match's group 1 is a proper prefix of the text, and groups 2 and 4, when present, are the trailing fraction of groups 1 and 3, starting at the point. |
| SkyMap.ParseDecimalNeedsDigit | static/skymap.js:215-216 | `parseFloat` gives a number only for a text that contains a digit. |
| SkyMap.ParseDecimalDigitFirst | static/skymap.js:215-216 | `parseFloat` always gives a number for a text that starts with a digit. |
| SkyMap.ParseDecimalSign | static/skymap.js:215-216 | `parseFloat` gives a negative number only for a text with a minus sign. |
| SkyMap.ParseDecimalText | static/skymap.js:215-216 | `parseFloat` of a well-formed number's text is its value. |
| SkyMap.ParseFractionText | static/skymap.js:216 | `parseFloat` of a captured fractional part: ".5" is 0.5 and "." is NaN. |
| SkyMap.MatchRaDecSound | static/skymap.js:211-212 | Every match is a cut of the text into white space, a well-formed number, white space, a comma, white space, a well-formed number and white space. Group 1 is the leading white space and the first number, group 3 the second number, and groups 2 and 4 their fractions. |
| SkyMap.MatchPair | static/skymap.js:211-212 | "a , b" with optional white space matches the pattern. The first number is group 1, its fraction group 2, the second number group 3, and its fraction group 4. |
| SkyMap.TicForm | static/skymap.js:221-224 | "TIC " is prepended exactly when the target does not already start with TIC in any letter case. |
| SkyMap.TicFormIdempotent | static/skymap.js:221-224 | Prefixing twice is prefixing once. |
| SkyMap.ClassifyOther | static/skymap.js:220-243 | Once the pattern fails, a TIC prefix or a numeric text is a TIC request with the prefixed id. Anything else is a name lookup of the text. |
| SkyMap.ClassifyAsWritten | static/skymap.js:205-219 | An empty target does nothing, and a text that does not match goes on to the TIC/name branches. As written, a match takes its declination from capture group 2. |
| SkyMap.Classify | static/skymap.js:205-243 | The pattern is tried first and a position is given exactly when it matches. The RA comes from group 1 and the Dec from group 3. |
| SkyMap.ClassifyPair | static/skymap.js:211-218 | Two numbers around a comma are placed at (first, second). |
| SkyMap.ClassifyAsWrittenIgnoresDec | static/skymap.js:215-216 | As written, the declination is the first number's fractional part (NaN if it has none), whatever the second number is. |
| SkyMap.AsWrittenAgreesOnlyByChance | static/skymap.js:215-216 | Read as exact decimal values, the as-written and corrected positions agree exactly when the first number's fraction equals the second number. |
| SkyMap.DecFromWrongGroup | static/skymap.js:211-216 | "10.5, 20.3" and "10, 20" are pair texts. Their as-written declinations are 0.5 and NaN; the corrected ones are 20.3 and 20. |
| SkyMap.MarkerTitle | static/skymap.js:49-51 | A missing or empty name is titled "Unnamed Target". Any other name is its own title. |
| SkyMap.FootprintEntries | static/skymap.js:310-315 | Every line after the header gives one entry, in file order: sector from field 6, point from fields 2 and 3. |
| SkyMap.SectorPolylines | static/skymap.js:307-322 | A sector has points exactly when some line lists it. Its points are those lines' points, in file order. |
| SkyMap.CycleSectors | static/skymap.js:328-332 | Exactly 13 sectors, from (c-1)*13+1 upward. A sector is among them exactly when the cycle formula assigns it to c. |
| SkyMap.CycleOverlay | static/skymap.js:328-333 | For each of the cycle's 13 sectors, in order, the polyline is that sector's points exactly when the file lists the sector. |
| TicLookup.NormalizeTicId | main.py:58 | The normalised id is no longer than the input and has no surrounding white space. |
| TicLookup.NormalizeDigits | main.py:58 | "123", "TIC 123" and "tic 123" all normalise to "123". |
| TicLookup.MixedCaseKept | main.py:58 | A mixed-case prefix is not removed: "Tic 5" stays "Tic 5". |
| TicLookup.TicFormOfDigits | static/skymap.js:221-224 | The page sends bare digits as "TIC d" and a prefixed id unchanged. |
| TicLookup.PostedFormNormalizes | main.py:54-58 | Whatever the page posts for digits typed with or without a prefix normalises back to those digits. |
| TicLookup.LookupTic | main.py:52-74 | A missing field and every failure give status 500 with the exception's text. A failure is either "Invalid TIC ID" or, for digits, the catalog query's own exception. The lookup succeeds exactly when the position resolved for the normalised id exists, and then returns it. |
| TicLookup.LookupNormalized | main.py:58-68 | An id that normalises to digits is located exactly when the catalog query succeeds with a row, at its first row. A raising catalog gives 500 with its exception's text; an empty answer gives 500 with "Invalid TIC ID". |
| TicLookup.LookupDigits | main.py:52-74 | The round trip for digits typed on the sky-map page: located exactly when the catalog has the id, at its first row; a raising catalog gives its exception's text. |

## Left out

- Network and catalog services are uninterpreted fields of `External.Services`. Their behaviour is not modelled: Tesscut, Catalogs, `SkyCoord`, `SkyCoord.from_name`, and the MAST request of `get_tic_data`. Neither are Python's `float`, `int` and `str(float)`.
- `get_tic_data` (main.py:25-40) is a proxy of one web request and is not modelled.
- The thread pool of `process_csv` is modelled as a sequential map. `executor.map` returns results in row order and `list` re-raises the first failure, so the observable result is the same.
- utils/visualization.py and routes.py are not part of this model: Bokeh charts, histograms and route registration. `sector_graph` reads the cycle from index 4 (utils/visualization.py:228), which is the camera in `process_csv` rows; this is not modelled.
- Flask, Jinja, DOM, Aladin, jQuery and `setTimeout` glue is not modelled: template rendering, `jsonify`, the download links and Blobs, marker drawing, the RA/Dec averaging of uploaded targets, and the name lookup through `aladin.gotoObject`.
- The `table_to_csv` at utils/download.js:56-68 returns nothing and is not modelled.
- `csv.reader` parsing, CSV quoting and the text form of floats are not modelled. Tables are sequences of cells.
- The footprint file's line splitting (`trim().split(/\r?\n|\r/)`) and `parseInt` of the cycle radio value are not modelled. The model starts from the lines and the cycle number.
- JavaScript object keys are strings. The footprint grouping is keyed by the parsed number itself.
- `isdigit` is modelled for ASCII digits. Unicode digits, case folding beyond ASCII `toUpperCase`, and `isNaN` are not; `isNaN(target)` is the oracle `isNumeric`.
- SkyMap.ParseDecimal: `parseFloat` is modelled only on the shapes the position pattern captures (an optional minus, digits, an optional point and digits). Exponents, `Infinity` and leading white space beyond those shapes are not modelled. Values are exact decimals: rounding to the nearest double is not modelled, so SkyMap.ParseDecimalText, SkyMap.ClassifyPair and SkyMap.AsWrittenAgreesOnlyByChance are about decimal values. Two texts that round to the same double, such as ".1" and "0.10000000000000000001", give the same position in the script but different ones in the model.
- The texts of exceptions raised by the services and by `float` (`BadLiteral`, `NameResolveError`, the missing-form-field KeyError) are fixed placeholders, not Python's exact wording.
- Units attached to luminosity and temperature in `get_metadata` do not change the values and are not modelled.
- Debug printing and logging are not modelled.
- ResultsCsv.Accepted: its own contract only bounds the count. Which results are kept, and in what order, is stated by ResultsCsv.AcceptedMembers, ResultsCsv.AcceptedConcat, ResultsCsv.AcceptedSingle and ResultsCsv.ParseResult.
- ResultsCsv.EmitAll: its own contract states only the row count. Row contents and order are stated by ResultsCsv.EmitAllRegrouped and ResultsCsv.DownloadPermutes.
- Floating-point NaN is not modelled on the Python side: RA, Dec and radius are reals. Python's `float("nan")` is accepted, so each NaN result in `download` would open a group of its own (NaN is never equal to a key already in the dict, utils/csv_processing.py:102-104), and a radius of "nan" passes `validate_inputs` because `nan <= 0` is false (utils/input_validation.py:179-184). Neither behaviour is in the model.
- ResultsCsv.EmitDecs: its contract states only the row count. Row contents are stated by ResultsCsv.EmitGroup and ResultsCsv.EmitRow.

## Findings

| source | as written | input that shows it | evidently intended | confidence | as-written member | corrected member |
|---|---|---|---|---|---|---|
| static/skymap.js:216 | The declination is `parseFloat(raDecMatch[2])`. Capture group 2 is the optional fractional part of the right ascension. | "10.5, 20.3" is placed at Dec 0.5, and "10, 20" at Dec NaN. | The declination is read from group 3, the second number: 20.3 and 20. | high, not executed | SkyMap.ClassifyAsWritten | SkyMap.Classify |
| utils/csv_processing.py:113 | The header names the fourth column "Camera" and the fifth "Cycle". Line 119 writes the cycle and then the camera. | The result "[10.0, 20.0, 5, 1, 2, 2019-07-18]" shows cycle 1 under "Camera" and camera 2 under "Cycle". | The header reads Sector, Cycle, Camera. | high, not executed | ResultsCsv.DownloadAsWritten | ResultsCsv.Download |

For the first finding:

- SkyMap.ClassifyAsWrittenIgnoresDec proves that the as-written declination is the first number's fraction.
- SkyMap.AsWrittenAgreesOnlyByChance proves that, over exact decimal values, it matches the corrected one exactly when that fraction happens to equal the second number.
- SkyMap.DecFromWrongGroup pins down the two example inputs.
- SkyMap.ClassifyPair proves that the corrected classification places "a, b" at (a, b).

For the second finding:

- ResultsCsv.HeaderMislabelsColumns and ResultsCsv.HeaderMislabelExample exhibit the swap.
- ResultsCsv.HeaderLabelsMatch proves that every column of the corrected header holds the value it names.

A related mismatch is stated as a lemma rather than as a finding:

- The page treats "Tic 5" as a TIC id, because its prefix check is case-insensitive.
- The route removes only "TIC" and "tic", so TicLookup.MixedCaseKept shows that the id reaches the lookup unchanged.

=== FILE: base.dfy ===
/** Failure-carrying datatypes shared by every part of the model.

    The Python code signals failure by raising; `Result` carries either a
    value or the exception that would propagate, so that a caller's
    `try`/`except` becomes a `match` on `Raise`. */
module Base {

  datatype Option<+T> = None | Some(value: T) {

    /** The value, or `default` when there is none. */
    function GetOr(default: T): T {
      match this
      case Some(v) => v
      case None => default
    }
  }

  /** The Python (or JavaScript) exceptions the model distinguishes.
      `BadLiteral` is the ValueError that `float(...)`, `int(...)` and
      `SkyCoord(...)` raise for text they cannot convert. */
  datatype Exception =
    | ValueError(msg: string)
    | BadLiteral(text: string)
    | NameResolveError(name: string)
    | TypeError(msg: string)
    | IndexError(msg: string)
    | KeyError(key: string)
    | ServiceError(msg: string)
  {
    /** True for the exceptions an `except ValueError:` clause catches. */
    predicate IsValueError() {
      ValueError? || BadLiteral?
    }

    /** `str(e)`: the message text a handler shows for the exception. */
    function Text(): string {
      match this
      case ValueError(m) => m
      case BadLiteral(t) => "could not convert: " + t
      case NameResolveError(n) => "Unable to find coordinates for name '" + n + "'"
      case TypeError(m) => m
      case IndexError(m) => m
      case KeyError(k) => "'" + k + "'"
      case ServiceError(m) => m
    }
  }

  datatype Result<+T> = Ok(value: T) | Raise(exc: Exception) {

    predicate IsFailure() {
      Raise?
    }

    function PropagateFailure<U>(): Result<U>
      requires Raise?
    {
      Raise(exc)
    }

    function Extract(): T
      requires Ok?
    {
      value
    }
  }

  /** Applies `f` to every element in order and stops at the first
      failure, as a loop over a raising call (or `list(map(f, xs))`) does. */
  function MapAll<A, B>(xs: seq<A>, f: A -> Result<B>): (r: Result<seq<B>>)
    ensures r.Ok? <==> forall i :: 0 <= i < |xs| ==> f(xs[i]).Ok?
    ensures r.Ok? ==> |r.value| == |xs| && forall i :: 0 <= i < |xs| ==> r.value[i] == f(xs[i]).value
    decreases |xs|
  {
    if |xs| == 0 then Ok([])
    else
      assert forall j :: 0 <= j < |xs| - 1 ==> xs[1..][j] == xs[j + 1];
      var y :- f(xs[0]);
      var ys :- MapAll(xs[1..], f);
      Ok([y] + ys)
  }

  /** A failed `MapAll` raises the error of the first failing element. */
  lemma {:induction false} MapAllFirstFailure<A, B>(xs: seq<A>, f: A -> Result<B>)
    ensures MapAll(xs, f).Raise? ==> exists k :: (0 <= k < |xs| && f(xs[k]).Raise?
      && (forall j :: 0 <= j < k ==> f(xs[j]).Ok?) && MapAll(xs, f).exc == f(xs[k]).exc)
    decreases |xs|
  {
    if |xs| > 0 && MapAll(xs, f).Raise? && f(xs[0]).Ok? {
      var rest := xs[1..];
      assert forall j :: 0 <= j < |rest| ==> rest[j] == xs[j + 1];
      MapAllFirstFailure(rest, f);
      var k :| 0 <= k < |rest| && f(rest[k]).Raise?
        && (forall j :: 0 <= j < k ==> f(rest[j]).Ok?) && MapAll(rest, f).exc == f(rest[k]).exc;
      assert f(xs[k + 1]).Raise?;
    }
  }

  /** `MapAll` over a concatenation is the concatenation of the two. */
  lemma MapAllAppend<A, B>(a: seq<A>, b: seq<A>, f: A -> Result<B>)
    requires MapAll(a + b, f).Ok?
    ensures MapAll(a, f).Ok? && MapAll(b, f).Ok?
    ensures MapAll(a + b, f).value == MapAll(a, f).value + MapAll(b, f).value
  {
    assert forall i :: 0 <= i < |a| ==> (a + b)[i] == a[i];
    assert forall i :: 0 <= i < |b| ==> (a + b)[|a| + i] == b[i];
  }

  /** The values `f` gives, in order, skipping the elements it rejects:
      a loop whose body appends or `continue`s. */
  function FilterMap<A, B>(xs: seq<A>, f: A -> Option<B>): (ys: seq<B>)
    ensures |ys| <= |xs|
    decreases |xs|
  {
    if |xs| == 0 then []
    else
      var n := |xs| - 1;
      FilterMap(xs[..n], f) + (match f(xs[n]) case Some(y) => [y] case None => [])
  }

  /** A value is produced exactly when some element gives it. */
  lemma {:induction false} FilterMapMembers<A, B>(xs: seq<A>, f: A -> Option<B>, y: B)
    ensures y in FilterMap(xs, f) <==> exists i :: 0 <= i < |xs| && f(xs[i]) == Some(y)
    decreases |xs|
  {
    if |xs| > 0 {
      var n := |xs| - 1;
      FilterMapMembers(xs[..n], f, y);
      assert forall i :: 0 <= i < n ==> xs[..n][i] == xs[i];
    }
  }

  /** Elements are kept or skipped independently of each other. */
  lemma {:induction false} FilterMapConcat<A, B>(a: seq<A>, b: seq<A>, f: A -> Option<B>)
    ensures FilterMap(a + b, f) == FilterMap(a, f) + FilterMap(b, f)
    decreases |b|
  {
    if |b| == 0 {
      assert a + b == a;
    } else {
      var n := |b| - 1;
      var ab := a + b;
      assert ab[..|ab| - 1] == a + b[..n];
      assert ab[|ab| - 1] == b[n];
      FilterMapConcat(a, b[..n], f);
    }
  }

  function Min(a: int, b: int): int {
    if a <= b then a else b
  }

  function Max(a: int, b: int): int {
    if a >= b then a else b
  }
}

=== FILE: batch.dfy ===
/** Batch processing of uploaded target lists in utils/sector_processing.py:
    `process_row`, `process_row_with_results`, `process_csv` and
    `process_csv_for_sky_map`. A row is the list of fields `csv.reader`
    produced for one line. */
module Batch {
  import opened Base
  import opened Text
  import opened External
  import opened Sectors
  import opened Resolution

  const BadFormatMessage: string := "Error: Invalid input format."

  /** What `process_row` returns: `(tic_id, object_name, coord)`. */
  datatype RowTarget = RowTarget(ticId: Option<nat>, objectName: Option<string>, coord: Coord)

  /** `process_row(row)`: two fields are RA and Dec, one digit-only field is
      a TIC id, one other field is an object name; any other field count
      raises. */
  function ProcessRow(row: seq<string>, o: Services): (r: Result<RowTarget>)
    ensures |row| != 1 && |row| != 2 ==> r == Raise(ValueError(BadFormatMessage))
    ensures |row| == 2 ==> (r.Ok? <==> o.parseSkyCoord(row[0] + " " + row[1]).Some?)
    ensures |row| == 2 && r.Ok? ==> r.value == RowTarget(None, None, o.parseSkyCoord(row[0] + " " + row[1]).value)
    ensures |row| == 1 && IsDigits(row[0]) ==>
      var n := DigitsValue(row[0]);
      var rows := o.ticCatalog(n);
      && (r.Ok? <==> rows.Ok? && |rows.value| > 0)
      && (r.Ok? ==> r.value == RowTarget(Some(n), None, rows.value[0]))
      && (r.Raise? ==> r.exc == if rows.Raise? then rows.exc else ValueError(InvalidTicMessage))
    ensures |row| == 1 && !IsDigits(row[0]) ==>
      && (r.Ok? <==> o.fromName(row[0]).Some?)
      && (r.Ok? ==> r.value == RowTarget(None, Some(row[0]), o.fromName(row[0]).value))
      && (r.Raise? ==> r.exc == NameResolveError(row[0]))
  {
    if |row| == 2 then
      var text := row[0] + " " + row[1];
      match o.parseSkyCoord(text)
      case Some(c) => Ok(RowTarget(None, None, c))
      case None => Raise(BadLiteral(text))
    else if |row| == 1 then
      if IsDigits(row[0]) then
        var n := DigitsValue(row[0]);
        RaDecOfId(n, o);
        var c :- RaDecFromTicId(NatToString(n), o);
        Ok(RowTarget(Some(n), None, c))
      else
        match o.fromName(row[0])
        case Some(c) => Ok(RowTarget(None, Some(row[0]), c))
        case None => Raise(NameResolveError(row[0]))
    else
      Raise(ValueError(BadFormatMessage))
  }

  /** The non-None value of `process_row_with_results`:
      `[coord.ra.deg, coord.dec.deg, results, cycle, obs_date]`. */
  datatype RowResult = RowResult(ra: real, dec: real, records: seq<SectorRecord>, cycle: Option<int>, obsDate: Option<string>)

  /** The query `process_row_with_results` runs: by TIC id when there is
      one (`is not None`, so id 0 counts), else by name, else by position. */
  function RowQuery(t: RowTarget, radius: real, o: Services): (r: Result<(seq<SectorRow>, seq<Cutout>)>)
    ensures t.ticId.Some? ==> Answers(r, ByTic(t.ticId.value), radius, o)
    ensures t.ticId.None? && t.objectName.Some? ==> Answers(r, ByName(t.objectName.value), radius, o)
    ensures t.ticId.None? && t.objectName.None? ==> Answers(r, ByCoord(t.coord), radius, o)
  {
    if t.ticId.Some? then QueryWithTicId(t.ticId.value, radius, o)
    else if t.objectName.Some? then QueryWithObjectName(t.objectName.value, radius, o)
    else QueryWithCoord(t.coord, radius, o)
  }

  /** `process_row_with_results(row, radius)`: the row's position with its
      sector records, or `None` when no sector record came back. */
  function ProcessRowWithResults(row: seq<string>, radius: real, o: Services): (r: Result<Option<RowResult>>)
    ensures ProcessRow(row, o).Raise? ==> r == Raise(ProcessRow(row, o).exc)
    ensures ProcessRow(row, o).Ok? ==> var q := RowQuery(ProcessRow(row, o).value, radius, o);
      && (q.Raise? ==> r == Raise(q.exc))
      && (q.Ok? ==> var n := ProcessSectors(q.value.0, q.value.1);
            && (n.Raise? ==> r == Raise(n.exc))
            && (n.Ok? ==> r.Ok?))
    ensures r.Ok? ==> ProcessRow(row, o).Ok? && var t := ProcessRow(row, o).value;
      var q := RowQuery(t, radius, o);
      q.Ok? && var n := ProcessSectors(q.value.0, q.value.1);
      && n.Ok?
      && (r.value.None? <==> |n.value.records| == 0)
      && (r.value.Some? ==> r.value.value.records == n.value.records)
      && (r.value.Some? ==> r.value.value.ra == t.coord.ra && r.value.value.dec == t.coord.dec)
    ensures r.Ok? && r.value.Some? ==> var res := r.value.value;
      && |res.records| > 0
      && res.cycle == Some(res.records[|res.records| - 1].cycle)
      && res.obsDate == Some(res.records[|res.records| - 1].obsDate)
  {
    var t :- ProcessRow(row, o);
    var q :- RowQuery(t, radius, o);
    var n :- ProcessSectors(q.0, q.1);
    if |n.records| > 0 then Ok(Some(RowResult(t.coord.ra, t.coord.dec, n.records, n.lastCycle, n.lastDate)))
    else Ok(None)
  }

  /** One output row of `process_csv`: `[coord_ra, coord_dec] + sector_info`. */
  datatype BatchRecord = BatchRecord(ra: real, dec: real, sector: int, cycle: int, camera: int, obsDate: string)

  /** The rows one row result contributes: one per sector record, each
      prefixed with the row's position. */
  function Flatten(result: Option<RowResult>): (out: seq<BatchRecord>)
    ensures result.None? ==> out == []
    ensures result.Some? ==> |out| == |result.value.records|
    ensures result.Some? ==> forall i :: 0 <= i < |out| ==>
      var rec := result.value.records[i];
      out[i] == BatchRecord(result.value.ra, result.value.dec, rec.sector, rec.cycle, rec.camera, rec.obsDate)
  {
    match result
    case None => []
    case Some(res) =>
      seq(|res.records|, i requires 0 <= i < |res.records| =>
        BatchRecord(res.ra, res.dec, res.records[i].sector, res.records[i].cycle, res.records[i].camera, res.records[i].obsDate))
  }

  /** The loop of `process_csv` over the row results: each non-None result
      contributes its rows, in order. */
  function FlattenAll(results: seq<Option<RowResult>>): (out: seq<BatchRecord>)
    ensures forall x :: x in out <==> exists i :: 0 <= i < |results| && x in Flatten(results[i])
    decreases |results|
  {
    if |results| == 0 then []
    else
      assert forall i :: 0 <= i < |results| - 1 ==> results[1..][i] == results[i + 1];
      Flatten(results[0]) + FlattenAll(results[1..])
  }

  lemma {:induction false} FlattenAllAppend(a: seq<Option<RowResult>>, b: seq<Option<RowResult>>)
    ensures FlattenAll(a + b) == FlattenAll(a) + FlattenAll(b)
    decreases |a|
  {
    if |a| == 0 {
      assert a + b == b;
    } else {
      assert (a + b)[0] == a[0];
      assert (a + b)[1..] == a[1..] + b;
      FlattenAllAppend(a[1..], b);
    }
  }

  /** The function `process_csv` maps over the rows. */
  function RowStep(radius: real, o: Services): seq<string> -> Result<Option<RowResult>> {
    row => ProcessRowWithResults(row, radius, o)
  }

  /** `process_csv(csv_file, radius)`. `executor.map` hands results back in
      row order, and `list(...)` re-raises the first failing row's error,
      so the pool behaves like a sequential map. */
  function ProcessCsv(rows: seq<seq<string>>, radius: real, o: Services): (r: Result<seq<BatchRecord>>)
    ensures r.Ok? <==> forall i :: 0 <= i < |rows| ==> ProcessRowWithResults(rows[i], radius, o).Ok?
    ensures r.Raise? ==> exists k :: (0 <= k < |rows| && ProcessRowWithResults(rows[k], radius, o).Raise?
      && (forall j :: 0 <= j < k ==> ProcessRowWithResults(rows[j], radius, o).Ok?)
      && r.exc == ProcessRowWithResults(rows[k], radius, o).exc)
  {
    MapAllFirstFailure(rows, RowStep(radius, o));
    var results :- MapAll(rows, RowStep(radius, o));
    Ok(FlattenAll(results))
  }

  /** `process_csv` distributes over the rows: processing two lists one
      after the other gives the concatenation of their outputs. */
  lemma ProcessCsvAppend(a: seq<seq<string>>, b: seq<seq<string>>, radius: real, o: Services)
    requires ProcessCsv(a + b, radius, o).Ok?
    ensures ProcessCsv(a, radius, o).Ok? && ProcessCsv(b, radius, o).Ok?
    ensures ProcessCsv(a + b, radius, o).value == ProcessCsv(a, radius, o).value + ProcessCsv(b, radius, o).value
  {
    var f := RowStep(radius, o);
    MapAllAppend(a, b, f);
    FlattenAllAppend(MapAll(a, f).value, MapAll(b, f).value);
  }

  /** A single row contributes one output row per sector record, carrying
      the row's position; a row without records contributes nothing. */
  lemma ProcessCsvSingle(row: seq<string>, radius: real, o: Services)
    requires ProcessRowWithResults(row, radius, o).Ok?
    ensures ProcessCsv([row], radius, o) == Ok(Flatten(ProcessRowWithResults(row, radius, o).value))
  {
    var h := ProcessRowWithResults(row, radius, o).value;
    assert MapAll([row], RowStep(radius, o)).value == [h];
    assert [h][1..] == [];
    assert FlattenAll([h]) == Flatten(h) + FlattenAll([]) == Flatten(h);
  }

  // -----------------------------------------------------------------------
  // process_csv_for_sky_map

  /** `{'ra': ..., 'dec': ..., 'target_name': ...}`. */
  datatype SkyTarget = SkyTarget(ra: real, dec: real, targetName: Option<string>)

  /** One row of `process_csv_for_sky_map`: two fields go through `float`,
      a digit field is looked up as a TIC id, another single field is
      resolved as a name. */
  function SkyMapRow(row: seq<string>, o: Services): (r: Result<SkyTarget>)
    ensures |row| != 1 && |row| != 2 ==> r == Raise(ValueError(BadFormatMessage))
    ensures |row| == 2 ==> (r.Ok? <==> o.parseFloat(row[0]).Some? && o.parseFloat(row[1]).Some?)
    ensures |row| == 2 && r.Ok? ==> r.value == SkyTarget(o.parseFloat(row[0]).value, o.parseFloat(row[1]).value, None)
    ensures |row| == 1 && IsDigits(row[0]) ==>
      var n := DigitsValue(row[0]);
      var rows := o.ticCatalog(n);
      && (r.Ok? <==> rows.Ok? && |rows.value| > 0)
      && (r.Ok? ==> r.value == SkyTarget(rows.value[0].ra, rows.value[0].dec, Some("TIC " + NatToString(n))))
      && (r.Raise? ==> r.exc == if rows.Raise? then rows.exc else ValueError(InvalidTicMessage))
    ensures |row| == 1 && !IsDigits(row[0]) ==>
      && (r.Ok? <==> o.fromName(row[0]).Some?)
      && (r.Ok? ==> r.value == SkyTarget(o.fromName(row[0]).value.ra, o.fromName(row[0]).value.dec, Some(row[0])))
      && (r.Raise? ==> r.exc == ValueError(InvalidNameMessage))
  {
    if |row| == 2 then
      match o.parseFloat(row[0])
      case None => Raise(BadLiteral(row[0]))
      case Some(ra) =>
        (match o.parseFloat(row[1])
         case None => Raise(BadLiteral(row[1]))
         case Some(dec) => Ok(SkyTarget(ra, dec, None)))
    else if |row| == 1 then
      if IsDigits(row[0]) then
        var n := DigitsValue(row[0]);
        RaDecOfId(n, o);
        var c :- RaDecFromTicId(NatToString(n), o);
        Ok(SkyTarget(c.ra, c.dec, Some("TIC " + NatToString(n))))
      else
        match o.fromName(row[0])
        case Some(c) => Ok(SkyTarget(c.ra, c.dec, Some(row[0])))
        case None => Raise(ValueError(InvalidNameMessage))
    else
      Raise(ValueError(BadFormatMessage))
  }

  function SkyMapStep(o: Services): seq<string> -> Result<SkyTarget> {
    row => SkyMapRow(row, o)
  }

  /** `process_csv_for_sky_map(csv_file)`: one target per row, in order;
      the first bad row aborts with its error. */
  function ProcessCsvForSkyMap(rows: seq<seq<string>>, o: Services): (r: Result<seq<SkyTarget>>)
    ensures r.Ok? <==> forall i :: 0 <= i < |rows| ==> SkyMapRow(rows[i], o).Ok?
    ensures r.Ok? ==> |r.value| == |rows| && forall i :: 0 <= i < |rows| ==> r.value[i] == SkyMapRow(rows[i], o).value
    ensures r.Raise? ==> exists k :: (0 <= k < |rows| && SkyMapRow(rows[k], o).Raise?
      && (forall j :: 0 <= j < k ==> SkyMapRow(rows[j], o).Ok?) && r.exc == SkyMapRow(rows[k], o).exc)
  {
    MapAllFirstFailure(rows, SkyMapStep(o));
    MapAll(rows, SkyMapStep(o))
  }
}

=== FILE: external.dfy ===
/** The external collaborators of the program, as uninterpreted functions.

    The survey footprint service (Tesscut), the catalog service (Catalogs),
    the coordinate parser and name resolver (SkyCoord), Python's `float` and
    `int` conversions and the `str` of a float are not modelled; the model
    receives them bundled in a `Services` value and only ever calls them. */
module External {
  import opened Base

  /** A sky position in degrees. */
  datatype Coord = Coord(ra: real, dec: real)

  /** One row of the footprint service's sector table. */
  datatype SectorRow = SectorRow(sector: int, camera: int)

  /** A FITS header: keyword to value text. */
  type Header = map<string, string>

  /** One cutout: the headers of its target pixel files, in order. */
  type Cutout = seq<Header>

  /** What the footprint service is asked about: a resolved position, an
      object name given as `objectname=`, or text given as `coordinates=`
      (which the service resolves itself). */
  datatype Target = AtCoord(coord: Coord) | Named(name: string) | CoordText(text: string)

  /** One row of a catalog answer, reduced to the columns the charts use:
      `lum`, `Teff`, `Tmag` and `dstArcSec`. */
  datatype CatalogStar = CatalogStar(lum: real, teff: real, tmag: real, dstArcSec: real)

  datatype Services = Services(
    /** `Catalogs.query_criteria(catalog="TIC", ID=n)`: the position of each
        row found, or the exception the query raises. */
    ticCatalog: nat -> Result<seq<Coord>>,
    /** `SkyCoord(text, unit="deg")`; `None` when it raises. */
    parseSkyCoord: string -> Option<Coord>,
    /** `SkyCoord.from_name(name)`; `None` when it raises NameResolveError. */
    fromName: string -> Option<Coord>,
    /** `Tesscut.get_sectors(..., radius=r * u.deg)`. */
    getSectors: (Target, real) -> Result<seq<SectorRow>>,
    /** `Tesscut.get_cutouts(coordinates=...)`. */
    getCutouts: Target -> Result<seq<Cutout>>,
    /** `Catalogs.query_region(coord, radius=1 arcmin, catalog="Tic")`, or
        the exception it raises. */
    queryRegion: Coord -> Result<seq<CatalogStar>>,
    /** `Catalogs.query_object(text, catalog="Tic")`, or the exception it raises. */
    queryObject: string -> Result<seq<CatalogStar>>,
    /** Python `float(text)`; `None` when it raises ValueError. */
    parseFloat: string -> Option<real>,
    /** Python `int(text)`; `None` when it raises ValueError. */
    parseInt: string -> Option<int>,
    /** Python `str(x)` for a float. */
    formatFloat: real -> string
  )
}

=== FILE: grouping.dfy ===
/** Python dictionaries and JavaScript objects used as insertion-ordered
    accumulators: `if k not in d: d[k] = init; d[k] = step(d[k], v)`.

    A dictionary is an association list of slots in insertion order. The
    main fact, `CollectSpec`, characterises the dictionary built from a
    sequence of key/value pairs without reference to how it was built:
    its keys are the distinct keys in order of first appearance, and the
    state under each key is the fold of exactly that key's values, in input
    order. */
module Grouping {
  import opened Base

  datatype Slot<K, S> = Slot(key: K, state: S)

  function KeysOf<K, V>(kvs: seq<(K, V)>): (ks: seq<K>)
    ensures |ks| == |kvs|
    ensures forall i :: 0 <= i < |kvs| ==> ks[i] == kvs[i].0
  {
    seq(|kvs|, i requires 0 <= i < |kvs| => kvs[i].0)
  }

  function SlotKeys<K, S>(slots: seq<Slot<K, S>>): (ks: seq<K>)
    ensures |ks| == |slots|
    ensures forall i :: 0 <= i < |slots| ==> ks[i] == slots[i].key
  {
    seq(|slots|, i requires 0 <= i < |slots| => slots[i].key)
  }

  /** The distinct elements of `ks`, each where it first appears. */
  function FirstAppearances<K(==)>(ks: seq<K>): (r: seq<K>)
    ensures forall k | k in r :: k in ks
    ensures forall k | k in ks :: k in r
    ensures forall i, j :: 0 <= i < j < |r| ==> r[i] != r[j]
    decreases |ks|
  {
    if |ks| == 0 then []
    else
      var p := FirstAppearances(ks[..|ks| - 1]);
      assert ks == ks[..|ks| - 1] + [ks[|ks| - 1]];
      if ks[|ks| - 1] in p then p else p + [ks[|ks| - 1]]
  }

  /** The values paired with key `k`, in input order. */
  function ValuesOf<K(==), V>(kvs: seq<(K, V)>, k: K): (vs: seq<V>)
    ensures |vs| <= |kvs|
    ensures k !in KeysOf(kvs) ==> vs == []
    decreases |kvs|
  {
    if |kvs| == 0 then []
    else
      var n := |kvs| - 1;
      assert KeysOf(kvs[..n]) == KeysOf(kvs)[..n];
      ValuesOf(kvs[..n], k) + (if kvs[n].0 == k then [kvs[n].1] else [])
  }

  /** Left fold: `step(...step(step(init, vs[0]), vs[1])..., vs[|vs|-1])`. */
  function Fold<S, V>(vs: seq<V>, step: (S, V) -> S, init: S): S
    decreases |vs|
  {
    if |vs| == 0 then init else step(Fold(vs[..|vs| - 1], step, init), vs[|vs| - 1])
  }

  /** Position of the slot holding key `k`, if any. */
  function Find<K(==), S>(slots: seq<Slot<K, S>>, k: K): (r: Option<nat>)
    ensures r.Some? ==> r.value < |slots| && slots[r.value].key == k
    ensures r.None? ==> k !in SlotKeys(slots)
    decreases |slots|
  {
    if |slots| == 0 then None
    else if slots[0].key == k then Some(0)
    else
      assert SlotKeys(slots) == [slots[0].key] + SlotKeys(slots[1..]);
      match Find(slots[1..], k)
      case Some(i) => Some(i + 1)
      case None => None
  }

  /** `if k not in d: d[k] = init` followed by `d[k] = step(d[k], v)`. */
  function Upsert<K(==), S, V>(slots: seq<Slot<K, S>>, k: K, v: V, step: (S, V) -> S, init: S): seq<Slot<K, S>>
  {
    match Find(slots, k)
    case Some(i) => slots[i := Slot(k, step(slots[i].state, v))]
    case None => slots + [Slot(k, step(init, v))]
  }

  /** The dictionary left by upserting every pair, in order. */
  function Collect<K(==), S, V>(kvs: seq<(K, V)>, step: (S, V) -> S, init: S): seq<Slot<K, S>>
    decreases |kvs|
  {
    if |kvs| == 0 then []
    else
      var n := |kvs| - 1;
      Upsert(Collect(kvs[..n], step, init), kvs[n].0, kvs[n].1, step, init)
  }

  /** `d.get(k)`. */
  function Lookup<K(==), S>(slots: seq<Slot<K, S>>, k: K): (r: Option<S>)
    ensures r.Some? <==> k in SlotKeys(slots)
  {
    match Find(slots, k)
    case Some(i) => Some(slots[i].state)
    case None => None
  }

  ghost predicate Describes<K, S, V>(slots: seq<Slot<K, S>>, kvs: seq<(K, V)>, step: (S, V) -> S, init: S) {
    && SlotKeys(slots) == FirstAppearances(KeysOf(kvs))
    && forall i :: 0 <= i < |slots| ==> slots[i].state == Fold(ValuesOf(kvs, slots[i].key), step, init)
  }

  lemma ExtendKeys<K, V>(p: seq<(K, V)>, k: K, v: V)
    ensures KeysOf(p + [(k, v)]) == KeysOf(p) + [k]
    ensures FirstAppearances(KeysOf(p + [(k, v)])) ==
      if k in FirstAppearances(KeysOf(p)) then FirstAppearances(KeysOf(p))
      else FirstAppearances(KeysOf(p)) + [k]
  {
    var kvs := p + [(k, v)];
    assert KeysOf(kvs) == KeysOf(p) + [k];
    assert KeysOf(kvs)[..|p|] == KeysOf(p);
  }

  lemma ExtendValues<K, V>(p: seq<(K, V)>, k: K, v: V, k': K)
    ensures ValuesOf(p + [(k, v)], k') == ValuesOf(p, k') + (if k == k' then [v] else [])
  {
    assert (p + [(k, v)])[..|p|] == p;
  }

  lemma FoldExtended<K, S, V>(p: seq<(K, V)>, k: K, v: V, step: (S, V) -> S, init: S)
    ensures Fold(ValuesOf(p + [(k, v)], k), step, init) == step(Fold(ValuesOf(p, k), step, init), v)
  {
    ExtendValues(p, k, v, k);
    var vs := ValuesOf(p + [(k, v)], k);
    assert vs[..|vs| - 1] == ValuesOf(p, k);
  }

  /** A key outside the new pair keeps its fold. */
  lemma FoldUntouched<K, S, V>(p: seq<(K, V)>, k: K, v: V, step: (S, V) -> S, init: S, other: K)
    requires other != k
    ensures Fold(ValuesOf(p + [(k, v)], other), step, init) == Fold(ValuesOf(p, other), step, init)
  {
    ExtendValues(p, k, v, other);
    assert ValuesOf(p, other) + [] == ValuesOf(p, other);
  }

  lemma {:induction false} UpsertExisting<K, S, V>(g: seq<Slot<K, S>>, p: seq<(K, V)>, k: K, v: V, step: (S, V) -> S, init: S, i: nat)
    requires Describes(g, p, step, init)
    requires i < |g| && g[i].key == k
    ensures Describes(g[i := Slot(k, step(g[i].state, v))], p + [(k, v)], step, init)
  {
    var kvs := p + [(k, v)];
    var r := g[i := Slot(k, step(g[i].state, v))];
    var ks := SlotKeys(g);
    ExtendKeys(p, k, v);
    assert ks[i] == k;
    assert k in FirstAppearances(KeysOf(p));
    assert FirstAppearances(KeysOf(kvs)) == ks;
    assert SlotKeys(r) == ks;
    forall j | 0 <= j < |r|
      ensures r[j].state == Fold(ValuesOf(kvs, r[j].key), step, init)
    {
      if j == i {
        FoldExtended(p, k, v, step, init);
      } else {
        assert r[j] == g[j];
        assert ks[j] != ks[i];
        FoldUntouched(p, k, v, step, init, g[j].key);
      }
    }
  }

  lemma {:induction false} UpsertNew<K, S, V>(g: seq<Slot<K, S>>, p: seq<(K, V)>, k: K, v: V, step: (S, V) -> S, init: S)
    requires Describes(g, p, step, init)
    requires k !in SlotKeys(g)
    ensures Describes(g + [Slot(k, step(init, v))], p + [(k, v)], step, init)
  {
    var kvs := p + [(k, v)];
    var r := g + [Slot(k, step(init, v))];
    var ks := SlotKeys(g);
    assert k !in FirstAppearances(KeysOf(p));
    ExtendKeys(p, k, v);
    assert SlotKeys(r) == FirstAppearances(KeysOf(kvs));
    assert ValuesOf(p, k) == [] by {
      assert k !in KeysOf(p);
    }
    forall j | 0 <= j < |r|
      ensures r[j].state == Fold(ValuesOf(kvs, r[j].key), step, init)
    {
      if j == |g| {
        FoldExtended(p, k, v, step, init);
      } else {
        assert ks[j] == g[j].key;
        FoldUntouched(p, k, v, step, init, g[j].key);
      }
    }
  }

  /** The dictionary built by `Collect` has the distinct keys in order of
      first appearance, and under each key the fold of that key's values. */
  lemma {:induction false} CollectSpec<K, S, V>(kvs: seq<(K, V)>, step: (S, V) -> S, init: S)
    ensures Describes(Collect(kvs, step, init), kvs, step, init)
    decreases |kvs|
  {
    if |kvs| > 0 {
      var n := |kvs| - 1;
      var p, k, v := kvs[..n], kvs[n].0, kvs[n].1;
      assert kvs == p + [(k, v)];
      var g := Collect(p, step, init);
      CollectSpec(p, step, init);
      match Find(g, k)
      case Some(i) => UpsertExisting(g, p, k, v, step, init, i);
      case None => UpsertNew(g, p, k, v, step, init);
    }
  }

  /** Looking a key up in the collected dictionary finds the fold of its
      values exactly when the key occurs in the input. */
  lemma LookupCollect<K, S, V>(kvs: seq<(K, V)>, step: (S, V) -> S, init: S, k: K)
    ensures k in KeysOf(kvs) ==> Lookup(Collect(kvs, step, init), k) == Some(Fold(ValuesOf(kvs, k), step, init))
    ensures k !in KeysOf(kvs) ==> Lookup(Collect(kvs, step, init), k) == None
  {
    CollectSpec(kvs, step, init);
  }

  /** The list-append step: `d[k].append(v)`. */
  function Snoc<V>(items: seq<V>, v: V): seq<V> {
    items + [v]
  }

  /** Appending values one by one to an empty list rebuilds the list. */
  lemma {:induction false} FoldSnoc<V>(vs: seq<V>)
    ensures Fold(vs, Snoc, []) == vs
    decreases |vs|
  {
    if |vs| > 0 {
      FoldSnoc(vs[..|vs| - 1]);
    }
  }

  // -----------------------------------------------------------------------
  // Partition: the groups of the distinct keys hold every value once

  /** `[f(x) for x in xs]`. */
  function MapSeq<A, B>(xs: seq<A>, f: A -> B): (ys: seq<B>)
    ensures |ys| == |xs|
    ensures forall i :: 0 <= i < |xs| ==> ys[i] == f(xs[i])
  {
    seq(|xs|, i requires 0 <= i < |xs| => f(xs[i]))
  }

  lemma MapSeqAppend<A, B>(a: seq<A>, b: seq<A>, f: A -> B)
    ensures MapSeq(a + b, f) == MapSeq(a, f) + MapSeq(b, f)
  {
  }

  /** The values of the keys `ks`, group by group, as a multiset. */
  function SumOver<K(==), V, T>(ks: seq<K>, kvs: seq<(K, V)>, d: V -> T): multiset<T>
    decreases |ks|
  {
    if |ks| == 0 then multiset{} else multiset(MapSeq(ValuesOf(kvs, ks[0]), d)) + SumOver(ks[1..], kvs, d)
  }

  predicate Distinct<K(==)>(ks: seq<K>) {
    forall i, j :: 0 <= i < j < |ks| ==> ks[i] != ks[j]
  }

  lemma DistinctTail<K>(ks: seq<K>)
    requires |ks| > 0 && Distinct(ks)
    ensures Distinct(ks[1..]) && ks[0] !in ks[1..]
  {
    forall i, j | 0 <= i < j < |ks[1..]| ensures ks[1..][i] != ks[1..][j] {
      assert ks[1..][i] == ks[i + 1] && ks[1..][j] == ks[j + 1];
    }
    forall i | 0 <= i < |ks[1..]| ensures ks[1..][i] != ks[0] {
      assert ks[1..][i] == ks[i + 1];
    }
  }

  /** Adding a pair adds its value to its own key's group only. */
  lemma GroupExtend<K, V, T>(p: seq<(K, V)>, k: K, v: V, k': K, d: V -> T)
    ensures multiset(MapSeq(ValuesOf(p + [(k, v)], k'), d)) ==
      multiset(MapSeq(ValuesOf(p, k'), d)) + (if k == k' then multiset{d(v)} else multiset{})
  {
    ExtendValues(p, k, v, k');
    MapSeqAppend(ValuesOf(p, k'), if k == k' then [v] else [], d);
  }

  /** Adding a pair adds its value to the groups of `ks` exactly when its
      key is one of them. */
  lemma {:induction false} SumOverExtend<K, V, T>(ks: seq<K>, p: seq<(K, V)>, k: K, v: V, d: V -> T)
    requires Distinct(ks)
    ensures SumOver(ks, p + [(k, v)], d) == SumOver(ks, p, d) + (if k in ks then multiset{d(v)} else multiset{})
    decreases |ks|
  {
    if |ks| > 0 {
      var rest := ks[1..];
      var q := p + [(k, v)];
      DistinctTail(ks);
      SumOverExtend(rest, p, k, v, d);
      GroupExtend(p, k, v, ks[0], d);
      assert SumOver(ks, q, d) == multiset(MapSeq(ValuesOf(q, ks[0]), d)) + SumOver(rest, q, d);
      assert SumOver(ks, p, d) == multiset(MapSeq(ValuesOf(p, ks[0]), d)) + SumOver(rest, p, d);
      if k == ks[0] {
        assert k in ks && k !in rest;
      } else {
        KeyInTail(ks, k);
      }
    }
  }

  lemma KeyInTail<K>(ks: seq<K>, k: K)
    requires |ks| > 0 && k != ks[0]
    ensures k in ks <==> k in ks[1..]
  {
    if k in ks {
      var i :| 0 <= i < |ks| && ks[i] == k;
      assert ks[1..][i - 1] == k;
    }
    if k in ks[1..] {
      var i :| 0 <= i < |ks[1..]| && ks[1..][i] == k;
      assert ks[i + 1] == k;
    }
  }

  /** The groups of `ks + [k]` are those of `ks` and the group of `k`. */
  lemma {:induction false} SumOverAppendKey<K, V, T>(ks: seq<K>, k: K, kvs: seq<(K, V)>, d: V -> T)
    ensures SumOver(ks + [k], kvs, d) == SumOver(ks, kvs, d) + multiset(MapSeq(ValuesOf(kvs, k), d))
    decreases |ks|
  {
    if |ks| == 0 {
      assert ([k])[1..] == [];
    } else {
      assert (ks + [k])[1..] == ks[1..] + [k];
      SumOverAppendKey(ks[1..], k, kvs, d);
    }
  }

  /** A key seen for the first time gets a group holding just its value. */
  lemma NewKeyGroup<K, V, T>(p: seq<(K, V)>, k: K, v: V, d: V -> T)
    requires k !in FirstAppearances(KeysOf(p))
    ensures var ks := FirstAppearances(KeysOf(p));
      SumOver(ks + [k], p + [(k, v)], d) == SumOver(ks, p + [(k, v)], d) + multiset{d(v)}
  {
    var ks := FirstAppearances(KeysOf(p));
    SumOverAppendKey(ks, k, p + [(k, v)], d);
    assert k !in KeysOf(p);
    ExtendValues(p, k, v, k);
    assert ValuesOf(p + [(k, v)], k) == [v];
  }

  lemma PartitionStep<K, V, T>(p: seq<(K, V)>, k: K, v: V, d: V -> T, dp: ((K, V)) -> T)
    requires forall kv :: dp(kv) == d(kv.1)
    requires SumOver(FirstAppearances(KeysOf(p)), p, d) == multiset(MapSeq(p, dp))
    ensures SumOver(FirstAppearances(KeysOf(p + [(k, v)])), p + [(k, v)], d) == multiset(MapSeq(p + [(k, v)], dp))
  {
    var ks := FirstAppearances(KeysOf(p));
    ExtendKeys(p, k, v);
    SumOverExtend(ks, p, k, v, d);
    MapSeqAppend(p, [(k, v)], dp);
    assert MapSeq([(k, v)], dp) == [d(v)];
    if k !in ks {
      NewKeyGroup(p, k, v, d);
    }
  }

  /** Grouping loses and duplicates nothing: the groups of the distinct
      keys, taken together, hold every value of the input exactly once.
      `dp` reads a pair's value the way `d` reads a value. */
  lemma {:induction false} Partition<K, V, T>(kvs: seq<(K, V)>, d: V -> T, dp: ((K, V)) -> T)
    requires forall kv :: dp(kv) == d(kv.1)
    ensures SumOver(FirstAppearances(KeysOf(kvs)), kvs, d) == multiset(MapSeq(kvs, dp))
    decreases |kvs|
  {
    if |kvs| > 0 {
      var n := |kvs| - 1;
      assert kvs == kvs[..n] + [(kvs[n].0, kvs[n].1)];
      Partition(kvs[..n], d, dp);
      PartitionStep(kvs[..n], kvs[n].0, kvs[n].1, d, dp);
    }
  }

  // -----------------------------------------------------------------------
  // Sizes

  /** The total size of the states, for a given measure of one state. */
  function SumSizes<K, S>(slots: seq<Slot<K, S>>, size: S -> nat): nat
    decreases |slots|
  {
    if |slots| == 0 then 0 else size(slots[0].state) + SumSizes(slots[1..], size)
  }

  lemma {:induction false} SumSizesAppend<K, S>(slots: seq<Slot<K, S>>, x: Slot<K, S>, size: S -> nat)
    ensures SumSizes(slots + [x], size) == SumSizes(slots, size) + size(x.state)
    decreases |slots|
  {
    if |slots| == 0 {
      assert ([x])[1..] == [];
    } else {
      assert (slots + [x])[1..] == slots[1..] + [x];
      SumSizesAppend(slots[1..], x, size);
    }
  }

  lemma {:induction false} SumSizesUpdate<K, S>(slots: seq<Slot<K, S>>, i: nat, x: Slot<K, S>, size: S -> nat)
    requires i < |slots|
    ensures SumSizes(slots[i := x], size) + size(slots[i].state) == SumSizes(slots, size) + size(x.state)
    decreases |slots|
  {
    if i == 0 {
      assert slots[i := x][1..] == slots[1..];
    } else {
      assert slots[i := x][1..] == slots[1..][i - 1 := x];
      SumSizesUpdate(slots[1..], i - 1, x, size);
    }
  }

  /** When every step grows a state by one, an upsert grows the total by one. */
  lemma UpsertSize<K, S, V>(slots: seq<Slot<K, S>>, k: K, v: V, step: (S, V) -> S, init: S, size: S -> nat)
    requires size(init) == 0
    requires forall s: S, w: V :: size(step(s, w)) == size(s) + 1
    ensures SumSizes(Upsert(slots, k, v, step, init), size) == SumSizes(slots, size) + 1
  {
    match Find(slots, k)
    case Some(i) => SumSizesUpdate(slots, i, Slot(k, step(slots[i].state, v)), size);
    case None => SumSizesAppend(slots, Slot(k, step(init, v)), size);
  }

  /** ... so the collected dictionary holds exactly one unit per pair. */
  lemma {:induction false} CollectTotal<K, S, V>(kvs: seq<(K, V)>, step: (S, V) -> S, init: S, size: S -> nat)
    requires size(init) == 0
    requires forall s: S, w: V :: size(step(s, w)) == size(s) + 1
    ensures SumSizes(Collect(kvs, step, init), size) == |kvs|
    decreases |kvs|
  {
    if |kvs| > 0 {
      var n := |kvs| - 1;
      CollectTotal(kvs[..n], step, init, size);
      UpsertSize(Collect(kvs[..n], step, init), kvs[n].0, kvs[n].1, step, init, size);
    }
  }
}

=== FILE: lookup.dfy ===
/** main.py: the `/lookup_tic` route, which takes the TIC id the sky-map
    page posts, removes the "TIC" prefix and answers with the catalog
    position or an error with status 500. */
module TicLookup {
  import opened Base
  import opened Text
  import opened External
  import opened Resolution
  import opened SkyMap

  /** The JSON answer: `{'ra': ra, 'dec': dec}`, or `{'error': str(e)}`
      with status 500. */
  datatype Reply = Located(ra: real, dec: real) | Failed(status: nat, error: string)

  /** `tic_id.replace('TIC', '').replace('tic', '').strip()`. */
  function NormalizeTicId(s: string): (r: string)
    ensures |r| <= |s|
    ensures Trimmed(r, IsSpace)
  {
    Strip(RemoveAll(RemoveAll(s, "TIC"), "tic"))
  }

  /** `lookup_tic()` with the form field `tic_id`, missing or given. Every
      exception, the missing field and a failing catalog query included,
      becomes status 500 with the exception's text. */
  function LookupTic(field: Option<string>, o: Services): (r: Reply)
    ensures r.Failed? ==> r.status == 500
    ensures field.None? ==> r == Failed(500, KeyError("tic_id").Text())
    ensures field.Some? ==> (r.Located? <==> RaDecFromTicId(NormalizeTicId(field.value), o).Ok?)
    ensures field.Some? && r.Located? ==>
      RaDecFromTicId(NormalizeTicId(field.value), o) == Ok(Coord(r.ra, r.dec))
    ensures field.Some? && r.Failed? ==> var d := NormalizeTicId(field.value);
      || r.error == InvalidTicMessage
      || (IsDigits(d) && o.ticCatalog(DigitsValue(d)).Raise? && r.error == o.ticCatalog(DigitsValue(d)).exc.Text())
  {
    match field
    case None => Failed(500, KeyError("tic_id").Text())
    case Some(text) =>
      match RaDecFromTicId(NormalizeTicId(text), o)
      case Ok(c) => Located(c.ra, c.dec)
      case Raise(e) => Failed(500, e.Text())
  }

  /** Digits contain no white space and no letter of "TIC" or "tic". */
  lemma DigitsUntouched(d: string)
    requires IsDigits(d)
    ensures Trimmed(d, IsSpace)
    ensures 'T' !in d && 't' !in d && 'T' !in " " + d && 't' !in " " + d
  {
    assert IsDigit(d[0]) && IsDigit(d[|d| - 1]);
    forall k | 0 <= k < |" " + d|
      ensures (" " + d)[k] != 'T' && (" " + d)[k] != 't'
    {
      if k > 0 {
        assert (" " + d)[k] == d[k - 1] && IsDigit(d[k - 1]);
      }
    }
    assert forall k :: 0 <= k < |d| ==> d[k] == (" " + d)[k + 1];
  }

  /** A digit string comes out of the normalisation unchanged, with or
      without an upper- or lower-case prefix in front. */
  lemma NormalizeDigits(d: string)
    requires IsDigits(d)
    ensures NormalizeTicId(d) == d
    ensures NormalizeTicId("TIC " + d) == d
    ensures NormalizeTicId("tic " + d) == d
  {
    DigitsUntouched(d);
    RemoveAllAbsent(d, "TIC");
    RemoveAllAbsent(d, "tic");
    var w := " " + d;
    assert ("TIC " + d)[..3] == "TIC" && ("TIC " + d)[3..] == w;
    RemoveAllAbsent(w, "TIC");
    RemoveAllAbsent(w, "tic");
    assert RemoveAll("TIC " + d, "TIC") == w;
    assert 'T' !in "tic " + d by {
      assert forall k :: 4 <= k < |"tic " + d| ==> ("tic " + d)[k] == d[k - 4];
    }
    RemoveAllAbsent("tic " + d, "TIC");
    assert ("tic " + d)[..3] == "tic" && ("tic " + d)[3..] == w;
    assert RemoveAll("tic " + d, "tic") == w;
    StripLeadingSpace(d);
  }

  /** Only the exact spellings "TIC" and "tic" are removed: a prefix in any
      other letter case is left in place. */
  lemma MixedCaseKept()
    ensures NormalizeTicId("Tic 5") == "Tic 5"
  {
    var s := "Tic 5";
    assert s[..3] != "TIC" by {
      assert s[..3][1] == 'i';
    }
    RemoveAllAbsent(s[1..], "TIC");
    assert RemoveAll(s, "TIC") == s by {
      assert [s[0]] + s[1..] == s;
    }
    RemoveAllAbsent(s, "tic");
    assert Trimmed("Tic 5", IsSpace);
  }

  /** The page prefixes bare digits with "TIC " and sends a prefixed id as
      it is. */
  lemma TicFormOfDigits(d: string)
    requires IsDigits(d)
    ensures TicForm(d) == "TIC " + d
    ensures TicForm("TIC " + d) == "TIC " + d
    ensures TicForm("tic " + d) == "tic " + d
  {
    assert !HasTicPrefix(d) by {
      assert IsDigit(d[0]);
    }
    assert HasTicPrefix("TIC " + d) by {
      assert ("TIC " + d)[..3] == "TIC";
    }
    assert HasTicPrefix("tic " + d) by {
      assert ("tic " + d)[..3] == "tic";
    }
  }

  /** What the sky-map page posts for a TIC id typed as digits, with or
      without a prefix, is normalised back to those digits. */
  lemma PostedFormNormalizes(d: string)
    requires IsDigits(d)
    ensures NormalizeTicId(TicForm(d)) == d
    ensures NormalizeTicId(TicForm("TIC " + d)) == d
    ensures NormalizeTicId(TicForm("tic " + d)) == d
  {
    TicFormOfDigits(d);
    NormalizeDigits(d);
  }

  /** A posted id that normalises to digits is located exactly when the
      catalog answers with a row for it, at that row's position; a failing
      catalog query is answered with its text, and an empty answer with the
      "Invalid TIC ID" error, both with status 500. */
  lemma LookupNormalized(text: string, d: string, o: Services)
    requires IsDigits(d) && NormalizeTicId(text) == d
    ensures var r := LookupTic(Some(text), o);
      var rows := o.ticCatalog(DigitsValue(d));
      && (r.Located? <==> rows.Ok? && |rows.value| > 0)
      && (r.Located? ==> Coord(r.ra, r.dec) == rows.value[0])
      && (rows.Raise? ==> r == Failed(500, rows.exc.Text()))
      && (rows.Ok? && r.Failed? ==> r == Failed(500, InvalidTicMessage))
  {
  }

  /** The whole round trip for a TIC id typed as digits on the sky-map
      page. */
  lemma LookupDigits(d: string, o: Services)
    requires IsDigits(d)
    ensures var r := LookupTic(Some(TicForm(d)), o);
      var rows := o.ticCatalog(DigitsValue(d));
      && (r.Located? <==> rows.Ok? && |rows.value| > 0)
      && (r.Located? ==> Coord(r.ra, r.dec) == rows.value[0])
      && (rows.Raise? ==> r == Failed(500, rows.exc.Text()))
      && (rows.Ok? && r.Failed? ==> r == Failed(500, InvalidTicMessage))
  {
    PostedFormNormalizes(d);
    LookupNormalized(TicForm(d), d, o);
  }
}

=== FILE: metadata.dfy ===
/** utils/metadata.py: `get_metadata`, which asks the catalog about each
    target and keeps four columns of its answer. */
module Metadata {
  import opened Base
  import opened External

  /** `(luminosity, temperature, star_name, magnitudes, distance)`: four
      columns of one catalog answer and the name the target is shown under.
      The unit attached to the first two columns does not change their
      values and is not modelled. */
  datatype MetaTuple = MetaTuple(lum: seq<real>, teff: seq<real>, starName: string, tmag: seq<real>, dist: seq<real>)

  /** The columns `lum`, `Teff`, `Tmag` and `dstArcSec` of a catalog answer. */
  function Describe(stars: seq<CatalogStar>, starName: string): (t: MetaTuple)
    ensures |t.lum| == |t.teff| == |t.tmag| == |t.dist| == |stars|
    ensures t.starName == starName
    ensures forall j :: 0 <= j < |stars| ==>
      CatalogStar(t.lum[j], t.teff[j], t.tmag[j], t.dist[j]) == stars[j]
  {
    MetaTuple(
      seq(|stars|, j requires 0 <= j < |stars| => stars[j].lum),
      seq(|stars|, j requires 0 <= j < |stars| => stars[j].teff),
      starName,
      seq(|stars|, j requires 0 <= j < |stars| => stars[j].tmag),
      seq(|stars|, j requires 0 <= j < |stars| => stars[j].dstArcSec))
  }

  /** The catalog rows a tuple's aligned columns stand for. */
  function Rows(t: MetaTuple): seq<CatalogStar>
    requires |t.lum| == |t.teff| == |t.tmag| == |t.dist|
  {
    seq(|t.lum|, j requires 0 <= j < |t.lum| => CatalogStar(t.lum[j], t.teff[j], t.tmag[j], t.dist[j]))
  }

  /** No catalog row is lost or scrambled when it is split into columns:
      reading the columns back row by row gives the catalog answer. */
  lemma DescribeRoundTrip(stars: seq<CatalogStar>, starName: string)
    ensures var t := Describe(stars, starName);
      |t.lum| == |t.teff| == |t.tmag| == |t.dist| && Rows(t) == stars
  {
  }

  /** The name a position is shown under: `f"{ra} {dec}"`. */
  function PositionName(c: Coord, o: Services): string {
    o.formatFloat(c.ra) + " " + o.formatFloat(c.dec)
  }

  /** The predicate every query of a list answers: the first failing
      query's error, or one described answer per input, in order. */
  predicate QueriedInOrder<A>(r: Result<Option<seq<MetaTuple>>>, xs: seq<A>, query: A -> Result<seq<CatalogStar>>, labelOf: A -> string) {
    && (r.Ok? <==> forall i :: 0 <= i < |xs| ==> query(xs[i]).Ok?)
    && (r.Ok? ==> r.value.Some? && |r.value.value| == |xs| && forall i :: 0 <= i < |xs| ==>
          r.value.value[i] == Describe(query(xs[i]).value, labelOf(xs[i])))
    && (r.Raise? ==> exists k :: (0 <= k < |xs| && query(xs[k]).Raise?
          && (forall j :: 0 <= j < k ==> query(xs[j]).Ok?) && r.exc == query(xs[k]).exc))
  }

  /** Querying one input and describing the answer under its label. */
  function DescribeStep<A>(query: A -> Result<seq<CatalogStar>>, labelOf: A -> string): A -> Result<MetaTuple> {
    x => match query(x)
         case Ok(stars) => Ok(Describe(stars, labelOf(x)))
         case Raise(e) => Raise(e)
  }

  /** The `for` loop over one list followed by the loop that describes
      the answers. A failing query is not caught, so the first one aborts
      the call. */
  function QueryAll<A>(xs: seq<A>, query: A -> Result<seq<CatalogStar>>, labelOf: A -> string): (r: Result<Option<seq<MetaTuple>>>)
    ensures QueriedInOrder(r, xs, query, labelOf)
  {
    var f := DescribeStep(query, labelOf);
    MapAllFirstFailure(xs, f);
    assert forall i :: 0 <= i < |xs| ==> (f(xs[i]).Ok? <==> query(xs[i]).Ok?);
    match MapAll(xs, f)
    case Ok(ts) => Ok(Some(ts))
    case Raise(e) => Raise(e)
  }

  /** The labelOf of a position, of a name and of a TIC id. */
  function PositionLabel(o: Services): Coord -> string {
    c => PositionName(c, o)
  }

  function NameLabel(name: string): string {
    name
  }

  function TicLabel(id: string): string {
    "TIC " + id
  }

  /** `get_metadata(coords, object_names, tic_ids)`. An argument left as
      `None` is falsy exactly like an empty list, so both are `[]` here. The
      first non-empty list is used and the others are ignored; `None` comes
      back when all three are empty. A failing catalog query propagates. */
  function GetMetadata(coords: seq<Coord>, names: seq<string>, ticIds: seq<string>, o: Services): (r: Result<Option<seq<MetaTuple>>>)
    ensures r == Ok(None) <==> coords == [] && names == [] && ticIds == []
    ensures coords != [] ==> QueriedInOrder(r, coords, o.queryRegion, PositionLabel(o))
    ensures coords == [] && names != [] ==> QueriedInOrder(r, names, o.queryObject, NameLabel)
    ensures coords == [] && names == [] && ticIds != [] ==> QueriedInOrder(r, ticIds, o.queryObject, TicLabel)
  {
    if coords != [] then QueryAll(coords, o.queryRegion, PositionLabel(o))
    else if names != [] then QueryAll(names, o.queryObject, NameLabel)
    else if ticIds != [] then QueryAll(ticIds, o.queryObject, TicLabel)
    else Ok(None)
  }

  /** A list of TIC ids is queried exactly as the same strings given as
      object names would be: the same rows, the same first failure; only
      the labelOf gains the "TIC " prefix. */
  lemma TicIdsLabelled(ids: seq<string>, o: Services)
    requires ids != []
    ensures var r := GetMetadata([], [], ids, o);
      var s := GetMetadata([], ids, [], o);
      && (r.Ok? <==> s.Ok?)
      && (r.Raise? ==> r.exc == s.exc)
      && (r.Ok? ==> forall i :: 0 <= i < |ids| ==>
        && r.value.value[i].starName == "TIC " + ids[i]
        && Rows(r.value.value[i]) == o.queryObject(ids[i]).value
        && Rows(r.value.value[i]) == Rows(s.value.value[i]))
  {
    var r := GetMetadata([], [], ids, o);
    var s := GetMetadata([], ids, [], o);
    if r.Ok? {
      forall i | 0 <= i < |ids|
        ensures Rows(Describe(o.queryObject(ids[i]).value, "TIC " + ids[i])) == o.queryObject(ids[i]).value
        ensures Rows(Describe(o.queryObject(ids[i]).value, ids[i])) == o.queryObject(ids[i]).value
      {
        DescribeRoundTrip(o.queryObject(ids[i]).value, "TIC " + ids[i]);
        DescribeRoundTrip(o.queryObject(ids[i]).value, ids[i]);
      }
    } else {
      var k1 :| 0 <= k1 < |ids| && o.queryObject(ids[k1]).Raise?
        && (forall j :: 0 <= j < k1 ==> o.queryObject(ids[j]).Ok?) && r.exc == o.queryObject(ids[k1]).exc;
      var k2 :| 0 <= k2 < |ids| && o.queryObject(ids[k2]).Raise?
        && (forall j :: 0 <= j < k2 ==> o.queryObject(ids[j]).Ok?) && s.exc == o.queryObject(ids[k2]).exc;
      assert k1 == k2;
    }
  }
}

=== FILE: resolution.dfy ===
/** Single-target search in utils/sector_processing.py: classifying the
    search text (`resolve_input`), choosing and running the footprint query
    (`query_sectors` and its three helpers), `get_ra_dec_from_tic_id`, and
    the `sectors` / `process_data` pair that the search form calls. */
module Resolution {
  import opened Base
  import opened Text
  import opened External
  import opened Sectors

  /** What `resolve_input` found: a position, an object name, a TIC id.
      (The `ra`/`dec` it also returns are the position's components.) */
  datatype Resolved = Resolved(coord: Option<Coord>, objectName: Option<string>, ticId: Option<nat>)

  /** The second attempt of `resolve_input`: `ra, dec = text.split(" ")`
      (which raises unless there are exactly two pieces), then
      `SkyCoord(f"{ra} {dec}")`. */
  function SplitRetry(text: string, o: Services): Option<Coord> {
    if ' ' !in text then None
    else
      var parts := Split(text, ' ');
      if |parts| == 2 then o.parseSkyCoord(parts[0] + " " + parts[1]) else None
  }

  /** Re-joining the two pieces of a two-piece split gives back the text,
      so the second attempt parses the very string the first one did. */
  lemma SplitRetryRebuilds(text: string)
    requires |Split(text, ' ')| == 2
    ensures Split(text, ' ')[0] + " " + Split(text, ' ')[1] == text
  {
    var parts := Split(text, ' ');
    JoinSplit(text, ' ');
    assert Join(parts[1..], " ") == parts[1];
  }

  /** The second attempt never finds a position the first one missed. */
  lemma SplitRetryRedundant(text: string, o: Services)
    ensures SplitRetry(text, o).Some? ==> SplitRetry(text, o) == o.parseSkyCoord(text)
  {
    if ' ' in text && |Split(text, ' ')| == 2 {
      SplitRetryRebuilds(text);
    }
  }

  /** `resolve_input(search_input)`. A digit-only input is a TIC id, looked
      up in the catalog (whose failure propagates); anything else is parsed
      as a position, and kept as an object name when that fails. */
  function Resolve(input: string, o: Services): (r: Result<Resolved>)
    ensures IsDigits(input) ==> var rows := o.ticCatalog(DigitsValue(input));
      && (r.Ok? <==> rows.Ok?)
      && (r.Raise? ==> r.exc == rows.exc)
      && (r.Ok? ==>
        && r.value.ticId == Some(DigitsValue(input))
        && r.value.objectName == Some("TIC " + NatToString(DigitsValue(input)))
        && (r.value.coord.Some? <==> |rows.value| > 0)
        && (r.value.coord.Some? ==> r.value.coord.value == rows.value[0]))
    ensures !IsDigits(input) ==>
      && r.Ok?
      && r.value.ticId == None
      && r.value.coord == o.parseSkyCoord(input)
      && (r.value.objectName.Some? <==> r.value.coord.None?)
      && (r.value.objectName.Some? ==> r.value.objectName.value == input)
  {
    if IsDigits(input) then
      var n := DigitsValue(input);
      var rows :- o.ticCatalog(n);
      Ok(Resolved(if |rows| > 0 then Some(rows[0]) else None, Some("TIC " + NatToString(n)), Some(n)))
    else
      match o.parseSkyCoord(input)
      case Some(c) => Ok(Resolved(Some(c), None, None))
      case None =>
        SplitRetryRedundant(input, o);
        match SplitRetry(input, o)
        case Some(c) => Ok(Resolved(Some(c), None, None))
        case None => Ok(Resolved(None, Some(input), None))
  }

  // -----------------------------------------------------------------------
  // Choosing the query

  /** Python truthiness of an optional name: present and non-empty. */
  predicate NameGiven(name: Option<string>) {
    name.Some? && name.value != ""
  }

  /** Python truthiness of an optional TIC id: present and non-zero. */
  predicate TicGiven(tic: Option<nat>) {
    tic.Some? && tic.value != 0
  }

  /** Which of the three footprint queries runs. */
  datatype Query = ByCoord(coord: Coord) | ByName(name: string) | ByTic(id: nat)

  const NoTargetMessage: string := "Error: Please provide either RA and Dec or Object Name or TIC ID."

  /** The branch taken by `query_sectors`: a position first, then a name,
      then a TIC id; ValueError when none of them is truthy. */
  function ChooseQuery(coord: Option<Coord>, name: Option<string>, tic: Option<nat>): (r: Result<Query>)
    ensures r.Ok? <==> coord.Some? || NameGiven(name) || TicGiven(tic)
    ensures r.Raise? ==> r.exc == ValueError(NoTargetMessage)
    ensures r.Ok? && r.value.ByCoord? ==> coord == Some(r.value.coord)
    ensures r.Ok? && r.value.ByName? ==> coord.None? && name == Some(r.value.name) && r.value.name != ""
    ensures r.Ok? && r.value.ByTic? ==> coord.None? && !NameGiven(name) && tic == Some(r.value.id) && r.value.id != 0
  {
    if coord.Some? then Ok(ByCoord(coord.value))
    else if NameGiven(name) then Ok(ByName(name.value))
    else if TicGiven(tic) then Ok(ByTic(tic.value))
    else Raise(ValueError(NoTargetMessage))
  }

  /** A resolved search text never reaches the TIC-id query: a digit input
      always carries its "TIC n" name, which wins. The query fails only for
      the empty text that does not parse as a position. */
  lemma ResolvedQuery(input: string, o: Services)
    ensures Resolve(input, o).Raise? ==> IsDigits(input)
    ensures var r := Resolve(input, o);
      r.Ok? ==> var q := ChooseQuery(r.value.coord, r.value.objectName, r.value.ticId);
      && (q.Raise? <==> input == "" && o.parseSkyCoord("").None?)
      && (q.Ok? ==> !q.value.ByTic?)
      && (q.Ok? && q.value.ByName? ==> q.value.name == input || IsDigits(input))
  {
  }

  /** `query_sectors_with_tic_id`'s normalisation of `str(tic_id)`:
      strip, then prefix "TIC " unless the text already starts with "TIC". */
  function TicQueryString(text: string): (q: string)
    ensures StartsWith(q, "TIC")
    ensures |Strip(text)| <= |q| <= |Strip(text)| + 4
    ensures q[|q| - |Strip(text)|..] == Strip(text)
    ensures q == Strip(text) <==> StartsWith(Strip(text), "TIC")
    ensures !StartsWith(Strip(text), "TIC") ==> q == "TIC " + Strip(text)
  {
    var t := Strip(text);
    if StartsWith(t, "TIC") then t else "TIC " + t
  }

  /** Prefixing is idempotent for ids that are not blank. */
  lemma TicQueryIdempotent(text: string)
    requires Strip(text) != ""
    ensures TicQueryString(TicQueryString(text)) == TicQueryString(text)
  {
    var t := Strip(text);
    if !StartsWith(t, "TIC") {
      var q := "TIC " + t;
      assert q[0] == 'T' && q[|q| - 1] == t[|t| - 1];
      assert Trimmed(q, IsSpace);
      assert q[..3] == "TIC";
    }
  }

  /** A blank id is the exception: the added space is stripped away again. */
  lemma TicQueryBlank()
    ensures TicQueryString("") == "TIC "
    ensures TicQueryString("TIC ") == "TIC"
  {
    assert Trimmed("", IsSpace);
    var q := "TIC ";
    assert TrimRight(q, IsSpace) == TrimRight("TIC", IsSpace);
    assert Trimmed("TIC", IsSpace);
    assert Strip(q) == "TIC";
  }

  /** The integer ids the callers pass always get the prefix, and a
      prefixed id asks for the same target as the bare one. */
  lemma TicQueryOfId(n: nat)
    ensures TicQueryString(NatToString(n)) == "TIC " + NatToString(n)
    ensures TicQueryString("TIC " + NatToString(n)) == "TIC " + NatToString(n)
  {
    var d := NatToString(n);
    assert Trimmed(d, IsSpace);
    assert !StartsWith(d, "TIC") by { assert IsDigit(d[0]); }
    TicQueryIdempotent(d);
    var q := "TIC " + d;
    assert q[0] == 'T' && q[|q| - 1] == d[|d| - 1];
    assert Trimmed(q, IsSpace);
  }

  // -----------------------------------------------------------------------
  // Running the query

  /** The error of the first failing call of a fetch: `get_sectors`, or
      `get_cutouts` when `get_sectors` answered. */
  function FirstFetchError(sectorTarget: Target, cutoutTarget: Target, radius: real, o: Services): Exception {
    if o.getSectors(sectorTarget, radius).Raise? then o.getSectors(sectorTarget, radius).exc
    else if o.getCutouts(cutoutTarget).Raise? then o.getCutouts(cutoutTarget).exc
    else ServiceError("")
  }

  /** `get_sectors` then `get_cutouts`; the first failure propagates. */
  function Fetch(sectorTarget: Target, cutoutTarget: Target, radius: real, o: Services): (r: Result<(seq<SectorRow>, seq<Cutout>)>)
    ensures r.Ok? <==> o.getSectors(sectorTarget, radius).Ok? && o.getCutouts(cutoutTarget).Ok?
    ensures r.Ok? ==> r.value == (o.getSectors(sectorTarget, radius).value, o.getCutouts(cutoutTarget).value)
    ensures r.Raise? ==> r.exc == FirstFetchError(sectorTarget, cutoutTarget, radius, o)
  {
    var s :- o.getSectors(sectorTarget, radius);
    var c :- o.getCutouts(cutoutTarget);
    Ok((s, c))
  }

  const InvalidNameMessage: string := "Error: Invalid object name."

  /** `except NameResolveError: raise ValueError(...)`; anything else passes. */
  function RenameUnresolved(e: Exception): (r: Exception)
    ensures !r.NameResolveError?
    ensures !e.NameResolveError? ==> r == e
  {
    if e.NameResolveError? then ValueError(InvalidNameMessage) else e
  }

  /** `query_sectors_with_coord`: both calls get the position. */
  function QueryWithCoord(c: Coord, radius: real, o: Services): (r: Result<(seq<SectorRow>, seq<Cutout>)>)
    ensures r.Ok? <==> o.getSectors(AtCoord(c), radius).Ok? && o.getCutouts(AtCoord(c)).Ok?
    ensures r.Ok? ==> r.value == (o.getSectors(AtCoord(c), radius).value, o.getCutouts(AtCoord(c)).value)
    ensures r.Raise? ==> r.exc == FirstFetchError(AtCoord(c), AtCoord(c), radius, o)
  {
    Fetch(AtCoord(c), AtCoord(c), radius, o)
  }

  /** `query_sectors_with_object_name`: the name goes to `get_sectors` as
      `objectname=` but to `get_cutouts` as `coordinates=`, and a failed
      name resolution in either call becomes "Invalid object name". */
  function QueryWithObjectName(name: string, radius: real, o: Services): (r: Result<(seq<SectorRow>, seq<Cutout>)>)
    ensures r.Ok? <==> o.getSectors(Named(name), radius).Ok? && o.getCutouts(CoordText(name)).Ok?
    ensures r.Ok? ==> r.value == (o.getSectors(Named(name), radius).value, o.getCutouts(CoordText(name)).value)
    ensures r.Raise? ==> !r.exc.NameResolveError?
    ensures r.Raise? ==> r.exc == RenameUnresolved(FirstFetchError(Named(name), CoordText(name), radius, o))
  {
    match Fetch(Named(name), CoordText(name), radius, o)
    case Ok(v) => Ok(v)
    case Raise(e) => Raise(RenameUnresolved(e))
  }

  /** `query_sectors_with_tic_id`: both calls get the text "TIC n". */
  function QueryWithTicId(id: nat, radius: real, o: Services): (r: Result<(seq<SectorRow>, seq<Cutout>)>)
    ensures var t := CoordText("TIC " + NatToString(id));
      && (r.Ok? <==> o.getSectors(t, radius).Ok? && o.getCutouts(t).Ok?)
      && (r.Ok? ==> r.value == (o.getSectors(t, radius).value, o.getCutouts(t).value))
      && (r.Raise? ==> r.exc == FirstFetchError(t, t, radius, o))
  {
    var t := CoordText(TicQueryString(NatToString(id)));
    assert t == CoordText("TIC " + NatToString(id)) by { TicQueryOfId(id); }
    Fetch(t, t, radius, o)
  }

  /** What a query asks `get_sectors` about. */
  function SectorTarget(q: Query): Target {
    match q
    case ByCoord(c) => AtCoord(c)
    case ByName(n) => Named(n)
    case ByTic(id) => CoordText("TIC " + NatToString(id))
  }

  /** What a query asks `get_cutouts` about. */
  function CutoutTarget(q: Query): Target {
    match q
    case ByCoord(c) => AtCoord(c)
    case ByName(n) => CoordText(n)
    case ByTic(id) => CoordText("TIC " + NatToString(id))
  }

  /** `r` answers query `q`: the sector table and cutouts the footprint
      service gives for the query's targets, or the first failure, with a
      failed name resolution renamed for a name query. */
  predicate Answers(r: Result<(seq<SectorRow>, seq<Cutout>)>, q: Query, radius: real, o: Services) {
    var st, ct := SectorTarget(q), CutoutTarget(q);
    && (r.Ok? <==> o.getSectors(st, radius).Ok? && o.getCutouts(ct).Ok?)
    && (r.Ok? ==> r.value == (o.getSectors(st, radius).value, o.getCutouts(ct).value))
    && (r.Raise? ==> var e := FirstFetchError(st, ct, radius, o);
          r.exc == if q.ByName? then RenameUnresolved(e) else e)
  }

  /** The query `query_sectors` runs once it has chosen a branch. */
  function RunQuery(q: Query, radius: real, o: Services): (r: Result<(seq<SectorRow>, seq<Cutout>)>)
    ensures Answers(r, q, radius, o)
  {
    match q
    case ByCoord(c) => QueryWithCoord(c, radius, o)
    case ByName(n) => QueryWithObjectName(n, radius, o)
    case ByTic(id) => QueryWithTicId(id, radius, o)
  }

  // -----------------------------------------------------------------------
  // get_ra_dec_from_tic_id

  const InvalidTicMessage: string := "Error: Invalid TIC ID."

  /** `get_ra_dec_from_tic_id(tic_id)`: resolves `str(tic_id)` and fails
      when no position comes out. The text goes through the full
      classification, so a non-digit text is parsed as a position; a failing
      catalog query propagates. */
  function RaDecFromTicId(text: string, o: Services): (r: Result<Coord>)
    ensures r.Raise? ==>
      || r.exc == ValueError(InvalidTicMessage)
      || (IsDigits(text) && o.ticCatalog(DigitsValue(text)) == Raise(r.exc))
    ensures IsDigits(text) ==> var rows := o.ticCatalog(DigitsValue(text));
      && (rows.Raise? ==> r == Raise(rows.exc))
      && (rows.Ok? ==> (r.Ok? <==> |rows.value| > 0))
      && (rows.Ok? && r.Ok? ==> r.value == rows.value[0])
      && (rows.Ok? && r.Raise? ==> r.exc == ValueError(InvalidTicMessage))
    ensures !IsDigits(text) ==> (r.Ok? <==> o.parseSkyCoord(text).Some?)
    ensures !IsDigits(text) && r.Ok? ==> r.value == o.parseSkyCoord(text).value
    ensures !IsDigits(text) && r.Raise? ==> r.exc == ValueError(InvalidTicMessage)
  {
    var res :- Resolve(text, o);
    match res.coord
    case Some(c) => Ok(c)
    case None => Raise(ValueError(InvalidTicMessage))
  }

  /** For an integer id: the catalog's failure, its first row, or "Invalid
      TIC ID" when it has no row. */
  lemma RaDecOfId(n: nat, o: Services)
    ensures RaDecFromTicId(NatToString(n), o) ==
      match o.ticCatalog(n)
      case Raise(e) => Raise(e)
      case Ok(rows) => if |rows| > 0 then Ok(rows[0]) else Raise(ValueError(InvalidTicMessage))
  {
    DigitsValueOfNatToString(n);
  }

  // -----------------------------------------------------------------------
  // sectors() and process_data()

  /** What `sectors()` returns: the error string (for an input that
      resolved to nothing truthy), or the processed sectors with the
      resolution they came from. */
  datatype SectorsAnswer = NothingResolved | Found(resolved: Resolved, normalized: Normalized)

  /** `sectors(search_input, radius)`: resolve, choose the query, run it,
      normalise what comes back; each step's failure propagates. */
  function SectorsFor(input: string, radius: real, o: Services): (r: Result<SectorsAnswer>)
    ensures Resolve(input, o).Raise? ==> r == Raise(Resolve(input, o).exc)
    ensures r == Ok(NothingResolved) <==> input == "" && o.parseSkyCoord("").None?
    ensures Resolve(input, o).Ok? ==> var res := Resolve(input, o).value;
      var q := ChooseQuery(res.coord, res.objectName, res.ticId);
      && (q.Raise? ==> r == Ok(NothingResolved))
      && (q.Ok? ==> var f := RunQuery(q.value, radius, o);
        && (f.Raise? ==> r == Raise(f.exc))
        && (f.Ok? ==> var n := ProcessSectors(f.value.0, f.value.1);
          && (n.Raise? ==> r == Raise(n.exc))
          && (n.Ok? ==> r == Ok(Found(res, n.value)))))
  {
    ResolvedQuery(input, o);
    var res :- Resolve(input, o);
    if res.coord.None? && !NameGiven(res.objectName) && !TicGiven(res.ticId) then
      Ok(NothingResolved)
    else
      var q := ChooseQuery(res.coord, res.objectName, res.ticId).value;
      var fetched :- RunQuery(q, radius, o);
      var n :- ProcessSectors(fetched.0, fetched.1);
      Ok(Found(res, n))
  }

  /** The page data `process_data` returns. */
  datatype SearchView = SearchView(results: seq<SectorRecord>, starName: Option<string>, sectorNum: Option<int>)

  /** Unpacking the error string of `sectors()` into nine names. */
  const UnpackMessage: string := "too many values to unpack (expected 9)"

  /** `process_data(search_input, radius, sector_number)`. */
  function ProcessData(input: string, radius: real, sectorNumber: Option<int>, o: Services): (r: Result<SearchView>)
    ensures SectorsFor(input, radius, o).Raise? ==> r == Raise(SectorsFor(input, radius, o).exc)
    ensures input == "" && o.parseSkyCoord("").None? ==> r == Raise(ValueError(UnpackMessage))
    ensures r.Ok? ==> var a := SectorsFor(input, radius, o);
      && a.Ok? && a.value.Found?
      && r.value.sectorNum == sectorNumber && r.value.starName == a.value.resolved.objectName
      && var all := a.value.normalized.records;
      && IsSubsequence(r.value.results, all)
      && (sectorNumber.None? ==> r.value.results == all)
      && (sectorNumber.Some? ==> forall i :: 0 <= i < |r.value.results| ==> r.value.results[i].sector == sectorNumber.value)
    ensures var a := SectorsFor(input, radius, o);
      a.Ok? && a.value.NothingResolved? ==> r == Raise(ValueError(UnpackMessage))
    ensures var a := SectorsFor(input, radius, o);
      a.Ok? && a.value.Found? ==>
        r == Ok(SearchView(KeepSector(a.value.normalized.records, sectorNumber), a.value.resolved.objectName, sectorNumber))
  {
    var answer :- SectorsFor(input, radius, o);
    match answer
    case NothingResolved => Raise(ValueError(UnpackMessage))
    case Found(res, n) => Ok(SearchView(KeepSector(n.records, sectorNumber), res.objectName, sectorNumber))
  }
}

=== FILE: results_csv.dfy ===
/** utils/csv_processing.py: `download`, which regroups the result rows of
    a batch by position and writes them as a CSV table, and `csv_upload`,
    which routes an upload request. A CSV table is a sequence of rows of
    cells; the quoting `csv.writer` adds is not modelled. */
module ResultsCsv {
  import opened Base
  import opened Text
  import opened Grouping
  import opened External
  import opened Batch

  /** A written cell: a float (`ra`, `dec`) or text. */
  datatype Cell = Num(x: real) | Str(s: string)

  /** The four value fields of one result, as text. */
  datatype Fields = Fields(sector: string, cycle: string, camera: string, obsDate: string)

  /** One accepted result: its position and its value fields. */
  datatype Entry = Entry(ra: real, dec: real, fields: Fields)

  predicate IsBracket(c: char) {
    c == '[' || c == ']'
  }

  /** `float(field.strip('[]'))` on an already stripped field. */
  function Coordinate(field: string, o: Services): Option<real> {
    o.parseFloat(Trim(field, IsBracket))
  }

  /** The `try` block of `download` for one result string: six
      comma-separated fields, each whitespace-stripped, the first two
      parsed as floats after dropping brackets. Any ValueError (a wrong
      field count or a bad float) skips the result. */
  function ParseResult(line: string, o: Services): (r: Option<Entry>)
    ensures r.Some? <==> var f := Split(line, ',');
      |f| == 6 && Coordinate(Strip(f[0]), o).Some? && Coordinate(Strip(f[1]), o).Some?
    ensures r.Some? ==> var f := Split(line, ',');
      && r.value.ra == Coordinate(Strip(f[0]), o).value
      && r.value.dec == Coordinate(Strip(f[1]), o).value
      && r.value.fields == Fields(Strip(f[2]), Strip(f[3]), Strip(f[4]), Strip(f[5]))
  {
    var f := Split(line, ',');
    if |f| != 6 then None
    else
      match Coordinate(Strip(f[0]), o)
      case None => None
      case Some(ra) =>
        match Coordinate(Strip(f[1]), o)
        case None => None
        case Some(dec) => Some(Entry(ra, dec, Fields(Strip(f[2]), Strip(f[3]), Strip(f[4]), Strip(f[5]))))
  }

  /** Writing six comma-free fields with ',' between them and parsing the
      line gives back the stripped fields. */
  lemma ParseJoined(parts: seq<string>, o: Services)
    requires |parts| == 6
    requires forall i :: 0 <= i < 6 ==> ',' !in parts[i]
    ensures Split(Join(parts, ","), ',') == parts
    ensures var r := ParseResult(Join(parts, ","), o);
      && (r.Some? <==> Coordinate(Strip(parts[0]), o).Some? && Coordinate(Strip(parts[1]), o).Some?)
      && (r.Some? ==> r.value.fields == Fields(Strip(parts[2]), Strip(parts[3]), Strip(parts[4]), Strip(parts[5])))
  {
    SplitJoin(parts, ',');
  }

  function ParseStep(o: Services): string -> Option<Entry> {
    line => ParseResult(line, o)
  }

  /** The results the `for` loop keeps, in input order. */
  function Accepted(results: seq<string>, o: Services): (es: seq<Entry>)
    ensures |es| <= |results|
  {
    FilterMap(results, ParseStep(o))
  }

  /** An entry is kept exactly when some result parses to it. */
  lemma AcceptedMembers(results: seq<string>, o: Services, e: Entry)
    ensures e in Accepted(results, o) <==> exists i :: 0 <= i < |results| && ParseResult(results[i], o) == Some(e)
  {
    FilterMapMembers(results, ParseStep(o), e);
  }

  /** A single result is kept exactly when it parses. */
  lemma AcceptedSingle(line: string, o: Services)
    ensures Accepted([line], o) == if ParseResult(line, o).Some? then [ParseResult(line, o).value] else []
  {
    assert [line][..0] == [];
  }

  /** Each result is kept or skipped on its own: the entries of two lists
      of results, one after the other, are the entries of each. */
  lemma AcceptedConcat(a: seq<string>, b: seq<string>, o: Services)
    ensures Accepted(a + b, o) == Accepted(a, o) + Accepted(b, o)
  {
    FilterMapConcat(a, b, ParseStep(o));
  }

  // -----------------------------------------------------------------------
  // Grouping: data[ra][dec].append(row)

  type DecGroups = seq<Slot<real, seq<Fields>>>
  type RaGroups = seq<Slot<real, DecGroups>>

  /** `if dec not in data[ra]: data[ra][dec] = []` and the append. */
  function AddToDec(groups: DecGroups, item: (real, Fields)): DecGroups {
    Upsert(groups, item.0, item.1, Snoc, [])
  }

  /** The pairs `(ra, (dec, fields))` the loop inserts, in order. */
  function Keyed(es: seq<Entry>): (kvs: seq<(real, (real, Fields))>)
    ensures |kvs| == |es|
    ensures forall i :: 0 <= i < |es| ==> kvs[i] == (es[i].ra, (es[i].dec, es[i].fields))
  {
    seq(|es|, i requires 0 <= i < |es| => (es[i].ra, (es[i].dec, es[i].fields)))
  }

  /** Folding the inner step over a list of pairs is collecting it. */
  lemma {:induction false} FoldAddToDec(vs: seq<(real, Fields)>)
    ensures Fold(vs, AddToDec, []) == Collect(vs, Snoc, [])
    decreases |vs|
  {
    if |vs| > 0 {
      FoldAddToDec(vs[..|vs| - 1]);
    }
  }

  /** The shape of `data`: positions (RA) in order of first appearance;
      under each, declinations in order of first appearance among the
      results with that RA; under each (RA, Dec), the value fields of
      exactly those results, in input order. */
  ghost predicate GroupedAs(g: RaGroups, kvs: seq<(real, (real, Fields))>) {
    && SlotKeys(g) == FirstAppearances(KeysOf(kvs))
    && forall i :: 0 <= i < |g| ==>
      var vs := ValuesOf(kvs, g[i].key);
      && SlotKeys(g[i].state) == FirstAppearances(KeysOf(vs))
      && forall j :: 0 <= j < |g[i].state| ==> g[i].state[j].state == ValuesOf(vs, g[i].state[j].key)
  }

  /** The nested dictionary `data` once the loop is done. */
  function Group(es: seq<Entry>): (g: RaGroups)
    ensures GroupedAs(g, Keyed(es))
  {
    GroupedCollect(Keyed(es));
    Collect(Keyed(es), AddToDec, [])
  }

  lemma GroupedCollect(kvs: seq<(real, (real, Fields))>)
    ensures GroupedAs(Collect(kvs, AddToDec, []), kvs)
  {
    var g := Collect(kvs, AddToDec, []);
    CollectSpec(kvs, AddToDec, []);
    forall i | 0 <= i < |g|
      ensures var vs := ValuesOf(kvs, g[i].key);
        && SlotKeys(g[i].state) == FirstAppearances(KeysOf(vs))
        && forall j :: 0 <= j < |g[i].state| ==> g[i].state[j].state == ValuesOf(vs, g[i].state[j].key)
    {
      var vs := ValuesOf(kvs, g[i].key);
      FoldAddToDec(vs);
      CollectSpec(vs, Snoc, []);
      forall j | 0 <= j < |g[i].state|
        ensures g[i].state[j].state == ValuesOf(vs, g[i].state[j].key)
      {
        FoldSnoc(ValuesOf(vs, g[i].state[j].key));
      }
    }
  }

  // -----------------------------------------------------------------------
  // Writing the table

  /** The header row `download` writes. */
  const HeaderAsWritten: seq<string> := ["RA", "Dec", "Sector", "Camera", "Cycle", "Observation Date"]

  /** The header that names the value columns in the order they are
      written (sector, cycle, camera). */
  const Header: seq<string> := ["RA", "Dec", "Sector", "Cycle", "Camera", "Observation Date"]

  /** `row[-1].rstrip(']')`. */
  function DropClosingBrackets(s: string): (r: string)
    ensures |r| <= |s| && r == s[..|r|]
    ensures forall k :: |r| <= k < |s| ==> s[k] == ']'
    ensures r == [] || r[|r| - 1] != ']'
  {
    TrimRight(s, c => c == ']')
  }

  /** The value cells of a result: sector, cycle, camera, and the date
      without trailing ']'. */
  function ValueCells(f: Fields): seq<Cell> {
    [Str(f.sector), Str(f.cycle), Str(f.camera), Str(DropClosingBrackets(f.obsDate))]
  }

  /** One written row: RA and Dec on the first row of a group only, then
      the value fields in input order, the last without trailing ']'. */
  function EmitRow(ra: real, dec: real, first: bool, f: Fields): (row: seq<Cell>)
    ensures |row| == |Header|
    ensures first ==> row[0] == Num(ra) && row[1] == Num(dec)
    ensures !first ==> row[0] == Str("") && row[1] == Str("")
    ensures row[2..] == ValueCells(f)
  {
    [if first then Num(ra) else Str(""), if first then Num(dec) else Str(""),
     Str(f.sector), Str(f.cycle), Str(f.camera), Str(DropClosingBrackets(f.obsDate))]
  }

  /** `for idx, row in enumerate(row_list)` for one (RA, Dec) group. */
  function EmitGroup(ra: real, dec: real, rows: seq<Fields>): (out: seq<seq<Cell>>)
    ensures |out| == |rows|
    ensures forall k :: 0 <= k < |rows| ==> out[k] == EmitRow(ra, dec, k == 0, rows[k])
  {
    seq(|rows|, k requires 0 <= k < |rows| => EmitRow(ra, dec, k == 0, rows[k]))
  }

  function GroupSize(rows: seq<Fields>): nat {
    |rows|
  }

  function DecSize(groups: DecGroups): nat {
    SumSizes(groups, GroupSize)
  }

  /** `for dec, row_list in dec_dict.items()`. */
  function EmitDecs(ra: real, groups: DecGroups): (out: seq<seq<Cell>>)
    ensures |out| == DecSize(groups)
    decreases |groups|
  {
    if |groups| == 0 then []
    else EmitGroup(ra, groups[0].key, groups[0].state) + EmitDecs(ra, groups[1..])
  }

  /** `for ra, dec_dict in data.items()`. */
  function EmitAll(groups: RaGroups): (out: seq<seq<Cell>>)
    ensures |out| == SumSizes(groups, DecSize)
    decreases |groups|
  {
    if |groups| == 0 then []
    else EmitDecs(groups[0].key, groups[0].state) + EmitAll(groups[1..])
  }

  /** The rows after the header, for a list of result strings. */
  function DataRows(results: seq<string>, o: Services): seq<seq<Cell>> {
    EmitAll(Group(Accepted(results, o)))
  }

  // -----------------------------------------------------------------------
  // The layout of the data rows, stated without the dictionary

  /** For each Dec of `decs`, the group of values with that Dec. */
  function DecBlocks(ra: real, decs: seq<real>, vs: seq<(real, Fields)>): seq<seq<Cell>>
    decreases |decs|
  {
    if |decs| == 0 then [] else EmitGroup(ra, decs[0], ValuesOf(vs, decs[0])) + DecBlocks(ra, decs[1..], vs)
  }

  /** For each RA of `ras`, its Decs in order of first appearance among
      the pairs with that RA, each with its group. */
  function RaBlocks(ras: seq<real>, kvs: seq<(real, (real, Fields))>): seq<seq<Cell>>
    decreases |ras|
  {
    if |ras| == 0 then []
    else
      var vs := ValuesOf(kvs, ras[0]);
      DecBlocks(ras[0], FirstAppearances(KeysOf(vs)), vs) + RaBlocks(ras[1..], kvs)
  }

  /** The data rows the grouping promises: RAs in order of first
      appearance; under each, its Decs in order of first appearance; under
      each (RA, Dec), the entries at that position in input order, the
      position written on the first of them only. */
  function Regrouped(es: seq<Entry>): seq<seq<Cell>> {
    RaBlocks(FirstAppearances(KeysOf(Keyed(es))), Keyed(es))
  }

  lemma {:induction false} EmitDecsBlocks(ra: real, groups: DecGroups, decs: seq<real>, vs: seq<(real, Fields)>)
    requires |groups| == |decs|
    requires forall j :: 0 <= j < |groups| ==> groups[j].key == decs[j] && groups[j].state == ValuesOf(vs, decs[j])
    ensures EmitDecs(ra, groups) == DecBlocks(ra, decs, vs)
    decreases |groups|
  {
    if |groups| > 0 {
      assert forall j :: 0 <= j < |groups| - 1 ==> groups[1..][j] == groups[j + 1] && decs[1..][j] == decs[j + 1];
      EmitDecsBlocks(ra, groups[1..], decs[1..], vs);
    }
  }

  /** The dictionary `g` has the RAs `ras`, and under each the Decs and
      groups the pairs `kvs` give it. */
  ghost predicate RasMatch(g: RaGroups, ras: seq<real>, kvs: seq<(real, (real, Fields))>) {
    && |g| == |ras|
    && forall i :: 0 <= i < |g| ==> var vs := ValuesOf(kvs, ras[i]); var decs := FirstAppearances(KeysOf(vs));
      && g[i].key == ras[i]
      && |g[i].state| == |decs|
      && forall j :: 0 <= j < |g[i].state| ==> g[i].state[j].key == decs[j] && g[i].state[j].state == ValuesOf(vs, decs[j])
  }

  lemma {:induction false} EmitAllBlocks(g: RaGroups, ras: seq<real>, kvs: seq<(real, (real, Fields))>)
    requires RasMatch(g, ras, kvs)
    ensures EmitAll(g) == RaBlocks(ras, kvs)
    decreases |g|
  {
    if |g| > 0 {
      var vs := ValuesOf(kvs, ras[0]);
      EmitDecsBlocks(ras[0], g[0].state, FirstAppearances(KeysOf(vs)), vs);
      assert forall i :: 0 <= i < |g| - 1 ==> g[1..][i] == g[i + 1] && ras[1..][i] == ras[i + 1];
      EmitAllBlocks(g[1..], ras[1..], kvs);
    }
  }

  /** The rows written from the dictionary are the regrouped rows. */
  lemma EmitAllRegrouped(es: seq<Entry>)
    ensures EmitAll(Group(es)) == Regrouped(es)
  {
    var g := Group(es);
    var kvs := Keyed(es);
    var ras := FirstAppearances(KeysOf(kvs));
    forall i | 0 <= i < |g|
      ensures var vs := ValuesOf(kvs, ras[i]); var decs := FirstAppearances(KeysOf(vs));
        && g[i].key == ras[i]
        && |g[i].state| == |decs|
        && forall j :: 0 <= j < |g[i].state| ==> g[i].state[j].key == decs[j] && g[i].state[j].state == ValuesOf(vs, decs[j])
    {
      assert SlotKeys(g)[i] == g[i].key;
      var vs := ValuesOf(kvs, ras[i]);
      assert forall j :: 0 <= j < |g[i].state| ==> SlotKeys(g[i].state)[j] == g[i].state[j].key;
    }
    EmitAllBlocks(g, ras, kvs);
  }

  // -----------------------------------------------------------------------
  // The regrouping is a permutation

  /** The cells of a written row after RA and Dec. */
  function ValuePart(row: seq<Cell>): seq<Cell> {
    if |row| >= 2 then row[2..] else []
  }

  function EntryCells(e: Entry): seq<Cell> {
    ValueCells(e.fields)
  }

  function PairCells(p: (real, Fields)): seq<Cell> {
    ValueCells(p.1)
  }

  function KeyedCells(kv: (real, (real, Fields))): seq<Cell> {
    PairCells(kv.1)
  }

  lemma GroupCells(ra: real, dec: real, fs: seq<Fields>)
    ensures MapSeq(EmitGroup(ra, dec, fs), ValuePart) == MapSeq(fs, ValueCells)
  {
  }

  lemma {:induction false} DecBlocksCells(ra: real, decs: seq<real>, vs: seq<(real, Fields)>)
    ensures multiset(MapSeq(DecBlocks(ra, decs, vs), ValuePart)) == SumOver(decs, vs, ValueCells)
    decreases |decs|
  {
    if |decs| > 0 {
      var head := EmitGroup(ra, decs[0], ValuesOf(vs, decs[0]));
      DecBlocksCells(ra, decs[1..], vs);
      GroupCells(ra, decs[0], ValuesOf(vs, decs[0]));
      MapSeqAppend(head, DecBlocks(ra, decs[1..], vs), ValuePart);
    }
  }

  lemma {:induction false} RaBlocksCells(ras: seq<real>, kvs: seq<(real, (real, Fields))>)
    ensures multiset(MapSeq(RaBlocks(ras, kvs), ValuePart)) == SumOver(ras, kvs, PairCells)
    decreases |ras|
  {
    if |ras| > 0 {
      var vs := ValuesOf(kvs, ras[0]);
      var head := DecBlocks(ras[0], FirstAppearances(KeysOf(vs)), vs);
      RaBlocksCells(ras[1..], kvs);
      DecBlocksCells(ras[0], FirstAppearances(KeysOf(vs)), vs);
      Partition(vs, ValueCells, PairCells);
      MapSeqAppend(head, RaBlocks(ras[1..], kvs), ValuePart);
    }
  }

  /** Regrouping only reorders: the value cells of the regrouped rows are,
      as a multiset, exactly those of the entries. */
  lemma RegroupedPermutes(es: seq<Entry>)
    ensures multiset(MapSeq(Regrouped(es), ValuePart)) == multiset(MapSeq(es, EntryCells))
  {
    RaBlocksCells(FirstAppearances(KeysOf(Keyed(es))), Keyed(es));
    Partition(Keyed(es), PairCells, KeyedCells);
    assert MapSeq(Keyed(es), KeyedCells) == MapSeq(es, EntryCells);
  }

  // -----------------------------------------------------------------------
  // download()

  /** A header row's cells. */
  function HeaderRow(labels: seq<string>): (row: seq<Cell>)
    ensures |row| == |labels| && forall i :: 0 <= i < |labels| ==> row[i] == Str(labels[i])
  {
    MapSeq(labels, l => Str(l))
  }

  /** `download()` as written: the header, then the grouped rows. */
  function DownloadAsWritten(results: seq<string>, o: Services): (table: seq<seq<Cell>>)
    ensures |table| >= 1 && table[0] == HeaderRow(HeaderAsWritten)
    ensures table[1..] == Regrouped(Accepted(results, o))
  {
    EmitAllRegrouped(Accepted(results, o));
    [HeaderRow(HeaderAsWritten)] + DataRows(results, o)
  }

  /** `download()` with the header naming the columns in their written order. */
  function Download(results: seq<string>, o: Services): (table: seq<seq<Cell>>)
    ensures |table| >= 1 && table[0] == HeaderRow(Header)
    ensures table[1..] == Regrouped(Accepted(results, o))
  {
    EmitAllRegrouped(Accepted(results, o));
    [HeaderRow(Header)] + DataRows(results, o)
  }

  /** The data rows of the download are a rearrangement of the accepted
      results: every result's value cells appear exactly once. */
  lemma DownloadPermutes(results: seq<string>, o: Services)
    ensures multiset(MapSeq(Download(results, o)[1..], ValuePart)) == multiset(MapSeq(Accepted(results, o), EntryCells))
    ensures Download(results, o)[1..] == DownloadAsWritten(results, o)[1..]
  {
    RegroupedPermutes(Accepted(results, o));
  }

  /** One inner upsert adds one row. */
  lemma AddToDecGrows(groups: DecGroups, item: (real, Fields))
    ensures DecSize(AddToDec(groups, item)) == DecSize(groups) + 1
  {
    UpsertSize(groups, item.0, item.1, Snoc, [], GroupSize);
  }

  /** One data row per accepted result: nothing is lost or duplicated by
      the regrouping. */
  lemma RowCount(results: seq<string>, o: Services)
    ensures |Download(results, o)| == 1 + |Accepted(results, o)|
    ensures |DownloadAsWritten(results, o)| == 1 + |Accepted(results, o)|
  {
    forall s: DecGroups, w: (real, Fields)
      ensures DecSize(AddToDec(s, w)) == DecSize(s) + 1
    {
      AddToDecGrows(s, w);
    }
    CollectTotal(Keyed(Accepted(results, o)), AddToDec, [], DecSize);
  }

  /** The header as written labels column 3 "Camera" and column 4 "Cycle",
      but column 3 holds the cycle and column 4 the camera. */
  lemma HeaderMislabelsColumns(ra: real, dec: real, first: bool, f: Fields)
    ensures HeaderAsWritten[3] == "Camera" && EmitRow(ra, dec, first, f)[3] == Str(f.cycle)
    ensures HeaderAsWritten[4] == "Cycle" && EmitRow(ra, dec, first, f)[4] == Str(f.camera)
  {
    assert EmitRow(ra, dec, first, f)[2..][1] == EmitRow(ra, dec, first, f)[3];
    assert EmitRow(ra, dec, first, f)[2..][2] == EmitRow(ra, dec, first, f)[4];
  }

  /** A concrete row: sector 5, cycle 1, camera 2 is shown as camera 1,
      cycle 2. */
  lemma HeaderMislabelExample()
    ensures var row := EmitRow(10.0, 20.0, true, Fields("5", "1", "2", "2019-07-18"));
      HeaderAsWritten[3] == "Camera" && row[3] == Str("1") && HeaderAsWritten[4] == "Cycle" && row[4] == Str("2")
  {
    HeaderMislabelsColumns(10.0, 20.0, true, Fields("5", "1", "2", "2019-07-18"));
  }

  /** With the corrected header, every named column holds that value. */
  lemma HeaderLabelsMatch(ra: real, dec: real, first: bool, f: Fields)
    ensures var row := EmitRow(ra, dec, first, f);
      && Header[2] == "Sector" && row[2] == Str(f.sector)
      && Header[3] == "Cycle" && row[3] == Str(f.cycle)
      && Header[4] == "Camera" && row[4] == Str(f.camera)
      && Header[5] == "Observation Date" && row[5] == Str(DropClosingBrackets(f.obsDate))
  {
    var row := EmitRow(ra, dec, first, f);
    assert row[2..][0] == row[2] && row[2..][1] == row[3] && row[2..][2] == row[4] && row[2..][3] == row[5];
  }

  // -----------------------------------------------------------------------
  // csv_upload

  /** An uploaded file: its name and the rows `csv.reader` reads from it. */
  datatype Upload = Upload(filename: string, rows: seq<seq<string>>)

  /** What `csv_upload` answers. */
  datatype UploadResponse =
    | SkyMapTargets(targets: seq<SkyTarget>)    // jsonify(targets)
    | PageError(message: string)                // the page with `error=`
    | ResultsPage(results: seq<BatchRecord>)    // the page with `results=`
    | NoFileProvided                            // {"error": "No file provided"}, 400

  /** The HTTP status of a response. */
  function Status(r: UploadResponse): nat {
    if r.NoFileProvided? then 400 else 200
  }

  /** `csv_upload()` for a request with an optional `csv_file` and an
      optional `radius` form field. A failure of the sky-map branch is not
      caught and propagates. */
  function CsvUpload(file: Option<Upload>, radius: Option<string>, o: Services): (r: Result<UploadResponse>)
    ensures file.None? ==> r == Ok(NoFileProvided) && Status(r.value) == 400
    ensures file.Some? && radius.None? ==>
      && (r.Ok? <==> ProcessCsvForSkyMap(file.value.rows, o).Ok?)
      && (r.Ok? ==> r.value == SkyMapTargets(ProcessCsvForSkyMap(file.value.rows, o).value))
    ensures file.Some? && radius == Some("") ==> r == Ok(PageError("Radius value is required"))
    ensures file.Some? && radius.Some? && radius.value != "" && o.parseFloat(radius.value).None? ==>
      r == Ok(PageError("Invalid radius value"))
    ensures file.Some? && radius.Some? && radius.value != "" && o.parseFloat(radius.value).Some? && file.value.filename == "" ==>
      r == Ok(PageError("CSV file is required"))
    ensures file.Some? && radius.Some? && radius.value != "" && o.parseFloat(radius.value).Some? && file.value.filename != "" ==>
      var b := ProcessCsv(file.value.rows, o.parseFloat(radius.value).value, o);
      && (b.Ok? ==> r == Ok(ResultsPage(b.value)))
      && (b.Raise? ==> r == Ok(PageError("Error processing CSV file: " + b.exc.Text())))
    ensures file.Some? && radius.Some? ==> r.Ok? && !r.value.SkyMapTargets?
    ensures r.Ok? && r.value.ResultsPage? ==>
      && file.Some? && radius.Some? && o.parseFloat(radius.value).Some? && file.value.filename != ""
      && ProcessCsv(file.value.rows, o.parseFloat(radius.value).value, o) == Ok(r.value.results)
  {
    match file
    case None => Ok(NoFileProvided)
    case Some(f) =>
      match radius
      case None =>
        var targets :- ProcessCsvForSkyMap(f.rows, o);
        Ok(SkyMapTargets(targets))
      case Some(text) =>
        if text == "" then Ok(PageError("Radius value is required"))
        else
          match o.parseFloat(text)
          case None => Ok(PageError("Invalid radius value"))
          case Some(rad) =>
            if f.filename == "" then Ok(PageError("CSV file is required"))
            else
              match ProcessCsv(f.rows, rad, o)
              case Raise(e) => Ok(PageError("Error processing CSV file: " + e.Text()))
              case Ok(results) => Ok(ResultsPage(results))
  }

  /** The checks run in order: a request whose radius is missing its value
      is refused for that, even when the file has no name and the rows are
      bad; a file without a name only matters once the radius parses. */
  lemma UploadCheckOrder(rows: seq<seq<string>>, radius: string, o: Services)
    ensures CsvUpload(Some(Upload("", rows)), Some(""), o) == Ok(PageError("Radius value is required"))
    ensures radius != "" && o.parseFloat(radius).None? ==>
      CsvUpload(Some(Upload("", rows)), Some(radius), o) == Ok(PageError("Invalid radius value"))
  {
  }
}

=== FILE: sectors.dfy ===
/** Sector normalisation (`process_sectors`) and the sector filter of
    `process_data`, in utils/sector_processing.py. */
module Sectors {
  import opened Base
  import opened External

  /** The survey groups its observation sectors into cycles of 13. */
  const SectorsPerCycle: int := 13

  /** `(sector - 1) // 13 + 1`. Dafny's `/` rounds towards negative infinity
      for a positive divisor, exactly like Python's `//`. */
  function Cycle(sector: int): (c: int)
    ensures SectorsPerCycle * (c - 1) + 1 <= sector <= SectorsPerCycle * c
    ensures sector >= 1 ==> c >= 1
  {
    (sector - 1) / SectorsPerCycle + 1
  }

  /** The bounds of `Cycle` pin the cycle down: only one cycle contains a
      given sector. */
  lemma CycleUnique(sector: int, c: int)
    requires SectorsPerCycle * (c - 1) + 1 <= sector <= SectorsPerCycle * c
    ensures Cycle(sector) == c
  {
    var d := Cycle(sector);
    assert SectorsPerCycle * (d - 1) + 1 <= sector <= SectorsPerCycle * d;
  }

  lemma CycleBoundaries()
    ensures Cycle(1) == 1 && Cycle(13) == 1
    ensures Cycle(14) == 2 && Cycle(26) == 2
    ensures Cycle(27) == 3
  {
  }

  /** One normalised observation window: `[sector, cycle, camera, obs_date]`. */
  datatype SectorRecord = SectorRecord(sector: int, cycle: int, camera: int, obsDate: string)

  /** The records, and the cycle and date of the last pair (`None` when there
      was no pair). */
  datatype Normalized = Normalized(records: seq<SectorRecord>, lastCycle: Option<int>, lastDate: Option<string>)

  /** `cutout[0].header['DATE-OBS']`, which raises IndexError for a cutout
      without files and KeyError for a header without the keyword. */
  function ObsDate(cutout: Cutout): (r: Result<string>)
    ensures r.Ok? <==> |cutout| > 0 && "DATE-OBS" in cutout[0]
  {
    if |cutout| == 0 then Raise(IndexError("list index out of range"))
    else if "DATE-OBS" !in cutout[0] then Raise(KeyError("DATE-OBS"))
    else Ok(cutout[0]["DATE-OBS"])
  }

  /** Python's `zip`: pairs up to the shorter length, silently. */
  function Zip<A, B>(a: seq<A>, b: seq<B>): (z: seq<(A, B)>)
    ensures |z| == Min(|a|, |b|)
    ensures forall i :: 0 <= i < |z| ==> z[i] == (a[i], b[i])
  {
    seq(Min(|a|, |b|), i requires 0 <= i < Min(|a|, |b|) => (a[i], b[i]))
  }

  predicate AllDated(pairs: seq<(SectorRow, Cutout)>) {
    forall i :: 0 <= i < |pairs| ==> ObsDate(pairs[i].1).Ok?
  }

  /** The body of the `for sector, cutout in zip(...)` loop, run over the
      zipped pairs; the first pair without a date aborts the whole call. */
  function NormalizePairs(pairs: seq<(SectorRow, Cutout)>): (r: Result<Normalized>)
    ensures r.Ok? <==> AllDated(pairs)
    ensures r.Ok? ==> |r.value.records| == |pairs|
    ensures r.Ok? ==> forall i :: 0 <= i < |pairs| ==>
      r.value.records[i] == SectorRecord(pairs[i].0.sector, Cycle(pairs[i].0.sector), pairs[i].0.camera, ObsDate(pairs[i].1).value)
    ensures r.Ok? && |pairs| == 0 ==> r.value.lastCycle == None && r.value.lastDate == None
    ensures r.Ok? && |pairs| > 0 ==>
      && r.value.lastCycle == Some(Cycle(pairs[|pairs| - 1].0.sector))
      && r.value.lastDate == Some(ObsDate(pairs[|pairs| - 1].1).value)
    decreases |pairs|
  {
    if |pairs| == 0 then Ok(Normalized([], None, None))
    else
      var n := |pairs| - 1;
      var init := pairs[..n];
      assert forall k :: 0 <= k < n ==> init[k] == pairs[k];
      var prev :- NormalizePairs(init);
      var date :- ObsDate(pairs[n].1);
      var c := Cycle(pairs[n].0.sector);
      Ok(Normalized(prev.records + [SectorRecord(pairs[n].0.sector, c, pairs[n].0.camera, date)], Some(c), Some(date)))
  }

  /** A failed normalisation raises the error of the first undated pair. */
  lemma {:induction false} NormalizePairsFirstFailure(pairs: seq<(SectorRow, Cutout)>)
    ensures NormalizePairs(pairs).Raise? ==> exists k :: (0 <= k < |pairs| && ObsDate(pairs[k].1).Raise?
      && (forall j :: 0 <= j < k ==> ObsDate(pairs[j].1).Ok?) && NormalizePairs(pairs).exc == ObsDate(pairs[k].1).exc)
    decreases |pairs|
  {
    if |pairs| > 0 {
      var n := |pairs| - 1;
      var init := pairs[..n];
      assert forall k :: 0 <= k < n ==> init[k] == pairs[k];
      NormalizePairsFirstFailure(init);
      if NormalizePairs(init).Raise? {
        var k :| 0 <= k < n && ObsDate(init[k].1).Raise?
          && (forall j :: 0 <= j < k ==> ObsDate(init[j].1).Ok?) && NormalizePairs(init).exc == ObsDate(init[k].1).exc;
        assert ObsDate(pairs[k].1).Raise?;
      } else if NormalizePairs(pairs).Raise? {
        assert AllDated(init);
        assert ObsDate(pairs[n].1).Raise?;
        assert forall j :: 0 <= j < n ==> ObsDate(pairs[j].1).Ok?;
      }
    }
  }

  /** `process_sectors(sectors, cutouts)`: one record per zipped pair, in
      order; a length mismatch truncates, it is not an error. */
  function ProcessSectors(sectors: seq<SectorRow>, cutouts: seq<Cutout>): (r: Result<Normalized>)
    ensures r.Ok? <==> forall i :: 0 <= i < Min(|sectors|, |cutouts|) ==> ObsDate(cutouts[i]).Ok?
    ensures r.Ok? ==> |r.value.records| == Min(|sectors|, |cutouts|)
    ensures r.Ok? ==> forall i :: 0 <= i < |r.value.records| ==>
      r.value.records[i] == SectorRecord(sectors[i].sector, Cycle(sectors[i].sector), sectors[i].camera, ObsDate(cutouts[i]).value)
    ensures r.Ok? && Min(|sectors|, |cutouts|) == 0 ==> r.value.lastCycle == None && r.value.lastDate == None
    ensures r.Ok? && Min(|sectors|, |cutouts|) > 0 ==>
      var last := Min(|sectors|, |cutouts|) - 1;
      r.value.lastCycle == Some(Cycle(sectors[last].sector)) && r.value.lastDate == Some(ObsDate(cutouts[last]).value)
  {
    var pairs := Zip(sectors, cutouts);
    var r := NormalizePairs(pairs);
    assert forall i :: 0 <= i < |pairs| ==> pairs[i].1 == cutouts[i];
    assert AllDated(pairs) <==> forall i :: 0 <= i < Min(|sectors|, |cutouts|) ==> ObsDate(cutouts[i]).Ok? by {
      if !AllDated(pairs) {
        var i :| 0 <= i < |pairs| && ObsDate(pairs[i].1).Raise?;
        assert pairs[i].1 == cutouts[i];
      }
    }
    r
  }

  /** A failed `process_sectors` raises the error of the first zipped
      cutout without a date. */
  lemma ProcessSectorsFirstFailure(sectors: seq<SectorRow>, cutouts: seq<Cutout>)
    ensures ProcessSectors(sectors, cutouts).Raise? ==> exists k :: (0 <= k < Min(|sectors|, |cutouts|)
      && ObsDate(cutouts[k]).Raise? && (forall j :: 0 <= j < k ==> ObsDate(cutouts[j]).Ok?)
      && ProcessSectors(sectors, cutouts).exc == ObsDate(cutouts[k]).exc)
  {
    var pairs := Zip(sectors, cutouts);
    NormalizePairsFirstFailure(pairs);
    assert forall i :: 0 <= i < |pairs| ==> pairs[i].1 == cutouts[i];
  }

  // -----------------------------------------------------------------------
  // The sector filter of `process_data`

  /** `a` is `b` with some elements left out, the rest in their order. */
  ghost predicate IsSubsequence<T>(a: seq<T>, b: seq<T>)
    decreases |b|
  {
    if |a| == 0 then true
    else if |b| == 0 then false
    else if a[|a| - 1] == b[|b| - 1] then IsSubsequence(a[..|a| - 1], b[..|b| - 1])
    else IsSubsequence(a, b[..|b| - 1])
  }

  /** `[r for r in results if r[0] == n]` when a sector number is given,
      everything otherwise. */
  function KeepSector(records: seq<SectorRecord>, n: Option<int>): (r: seq<SectorRecord>)
    ensures n.None? ==> r == records
    ensures n.Some? ==> forall i :: 0 <= i < |r| ==> r[i].sector == n.value
    ensures IsSubsequence(r, records)
    decreases |records|
  {
    if n.None? || |records| == 0 then
      assert IsSubsequence(records, records) by { SubsequenceReflexive(records); }
      records
    else
      var m := |records| - 1;
      var prev := KeepSector(records[..m], n);
      if records[m].sector == n.value then
        assert (prev + [records[m]])[..|prev|] == prev;
        prev + [records[m]]
      else
        assert |prev| > 0 ==> prev[|prev| - 1] != records[m];
        prev
  }

  /** Nothing that matches is dropped: the filter keeps every record whose
      sector is `n`, as often as it occurs, and nothing else. */
  lemma {:induction false} KeepSectorCounts(records: seq<SectorRecord>, n: int, x: SectorRecord)
    ensures multiset(KeepSector(records, Some(n)))[x] == if x.sector == n then multiset(records)[x] else 0
    decreases |records|
  {
    if |records| > 0 {
      var m := |records| - 1;
      KeepSectorCounts(records[..m], n, x);
      assert records == records[..m] + [records[m]];
    }
  }

  lemma {:induction false} SubsequenceReflexive<T>(a: seq<T>)
    ensures IsSubsequence(a, a)
    decreases |a|
  {
    if |a| > 0 {
      SubsequenceReflexive(a[..|a| - 1]);
    }
  }
}

=== FILE: skymap.dfy ===
/** The sky-map page script, static/skymap.js: how the target typed into
    the form is classified (a position, a TIC id, or a name), the default
    marker title, the grouping of the CCD footprint file by sector, and the
    thirteen sectors drawn for a selected cycle. */
module SkyMap {
  import opened Base
  import opened Text
  import opened Grouping
  import opened Sectors

  /** A JavaScript number as far as this script uses it: a finite value, or
      NaN. The value is the exact decimal; rounding to a double is not
      modelled. */
  datatype JsNumber = Num(x: real) | NaN

  // -----------------------------------------------------------------------
  // Scanning

  /** The two character classes of the pattern: `\s` and `\d`. */
  datatype CharClass = Space | Digit

  predicate InClass(c: char, cls: CharClass) {
    match cls
    case Space => IsJsSpace(c)
    case Digit => IsDigit(c)
  }

  /** The end of the longest run of characters of class `p` that starts at
      `i`. */
  function Span(s: string, i: nat, p: CharClass): (j: nat)
    requires i <= |s|
    ensures i <= j <= |s|
    decreases |s| - i
  {
    if i < |s| && InClass(s[i], p) then Span(s, i + 1, p) else i
  }

  /** Every character of the run is of the class, and the run stops at the
      end of the text or at a character outside the class. */
  lemma {:induction false} SpanProps(s: string, i: nat, p: CharClass)
    requires i <= |s|
    ensures forall k :: i <= k < Span(s, i, p) ==> InClass(s[k], p)
    ensures Span(s, i, p) == |s| || !InClass(s[Span(s, i, p)], p)
    decreases |s| - i
  {
    if i < |s| && InClass(s[i], p) {
      SpanProps(s, i + 1, p);
    }
  }

  /** A run is determined by where it stops. */
  lemma {:induction false} SpanAt(s: string, i: nat, p: CharClass, j: nat)
    requires i <= j <= |s|
    requires forall k :: i <= k < j ==> InClass(s[k], p)
    requires j == |s| || !InClass(s[j], p)
    ensures Span(s, i, p) == j
    decreases j - i
  {
    if i < j {
      SpanAt(s, i + 1, p, j);
    }
  }

  /** A run of digits, cut out of its text. */
  lemma SpanDigits(s: string, i: nat)
    requires i <= |s|
    ensures AllDigits(s[i..Span(s, i, Digit)])
  {
    var j := Span(s, i, Digit);
    SpanProps(s, i, Digit);
    forall k | 0 <= k < j - i
      ensures IsDigit(s[i..j][k])
    {
      assert s[i..j][k] == s[i + k];
    }
  }

  /** The characters a number is made of are not white space. */
  lemma NotSpace(c: char)
    requires c == '-' || c == ',' || c == '.' || IsDigit(c)
    ensures !InClass(c, Space)
  {
    JsSpaceAscii(c);
  }

  predicate AllJsSpace(w: string) {
    forall k :: 0 <= k < |w| ==> IsJsSpace(w[k])
  }

  /** Where a number `-?\d+(\.\d*)?` that starts at some position ends, and
      where its fractional part `\.\d*` starts if it has one. */
  datatype Scan = Scan(end: nat, frac: Option<nat>)

  /** The number `-?\d+(\.\d*)?` starting at `i`, each part as long as
      possible; `None` when no digit follows the optional sign. */
  function ScanNumber(s: string, i: nat): (r: Option<Scan>)
    requires i <= |s|
    ensures r.Some? ==> i < r.value.end <= |s|
    ensures r.Some? && r.value.frac.Some? ==> i <= r.value.frac.value < r.value.end && s[r.value.frac.value] == '.'
  {
    var a := if i < |s| && s[i] == '-' then i + 1 else i;
    var d := Span(s, a, Digit);
    if d == a then None
    else if d < |s| && s[d] == '.' then Some(Scan(Span(s, d + 1, Digit), Some(d)))
    else Some(Scan(d, None))
  }

  /** The text of a scanned number's fractional part, if it has one. */
  function FractionPart(s: string, n: Scan): Option<string>
    requires n.end <= |s| && (n.frac.Some? ==> n.frac.value <= n.end)
  {
    match n.frac
    case None => None
    case Some(f) => Some(s[f..n.end])
  }

  /** The four capture groups of a match of
      `/^(\s*-?\d+(\.\d*)?)\s*,\s*(-?\d+(\.\d*)?)\s*$/`; a group that did
      not take part is `None` (`undefined`). */
  datatype RaDecMatch = RaDecMatch(g1: string, g2: Option<string>, g3: string, g4: Option<string>)

  /** `target.match(raDecPattern)`. Every run in the pattern is followed by
      something the run cannot contain, so the match, when there is one, is
      found by taking each run as long as possible: leading white space,
      the first number, white space, the comma, white space, the second
      number, and white space up to the end. */
  function MatchRaDec(s: string): (r: Option<RaDecMatch>)
    ensures ',' !in s ==> r.None?
    ensures r.Some? ==> |r.value.g1| < |s| && s[..|r.value.g1|] == r.value.g1
    ensures r.Some? ==> FractionOf(r.value.g1, r.value.g2) && FractionOf(r.value.g3, r.value.g4)
  {
    MatchShape(s, Span(s, 0, Space));
    MatchFirst(s, Span(s, 0, Space))
  }

  /** A fractional-part group is a trailing piece of its number's group
      that starts at the point. */
  predicate FractionOf(g: string, f: Option<string>) {
    f.Some? ==> 0 < |f.value| <= |g| && f.value[0] == '.' && g[|g| - |f.value|..] == f.value
  }

  /** A scanned number's fractional part, if any, ends its text, and so
      ends any text that runs up to the number's end. */
  lemma FractionPartOf(s: string, j: nat, i: nat, n: Scan)
    requires j <= i <= |s| && ScanNumber(s, i) == Some(n)
    ensures FractionOf(s[j..n.end], FractionPart(s, n))
  {
    if n.frac.Some? {
      var g := s[j..n.end];
      assert g[|g| - (n.end - n.frac.value)..] == s[n.frac.value..n.end];
    }
  }

  lemma MatchShape(s: string, w0: nat)
    requires w0 <= |s|
    ensures var r := MatchFirst(s, w0);
      && (',' !in s ==> r.None?)
      && (r.Some? ==> |r.value.g1| < |s| && s[..|r.value.g1|] == r.value.g1)
      && (r.Some? ==> FractionOf(r.value.g1, r.value.g2) && FractionOf(r.value.g3, r.value.g4))
  {
    if ScanNumber(s, w0).Some? {
      var n1 := ScanNumber(s, w0).value;
      var c := Span(s, n1.end, Space);
      if c < |s| && s[c] == ',' {
        var w2 := Span(s, c + 1, Space);
        if ScanNumber(s, w2).Some? {
          FractionPartOf(s, 0, w0, n1);
          FractionPartOf(s, w2, w2, ScanNumber(s, w2).value);
        }
      }
    }
  }

  /** The rest of the match once the leading white space ends at `w0`. */
  function MatchFirst(s: string, w0: nat): Option<RaDecMatch>
    requires w0 <= |s|
  {
    match ScanNumber(s, w0)
    case None => None
    case Some(n1) => MatchComma(s, n1)
  }

  /** The rest of the match once the first number `n1` is scanned. */
  function MatchComma(s: string, n1: Scan): Option<RaDecMatch>
    requires n1.end <= |s| && (n1.frac.Some? ==> n1.frac.value <= n1.end)
  {
    var c := Span(s, n1.end, Space);
    if c == |s| || s[c] != ',' then None
    else MatchSecond(s, n1, Span(s, c + 1, Space))
  }

  /** The rest of the match once the white space after the comma ends at
      `w2`. */
  function MatchSecond(s: string, n1: Scan, w2: nat): Option<RaDecMatch>
    requires n1.end <= |s| && (n1.frac.Some? ==> n1.frac.value <= n1.end)
    requires w2 <= |s|
  {
    match ScanNumber(s, w2)
    case None => None
    case Some(n2) => MatchEnd(s, n1, w2, n2)
  }

  /** The match is complete when only white space follows the second
      number `n2`. */
  function MatchEnd(s: string, n1: Scan, w2: nat, n2: Scan): Option<RaDecMatch>
    requires n1.end <= |s| && (n1.frac.Some? ==> n1.frac.value <= n1.end)
    requires w2 <= n2.end <= |s| && (n2.frac.Some? ==> n2.frac.value <= n2.end)
  {
    if Span(s, n2.end, Space) != |s| then None
    else Some(RaDecMatch(s[..n1.end], FractionPart(s, n1), s[w2..n2.end], FractionPart(s, n2)))
  }

  // -----------------------------------------------------------------------
  // Decimal numbers

  function Pow10(n: nat): (p: nat)
    ensures p >= 1
  {
    if n == 0 then 1 else 10 * Pow10(n - 1)
  }

  /** The value of the digits after a decimal point. */
  function FracValue(f: string): real
    requires AllDigits(f)
  {
    DigitsValue(f) as real / Pow10(|f|) as real
  }

  /** A decimal number as the pattern's number part writes it:
      `-?\d+(\.\d*)?`. */
  datatype Decimal = Decimal(negative: bool, whole: string, fraction: Option<string>)

  predicate WellFormed(d: Decimal) {
    IsDigits(d.whole) && (d.fraction.Some? ==> AllDigits(d.fraction.value))
  }

  function SignText(d: Decimal): string {
    if d.negative then "-" else ""
  }

  function FractionText(d: Decimal): Option<string> {
    match d.fraction
    case None => None
    case Some(f) => Some("." + f)
  }

  function DecimalText(d: Decimal): string {
    SignText(d) + d.whole + FractionText(d).GetOr("")
  }

  function DecimalValue(d: Decimal): real
    requires WellFormed(d)
  {
    (if d.negative then -1.0 else 1.0) * (DigitsValue(d.whole) as real + FracValue(d.fraction.GetOr("")))
  }

  /** JavaScript's `parseFloat` on text of the shapes the pattern captures:
      leading white space, an optional minus sign, digits, and an optional
      point with more digits. It is NaN when there is no digit at all. */
  function ParseDecimal(t: string): (r: JsNumber)
  {
    var i := Span(t, 0, Space);
    var neg := i < |t| && t[i] == '-';
    var a := if neg then i + 1 else i;
    var d := Span(t, a, Digit);
    var f := if d < |t| && t[d] == '.' then t[d + 1..Span(t, d + 1, Digit)] else "";
    assert AllDigits(t[a..d]) && AllDigits(f) by {
      SpanDigits(t, a);
      if d < |t| && t[d] == '.' {
        SpanDigits(t, d + 1);
      }
    }
    if d == a && f == "" then NaN
    else
      Num((if neg then -1.0 else 1.0) * (DigitsValue(t[a..d]) as real + FracValue(f)))
  }

  /** `parseFloat` finds a number only in a text with a digit. */
  lemma ParseDecimalNeedsDigit(t: string)
    ensures ParseDecimal(t).Num? ==> exists k :: 0 <= k < |t| && IsDigit(t[k])
  {
    var i := Span(t, 0, Space);
    var a := if i < |t| && t[i] == '-' then i + 1 else i;
    var d := Span(t, a, Digit);
    if d > a {
      SpanProps(t, a, Digit);
      assert IsDigit(t[a]);
    } else if d < |t| && t[d] == '.' && d + 1 < Span(t, d + 1, Digit) {
      SpanProps(t, d + 1, Digit);
      assert IsDigit(t[d + 1]);
    }
  }

  /** `parseFloat` always finds a number in a text that starts with a
      digit. */
  lemma ParseDecimalDigitFirst(t: string)
    requires 0 < |t| && IsDigit(t[0])
    ensures ParseDecimal(t).Num?
  {
    NotSpace(t[0]);
    assert Span(t, 0, Space) == 0;
    assert Span(t, 0, Digit) > 0;
  }

  /** `parseFloat` finds a negative number only after a minus sign. */
  lemma ParseDecimalSign(t: string)
    ensures ParseDecimal(t).Num? && ParseDecimal(t).x < 0.0 ==> '-' in t
  {
    var i := Span(t, 0, Space);
    var d := Span(t, i, Digit);
    var f := if d < |t| && t[d] == '.' then t[d + 1..Span(t, d + 1, Digit)] else "";
    if '-' !in t && ParseDecimal(t).Num? {
      assert !(i < |t| && t[i] == '-');
      SpanDigits(t, i);
      if d < |t| && t[d] == '.' {
        SpanDigits(t, d + 1);
      }
      FracValueNonNegative(f);
      assert ParseDecimal(t).x == 1.0 * (DigitsValue(t[i..d]) as real + FracValue(f));
    }
  }

  lemma FracValueNonNegative(f: string)
    requires AllDigits(f)
    ensures FracValue(f) >= 0.0
  {
  }

  /** `parseFloat` of a capture group; `parseFloat(undefined)` is NaN. */
  function ParseGroup(g: Option<string>): JsNumber {
    match g
    case None => NaN
    case Some(t) => ParseDecimal(t)
  }

  /** The text of `d` sits at `i` in `s`, followed by the end of `s` or by
      a character that cannot continue a number. */
  predicate DecimalAt(s: string, i: nat, d: Decimal) {
    var e := i + |DecimalText(d)|;
    && e <= |s| && s[i..e] == DecimalText(d)
    && (e == |s| || (!IsDigit(s[e]) && s[e] != '.'))
  }

  /** Each character of the text of `d` at `i` is found in `s`. */
  lemma DecimalAtIndex(s: string, i: nat, d: Decimal)
    requires DecimalAt(s, i, d)
    ensures forall k :: i <= k < i + |DecimalText(d)| ==> s[k] == DecimalText(d)[k - i]
  {
    var t := DecimalText(d);
    forall k | i <= k < i + |t| ensures s[k] == t[k - i] {
      assert s[i..i + |t|][k - i] == s[k];
    }
  }

  /** The number at `i` starts with a minus sign exactly when it is
      negative. */
  lemma ScanSign(s: string, i: nat, d: Decimal)
    requires WellFormed(d) && DecimalAt(s, i, d)
    ensures (i < |s| && s[i] == '-') <==> d.negative
  {
    DecimalStart(d);
    DecimalAtIndex(s, i, d);
  }

  /** The whole digits of the number at `i` are one run of digits, ended by
      the point or by the end of the number. */
  lemma ScanWhole(s: string, i: nat, d: Decimal, a: nat, w: nat)
    requires WellFormed(d) && DecimalAt(s, i, d)
    requires a == i + |SignText(d)| && w == a + |d.whole|
    ensures w <= |s| && Span(s, a, Digit) == w
    ensures d.fraction.None? ==> w == i + |DecimalText(d)|
    ensures d.fraction.Some? ==> w < |s| && s[w] == '.'
  {
    DecimalLayout(d);
    DecimalAtIndex(s, i, d);
    SpanAt(s, a, Digit, w);
  }

  /** The fraction digits of the number at `i`, after the point at `w`, are
      one run of digits that ends where the number ends, at `e`. */
  lemma ScanFraction(s: string, i: nat, d: Decimal, w: nat, e: nat)
    requires WellFormed(d) && DecimalAt(s, i, d) && d.fraction.Some?
    requires w == i + |SignText(d)| + |d.whole| && e == i + |DecimalText(d)|
    ensures w < e <= |s| && Span(s, w + 1, Digit) == e
  {
    DecimalLayout(d);
    DecimalAtIndex(s, i, d);
    SpanAt(s, w + 1, Digit, e);
  }

  /** The text from the point at `w` to the end `e` of the number at `i` is
      the point and the fraction digits. */
  lemma FractionSlice(s: string, i: nat, d: Decimal, w: nat, e: nat)
    requires WellFormed(d) && DecimalAt(s, i, d) && d.fraction.Some?
    requires w == i + |SignText(d)| + |d.whole| && e == i + |DecimalText(d)|
    ensures w < e <= |s| && s[w..e] == "." + d.fraction.value
  {
    var t := DecimalText(d);
    assert t[w - i..] == "." + d.fraction.value by {
      assert t == (SignText(d) + d.whole) + ("." + d.fraction.value);
    }
    assert s[i..e][w - i..] == s[w..e];
  }

  /** A well-formed number starting at `i` and followed by something that
      cannot continue it is scanned exactly, fraction and all. */
  lemma ScanDecimal(s: string, i: nat, d: Decimal)
    requires WellFormed(d) && DecimalAt(s, i, d)
    ensures var n := ScanNumber(s, i);
      && n.Some? && n.value.end == i + |DecimalText(d)|
      && (n.value.frac.Some? ==> n.value.frac.value <= n.value.end)
      && FractionPart(s, n.value) == FractionText(d)
  {
    var a := if i < |s| && s[i] == '-' then i + 1 else i;
    ScanSign(s, i, d);
    var w := a + |d.whole|;
    var e := i + |DecimalText(d)|;
    ScanWhole(s, i, d, a, w);
    if d.fraction.Some? {
      ScanFraction(s, i, d, w, e);
      FractionSlice(s, i, d, w, e);
    }
  }

  /** A number's text starts with its sign or its first digit. */
  lemma DecimalStart(d: Decimal)
    requires WellFormed(d)
    ensures |DecimalText(d)| > 0
    ensures DecimalText(d)[0] == '-' <==> d.negative
    ensures !InClass(DecimalText(d)[0], Space)
  {
    if !d.negative {
      assert DecimalText(d)[0] == d.whole[0];
    }
    NotSpace(DecimalText(d)[0]);
  }

  /** The layout of a number's text: the sign, the whole digits, then a
      point and the fraction digits if there is a fraction. */
  lemma DecimalLayout(d: Decimal)
    requires WellFormed(d)
    ensures var t, a := DecimalText(d), |SignText(d)|;
      && a + |d.whole| <= |t| && t[a..a + |d.whole|] == d.whole
      && (forall k :: a <= k < a + |d.whole| ==> IsDigit(t[k]))
      && (d.fraction.None? ==> a + |d.whole| == |t|)
      && (d.fraction.Some? ==> a + |d.whole| < |t| && t[a + |d.whole|] == '.' && t[a + |d.whole| + 1..] == d.fraction.value)
      && (d.fraction.Some? ==> forall k :: a + |d.whole| + 1 <= k < |t| ==> IsDigit(t[k]))
  {
    var t, a := DecimalText(d), |SignText(d)|;
    var w := a + |d.whole|;
    assert t[a..w] == d.whole;
    assert forall k :: a <= k < w ==> t[k] == d.whole[k - a];
    if d.fraction.Some? {
      var f := d.fraction.value;
      assert t[w..] == "." + f;
      assert forall k :: w + 1 <= k < |t| ==> t[k] == f[k - w - 1];
    }
  }

  /** `parseFloat` once the runs of a text are known: no leading white
      space, a sign taking `a` characters, whole digits up to `w`, and the
      fraction digits `f` after a point, if any. */
  lemma ParseDecimalRuns(t: string, a: nat, w: nat, f: string)
    requires Span(t, 0, Space) == 0
    requires a == (if 0 < |t| && t[0] == '-' then 1 else 0)
    requires a < w <= |t| && Span(t, a, Digit) == w
    requires f == (if w < |t| && t[w] == '.' then t[w + 1..Span(t, w + 1, Digit)] else "")
    requires AllDigits(t[a..w]) && AllDigits(f)
    ensures ParseDecimal(t) == Num((if a == 1 then -1.0 else 1.0) * (DigitsValue(t[a..w]) as real + FracValue(f)))
  {
  }

  /** A number's text has no leading white space, and its sign takes one
      character exactly when it is negative. */
  lemma TextSign(d: Decimal)
    requires WellFormed(d)
    ensures var t := DecimalText(d);
      && Span(t, 0, Space) == 0
      && |SignText(d)| == (if 0 < |t| && t[0] == '-' then 1 else 0)
  {
    DecimalStart(d);
    SpanAt(DecimalText(d), 0, Space, 0);
  }

  /** A number's whole digits form the first run of digits of its text. */
  lemma TextWhole(d: Decimal)
    requires WellFormed(d)
    ensures var t, a := DecimalText(d), |SignText(d)|; var w := a + |d.whole|;
      && a < w <= |t| && Span(t, a, Digit) == w && t[a..w] == d.whole
  {
    var t, a := DecimalText(d), |SignText(d)|;
    DecimalLayout(d);
    SpanAt(t, a, Digit, a + |d.whole|);
  }

  /** A number's fraction digits, if any, form the run of digits after the
      point. */
  lemma TextFraction(d: Decimal)
    requires WellFormed(d)
    ensures var t, w := DecimalText(d), |SignText(d)| + |d.whole|;
      && w <= |t|
      && d.fraction.GetOr("") == (if w < |t| && t[w] == '.' then t[w + 1..Span(t, w + 1, Digit)] else "")
  {
    var t, w := DecimalText(d), |SignText(d)| + |d.whole|;
    DecimalLayout(d);
    if d.fraction.Some? {
      SpanAt(t, w + 1, Digit, |t|);
      assert t[w + 1..|t|] == d.fraction.value;
    }
  }

  /** `parseFloat` reads a well-formed number's own text as its value. */
  lemma ParseDecimalText(d: Decimal)
    requires WellFormed(d)
    ensures ParseDecimal(DecimalText(d)) == Num(DecimalValue(d))
  {
    var t := DecimalText(d);
    var a := |SignText(d)|;
    var w := a + |d.whole|;
    TextSign(d);
    TextWhole(d);
    TextFraction(d);
    ParseDecimalRuns(t, a, w, d.fraction.GetOr(""));
  }

  /** `parseFloat` of a fractional part alone: `".5"` is 0.5, `"."` is NaN. */
  lemma ParseFractionText(f: string)
    requires AllDigits(f)
    ensures ParseDecimal("." + f) == if f == "" then NaN else Num(FracValue(f))
  {
    var t := "." + f;
    NotSpace('.');
    SpanAt(t, 0, Space, 0);
    SpanAt(t, 0, Digit, 0);
    assert forall k :: 1 <= k < |t| ==> t[k] == f[k - 1];
    SpanAt(t, 1, Digit, |t|);
    assert t[1..|t|] == f;
    assert t[0..0] == "";
    assert DigitsValue("") == 0;
  }

  /** The number a scan found, read back as a `Decimal`: the sign, the
      whole digits, and the digits after the point when there is one. */
  function ScannedDecimal(s: string, i: nat, n: Scan): Decimal
    requires i <= |s| && ScanNumber(s, i) == Some(n)
  {
    var a := if i < |s| && s[i] == '-' then i + 1 else i;
    var w := Span(s, a, Digit);
    Decimal(a == i + 1, s[a..w], if n.frac.Some? then Some(s[w + 1..n.end]) else None)
  }

  /** The converse of ScanDecimal: whatever a scan finds is the text of a
      well-formed number `-?\d+(\.\d*)?`, and its fractional part is that
      number's. */
  lemma ScanNumberText(s: string, i: nat)
    requires i <= |s| && ScanNumber(s, i).Some?
    ensures var n := ScanNumber(s, i).value; var d := ScannedDecimal(s, i, n);
      && WellFormed(d) && DecimalText(d) == s[i..n.end] && FractionPart(s, n) == FractionText(d)
  {
    var n := ScanNumber(s, i).value;
    var a := if i < |s| && s[i] == '-' then i + 1 else i;
    var w := Span(s, a, Digit);
    SpanDigits(s, a);
    if n.frac.Some? {
      SpanDigits(s, w + 1);
    }
    SlicedDecimal(s, i, a, w, n.end, n.frac.Some?);
  }

  /** A sign, a run of digits and an optional point with digits, cut out of
      a text, are the text of a well-formed number. */
  lemma SlicedDecimal(s: string, i: nat, a: nat, w: nat, e: nat, point: bool)
    requires i <= a < w <= e <= |s| && (a == i || (a == i + 1 && s[i] == '-'))
    requires AllDigits(s[a..w])
    requires point ==> w < e && s[w] == '.' && AllDigits(s[w + 1..e])
    requires !point ==> e == w
    ensures var d := Decimal(a == i + 1, s[a..w], if point then Some(s[w + 1..e]) else None);
      && WellFormed(d) && DecimalText(d) == s[i..e]
      && FractionText(d) == (if point then Some(s[w..e]) else None)
  {
    var d := Decimal(a == i + 1, s[a..w], if point then Some(s[w + 1..e]) else None);
    assert SignText(d) == s[i..a];
    if point {
      assert s[w..e] == "." + s[w + 1..e];
      assert s[i..e] == s[i..a] + s[a..w] + s[w..e];
    } else {
      assert s[i..e] == s[i..a] + s[a..w];
    }
  }

  /** The text `a w1 , w2 b` of two well-formed numbers around a comma, with
      white space on either side of the comma. */
  function PairText(a: Decimal, w1: string, w2: string, b: Decimal): string {
    DecimalText(a) + w1 + "," + w2 + DecimalText(b)
  }

  /** Where the parts of a pair text sit. */
  lemma PairLayout(a: Decimal, w1: string, w2: string, b: Decimal)
    requires AllJsSpace(w1) && AllJsSpace(w2)
    ensures var s, ta, tb := PairText(a, w1, w2, b), DecimalText(a), DecimalText(b);
      var c := |ta| + |w1|;
      && |s| == c + 1 + |w2| + |tb|
      && s[..|ta|] == ta && s[0..|ta|] == ta
      && (forall k :: |ta| <= k < c ==> IsJsSpace(s[k]))
      && s[c] == ','
      && (forall k :: c + 1 <= k < c + 1 + |w2| ==> IsJsSpace(s[k]))
      && s[c + 1 + |w2|..] == tb && s[c + 1 + |w2|..c + 1 + |w2| + |tb|] == tb
  {
    var s, ta, tb := PairText(a, w1, w2, b), DecimalText(a), DecimalText(b);
    var c := |ta| + |w1|;
    assert forall k :: |ta| <= k < c ==> s[k] == w1[k - |ta|];
    assert forall k :: c + 1 <= k < c + 1 + |w2| ==> s[k] == w2[k - c - 1];
  }

  /** In a pair text the first number is scanned from the very start. */
  lemma PairFirst(s: string, a: Decimal, w1: string, w2: string, b: Decimal)
    requires WellFormed(a) && WellFormed(b) && AllJsSpace(w1) && AllJsSpace(w2)
    requires s == PairText(a, w1, w2, b)
    ensures Span(s, 0, Space) == 0
    ensures ScanNumber(s, 0).Some? && ScanNumber(s, 0).value.end == |DecimalText(a)|
    ensures FractionPart(s, ScanNumber(s, 0).value) == FractionText(a)
    ensures s[..ScanNumber(s, 0).value.end] == DecimalText(a)
  {
    var ta := DecimalText(a);
    var c := |ta| + |w1|;
    PairLayout(a, w1, w2, b);
    assert Span(s, 0, Space) == 0 by {
      DecimalStart(a);
      assert s[0] == ta[0];
      SpanAt(s, 0, Space, 0);
    }
    assert !IsDigit(s[|ta|]) && s[|ta|] != '.' by {
      if |ta| < c {
        JsSpaceAscii(s[|ta|]);
      }
    }
    ScanDecimal(s, 0, a);
  }

  /** In a pair text the white space around the comma at `c` is skipped up
      to the second number at `bs`. */
  lemma PairComma(s: string, a: Decimal, w1: string, w2: string, b: Decimal, c: nat, bs: nat)
    requires WellFormed(a) && WellFormed(b) && AllJsSpace(w1) && AllJsSpace(w2)
    requires s == PairText(a, w1, w2, b) && c == |DecimalText(a)| + |w1| && bs == c + 1 + |w2|
    ensures c < |s| && s[c] == ','
    ensures Span(s, |DecimalText(a)|, Space) == c
    ensures Span(s, c + 1, Space) == bs
  {
    var ta, tb := DecimalText(a), DecimalText(b);
    PairLayout(a, w1, w2, b);
    assert Span(s, |ta|, Space) == c by {
      NotSpace(s[c]);
      SpanAt(s, |ta|, Space, c);
    }
    DecimalStart(b);
    assert s[bs] == tb[0];
    SpanAt(s, c + 1, Space, bs);
  }

  /** In a pair text the second number runs from `bs` to the end. */
  lemma PairSecond(s: string, a: Decimal, w1: string, w2: string, b: Decimal, bs: nat)
    requires WellFormed(a) && WellFormed(b) && AllJsSpace(w1) && AllJsSpace(w2)
    requires s == PairText(a, w1, w2, b) && bs == |DecimalText(a)| + |w1| + 1 + |w2|
    ensures bs <= |s|
    ensures ScanNumber(s, bs).Some? && ScanNumber(s, bs).value.end == |s|
    ensures FractionPart(s, ScanNumber(s, bs).value) == FractionText(b)
    ensures s[bs..ScanNumber(s, bs).value.end] == DecimalText(b)
    ensures Span(s, |s|, Space) == |s|
  {
    PairLayout(a, w1, w2, b);
    ScanToEnd(s, bs, b);
  }

  /** A well-formed number that ends the text is scanned up to the end. */
  lemma ScanToEnd(s: string, bs: nat, b: Decimal)
    requires WellFormed(b) && bs <= |s| && s[bs..] == DecimalText(b)
    ensures ScanNumber(s, bs).Some? && ScanNumber(s, bs).value.end == |s|
    ensures FractionPart(s, ScanNumber(s, bs).value) == FractionText(b)
    ensures s[bs..ScanNumber(s, bs).value.end] == DecimalText(b)
    ensures Span(s, |s|, Space) == |s|
  {
    assert s[bs..bs + |DecimalText(b)|] == DecimalText(b);
    ScanDecimal(s, bs, b);
  }

  /** A run of white space, cut out of its text. */
  lemma SpanSpace(s: string, i: nat)
    requires i <= |s|
    ensures AllJsSpace(s[i..Span(s, i, Space)])
  {
    var j := Span(s, i, Space);
    SpanProps(s, i, Space);
    forall k | 0 <= k < j - i
      ensures IsJsSpace(s[i..j][k])
    {
      assert s[i..j][k] == s[i + k];
    }
  }

  /** A text cut into the parts of the pattern: leading white space, the
      first number, white space, the comma, white space, the second number
      and trailing white space. */
  datatype PairParts = PairParts(lead: string, a: Decimal, w1: string, w2: string, b: Decimal, trail: string)

  predicate PairShape(s: string, p: PairParts) {
    && WellFormed(p.a) && WellFormed(p.b)
    && AllJsSpace(p.lead) && AllJsSpace(p.w1) && AllJsSpace(p.w2) && AllJsSpace(p.trail)
    && s == p.lead + PairText(p.a, p.w1, p.w2, p.b) + p.trail
  }

  /** The capture groups such a cut gives: group 1 is the leading white
      space and the first number, group 3 the second number, and groups 2
      and 4 their fractional parts. */
  function PairGroups(p: PairParts): RaDecMatch {
    RaDecMatch(p.lead + DecimalText(p.a), FractionText(p.a), DecimalText(p.b), FractionText(p.b))
  }

  /** The converse of MatchPair: whatever the pattern matches is two
      well-formed numbers around a comma, with nothing but white space
      between and around them, and the groups are that cut's. */
  lemma MatchRaDecSound(s: string)
    ensures MatchRaDec(s).Some? ==> exists p :: PairShape(s, p) && MatchRaDec(s).value == PairGroups(p)
  {
    if MatchRaDec(s).Some? {
      var w0 := Span(s, 0, Space);
      var n1 := MatchRuns(s);
      var c := Span(s, n1.end, Space);
      var w2 := Span(s, c + 1, Space);
      var n2 := ScanNumber(s, w2).value;
      var p := CutPair(s, w0, n1, c, w2, n2);
    }
  }

  /** The runs a match is made of: the first number `n1` after the leading
      white space, the comma at `c`, and the second number `n2` after the
      white space that follows the comma, with only white space after it. */
  lemma MatchRuns(s: string) returns (n1: Scan)
    requires MatchRaDec(s).Some?
    ensures ScanNumber(s, Span(s, 0, Space)) == Some(n1)
    ensures var c := Span(s, n1.end, Space);
      && c < |s| && s[c] == ','
      && ScanNumber(s, Span(s, c + 1, Space)).Some?
      && var w2 := Span(s, c + 1, Space); var n2 := ScanNumber(s, w2).value;
      && Span(s, n2.end, Space) == |s|
      && MatchRaDec(s).value == RaDecMatch(s[..n1.end], FractionPart(s, n1), s[w2..n2.end], FractionPart(s, n2))
  {
    var w0 := Span(s, 0, Space);
    n1 := ScanNumber(s, w0).value;
    assert MatchRaDec(s) == MatchComma(s, n1);
  }

  /** The cut of a text whose runs are known. */
  lemma CutPair(s: string, w0: nat, n1: Scan, c: nat, w2: nat, n2: Scan) returns (p: PairParts)
    requires w0 == Span(s, 0, Space) && ScanNumber(s, w0) == Some(n1)
    requires c == Span(s, n1.end, Space) && c < |s| && s[c] == ','
    requires w2 == Span(s, c + 1, Space) && ScanNumber(s, w2) == Some(n2)
    requires Span(s, n2.end, Space) == |s|
    ensures PairShape(s, p)
    ensures RaDecMatch(s[..n1.end], FractionPart(s, n1), s[w2..n2.end], FractionPart(s, n2)) == PairGroups(p)
  {
    ScanNumberText(s, w0);
    ScanNumberText(s, w2);
    SpanSpace(s, 0);
    SpanSpace(s, n1.end);
    SpanSpace(s, c + 1);
    SpanSpace(s, n2.end);
    p := PairOf(s, w0, n1.end, c, w2, n2.end, ScannedDecimal(s, w0, n1), ScannedDecimal(s, w2, n2));
  }

  /** The cut of a text at the ends of its runs, once the two numbers are
      known. */
  lemma PairOf(s: string, w0: nat, e1: nat, c: nat, w2: nat, e2: nat, a: Decimal, b: Decimal) returns (p: PairParts)
    requires w0 <= e1 <= c < w2 <= e2 <= |s| && s[c] == ','
    requires WellFormed(a) && DecimalText(a) == s[w0..e1]
    requires WellFormed(b) && DecimalText(b) == s[w2..e2]
    requires AllJsSpace(s[0..w0]) && AllJsSpace(s[e1..c]) && AllJsSpace(s[c + 1..w2]) && AllJsSpace(s[e2..|s|])
    ensures p == PairParts(s[..w0], a, s[e1..c], s[c + 1..w2], b, s[e2..])
    ensures PairShape(s, p) && PairGroups(p).g1 == s[..e1]
  {
    p := PairParts(s[..w0], a, s[e1..c], s[c + 1..w2], b, s[e2..]);
    assert s[0..w0] == s[..w0] && s[e2..|s|] == s[e2..];
    CutText(s, w0, e1, c, w2, e2);
  }

  /** Cutting a text at increasing positions, with the comma at `c`. */
  lemma CutText(s: string, w0: nat, e1: nat, c: nat, w2: nat, e2: nat)
    requires w0 <= e1 <= c < w2 <= e2 <= |s| && s[c] == ','
    ensures s == s[..w0] + (s[w0..e1] + s[e1..c] + "," + s[c + 1..w2] + s[w2..e2]) + s[e2..]
    ensures s[..e1] == s[..w0] + s[w0..e1]
  {
    assert s[c..c + 1] == ",";
    assert s[..e2] == s[..w0] + s[w0..e1] + s[e1..c] + s[c..c + 1] + s[c + 1..w2] + s[w2..e2];
    assert s == s[..e2] + s[e2..];
  }

  /** The match is assembled from its runs once each run is known. */
  lemma MatchAt(s: string, n1: Scan, c: nat, w2: nat, n2: Scan, m: RaDecMatch)
    requires Span(s, 0, Space) == 0 && ScanNumber(s, 0) == Some(n1)
    requires c < |s| && s[c] == ',' && Span(s, n1.end, Space) == c
    requires Span(s, c + 1, Space) == w2 && ScanNumber(s, w2) == Some(n2)
    requires Span(s, n2.end, Space) == |s|
    requires m == RaDecMatch(s[..n1.end], FractionPart(s, n1), s[w2..n2.end], FractionPart(s, n2))
    ensures MatchRaDec(s) == Some(m)
  {
    MatchFirstStep(s, n1);
    MatchCommaStep(s, n1, c, w2);
    MatchSecondStep(s, n1, w2, n2);
  }

  lemma MatchFirstStep(s: string, n1: Scan)
    requires Span(s, 0, Space) == 0 && ScanNumber(s, 0) == Some(n1)
    ensures MatchRaDec(s) == MatchComma(s, n1)
  {
  }

  lemma MatchCommaStep(s: string, n1: Scan, c: nat, w2: nat)
    requires n1.end <= |s| && (n1.frac.Some? ==> n1.frac.value <= n1.end)
    requires c < |s| && s[c] == ',' && Span(s, n1.end, Space) == c && Span(s, c + 1, Space) == w2
    ensures MatchComma(s, n1) == MatchSecond(s, n1, w2)
  {
  }

  lemma MatchSecondStep(s: string, n1: Scan, w2: nat, n2: Scan)
    requires n1.end <= |s| && (n1.frac.Some? ==> n1.frac.value <= n1.end)
    requires w2 <= |s| && ScanNumber(s, w2) == Some(n2)
    ensures MatchSecond(s, n1, w2) == MatchEnd(s, n1, w2, n2)
  {
  }

  /** Such a text matches the pattern, with the first number in group 1,
      its fraction in group 2, the second number in group 3 and its
      fraction in group 4. */
  lemma MatchPair(a: Decimal, w1: string, w2: string, b: Decimal)
    requires WellFormed(a) && WellFormed(b) && AllJsSpace(w1) && AllJsSpace(w2)
    ensures MatchRaDec(PairText(a, w1, w2, b)) ==
      Some(RaDecMatch(DecimalText(a), FractionText(a), DecimalText(b), FractionText(b)))
  {
    var s, ta, tb := PairText(a, w1, w2, b), DecimalText(a), DecimalText(b);
    var c := |ta| + |w1|;
    var bs := c + 1 + |w2|;
    PairFirst(s, a, w1, w2, b);
    PairComma(s, a, w1, w2, b, c, bs);
    PairSecond(s, a, w1, w2, b, bs);
    var n1 := ScanNumber(s, 0).value;
    var n2 := ScanNumber(s, bs).value;
    MatchAt(s, n1, c, bs, n2, RaDecMatch(ta, FractionText(a), tb, FractionText(b)));
  }

  // -----------------------------------------------------------------------
  // Classifying the form's target

  /** `target.toUpperCase().startsWith("TIC")`, for ASCII letters. */
  predicate HasTicPrefix(s: string) {
    |s| >= 3 && UpperAscii(s[0]) == 'T' && UpperAscii(s[1]) == 'I' && UpperAscii(s[2]) == 'C'
  }

  /** The TIC text sent to the lookup: "TIC " is put in front unless the
      target already starts with TIC in any letter case. */
  function TicForm(target: string): (r: string)
    ensures HasTicPrefix(r)
    ensures HasTicPrefix(target) ==> r == target
    ensures !HasTicPrefix(target) ==> r == "TIC " + target
  {
    if HasTicPrefix(target) then target else "TIC " + target
  }

  /** Prefixing twice is prefixing once. */
  lemma TicFormIdempotent(target: string)
    ensures TicForm(TicForm(target)) == TicForm(target)
  {
  }

  /** What the form does with its target. */
  datatype FormTarget =
    | NoTarget
    | AtPosition(ra: JsNumber, dec: JsNumber)
    | TicRequest(ticId: string)
    | NameLookup(name: string)

  /** The branches after the position pattern failed: a TIC prefix or a
      numeric text (`!isNaN(target)`, left to `isNumeric`) is a TIC
      request, anything else a name. */
  function ClassifyOther(target: string, isNumeric: string -> bool): (r: FormTarget)
    ensures r.TicRequest? <==> HasTicPrefix(target) || isNumeric(target)
    ensures r.TicRequest? ==> r.ticId == TicForm(target)
    ensures r.NameLookup? ==> r.name == target
    ensures r.TicRequest? || r.NameLookup?
  {
    if HasTicPrefix(target) || isNumeric(target) then TicRequest(TicForm(target)) else NameLookup(target)
  }

  /** Lines 209-219 as written: the declination is read from group 2,
      which is the fractional part of the right ascension. */
  function ClassifyAsWritten(target: string, isNumeric: string -> bool): (r: FormTarget)
    ensures r.NoTarget? <==> target == ""
    ensures target != "" && MatchRaDec(target).None? ==> r == ClassifyOther(target, isNumeric)
    ensures r.AtPosition? ==> MatchRaDec(target).Some? && r.dec == ParseGroup(MatchRaDec(target).value.g2)
  {
    if target == "" then NoTarget
    else
      match MatchRaDec(target)
      case Some(m) => AtPosition(ParseDecimal(m.g1), ParseGroup(m.g2))
      case None => ClassifyOther(target, isNumeric)
  }

  /** Lines 209-243 with the declination read from group 3, the second
      number. */
  function Classify(target: string, isNumeric: string -> bool): (r: FormTarget)
    ensures r.NoTarget? <==> target == ""
    ensures target != "" && MatchRaDec(target).None? ==> r == ClassifyOther(target, isNumeric)
    ensures r.AtPosition? <==> target != "" && MatchRaDec(target).Some?
    ensures r.AtPosition? ==> r.ra == ParseDecimal(MatchRaDec(target).value.g1) && r.dec == ParseDecimal(MatchRaDec(target).value.g3)
  {
    if target == "" then NoTarget
    else
      match MatchRaDec(target)
      case Some(m) => AtPosition(ParseDecimal(m.g1), ParseDecimal(m.g3))
      case None => ClassifyOther(target, isNumeric)
  }

  /** Two numbers separated by a comma are read as that position: the first
      number is the right ascension and the second the declination. */
  lemma ClassifyPair(a: Decimal, w1: string, w2: string, b: Decimal, isNumeric: string -> bool)
    requires WellFormed(a) && WellFormed(b) && AllJsSpace(w1) && AllJsSpace(w2)
    ensures Classify(PairText(a, w1, w2, b), isNumeric) == AtPosition(Num(DecimalValue(a)), Num(DecimalValue(b)))
  {
    MatchPair(a, w1, w2, b);
    ParseDecimalText(a);
    ParseDecimalText(b);
  }

  /** The value the as-written code takes for the declination: the first
      number's fraction read on its own, or NaN when it has none. */
  function FractionValue(a: Decimal): JsNumber
    requires WellFormed(a)
  {
    match a.fraction
    case None => NaN
    case Some(f) => if f == "" then NaN else Num(FracValue(f))
  }

  /** As written, the declination depends only on the first number: it is
      the first number's fractional part, whatever the second number is. */
  lemma ClassifyAsWrittenIgnoresDec(a: Decimal, w1: string, w2: string, b: Decimal, isNumeric: string -> bool)
    requires WellFormed(a) && WellFormed(b) && AllJsSpace(w1) && AllJsSpace(w2)
    ensures ClassifyAsWritten(PairText(a, w1, w2, b), isNumeric) == AtPosition(Num(DecimalValue(a)), FractionValue(a))
  {
    MatchPair(a, w1, w2, b);
    ParseDecimalText(a);
    if a.fraction.Some? {
      ParseFractionText(a.fraction.value);
    }
  }

  /** As written, a pair of numbers is placed where the corrected code puts
      it exactly when the first number's fraction happens to equal the
      second number, as exact decimal values. */
  lemma AsWrittenAgreesOnlyByChance(a: Decimal, w1: string, w2: string, b: Decimal, isNumeric: string -> bool)
    requires WellFormed(a) && WellFormed(b) && AllJsSpace(w1) && AllJsSpace(w2)
    ensures var s := PairText(a, w1, w2, b);
      ClassifyAsWritten(s, isNumeric) == Classify(s, isNumeric) <==> FractionValue(a) == Num(DecimalValue(b))
  {
    ClassifyAsWrittenIgnoresDec(a, w1, w2, b, isNumeric);
    ClassifyPair(a, w1, w2, b, isNumeric);
  }

  /** The targets "10.5, 20.3" and "10, 20" as pair texts, with the values
      involved: as written their declinations are 0.5 and NaN, corrected
      they are 20.3 and 20. */
  lemma DecFromWrongGroup()
    ensures var a, b := Decimal(false, "10", Some("5")), Decimal(false, "20", Some("3"));
      && WellFormed(a) && WellFormed(b)
      && PairText(a, "", " ", b) == "10.5, 20.3"
      && DecimalValue(a) == 10.5 && FractionValue(a) == Num(0.5) && DecimalValue(b) == 20.3
    ensures var a, b := Decimal(false, "10", None), Decimal(false, "20", None);
      && WellFormed(a) && WellFormed(b)
      && PairText(a, "", " ", b) == "10, 20"
      && DecimalValue(a) == 10.0 && FractionValue(a) == NaN && DecimalValue(b) == 20.0
    ensures AllJsSpace("") && AllJsSpace(" ")
  {
    assert DigitsValue("10") == 10 && DigitsValue("20") == 20;
    assert DigitsValue("5") == 5 && DigitsValue("3") == 3;
    JsSpaceAscii(' ');
  }

  /** Lines 49-51: a marker without a name is titled "Unnamed Target". */
  function MarkerTitle(name: Option<string>): (title: string)
    ensures title != ""
    ensures name.Some? && name.value != "" ==> title == name.value
    ensures name.None? || name.value == "" ==> title == "Unnamed Target"
  {
    if name.None? || name.value == "" then "Unnamed Target" else name.value
  }

  // -----------------------------------------------------------------------
  // The CCD footprint overlay

  /** A polyline vertex `[ra, dec]`. */
  type Point = (JsNumber, JsNumber)

  /** `parseFloat(rowData[k])`; a missing field is `undefined`, which
      parses to NaN. Field texts are parsed by `parse`. */
  function Field(fields: seq<string>, k: nat, parse: string -> JsNumber): JsNumber {
    if k < |fields| then parse(fields[k]) else NaN
  }

  /** One footprint line as `(sector, [ra, dec])`, from fields 6, 2 and 3. */
  function FootprintEntry(line: string, parse: string -> JsNumber): (JsNumber, Point) {
    var fields := Split(line, ',');
    (Field(fields, 6, parse), (Field(fields, 2, parse), Field(fields, 3, parse)))
  }

  /** Every line after the first (the header), in file order. */
  function FootprintEntries(lines: seq<string>, parse: string -> JsNumber): (es: seq<(JsNumber, Point)>)
    ensures |es| == Max(0, |lines| - 1)
    ensures forall i :: 0 <= i < |es| ==> es[i] == FootprintEntry(lines[i + 1], parse)
  {
    if |lines| <= 1 then []
    else seq(|lines| - 1, i requires 0 <= i < |lines| - 1 => FootprintEntry(lines[i + 1], parse))
  }

  /** The sector field of every line after the header, in file order. */
  function SectorsListed(lines: seq<string>, parse: string -> JsNumber): seq<JsNumber> {
    KeysOf(FootprintEntries(lines, parse))
  }

  /** The points of the lines whose sector field parses to `key`, in file
      order. */
  function PointsOf(lines: seq<string>, parse: string -> JsNumber, key: JsNumber): seq<Point> {
    ValuesOf(FootprintEntries(lines, parse), key)
  }

  /** `cycleSectors`: the points of each sector, keyed by the sector number
      in order of first appearance. The grouping loses and reorders
      nothing: a sector is present exactly when some line after the header
      names it, and its polyline is the points of those lines in file
      order. */
  function SectorPolylines(lines: seq<string>, parse: string -> JsNumber): (groups: seq<Slot<JsNumber, seq<Point>>>)
    ensures forall key :: Lookup(groups, key).Some? <==> key in SectorsListed(lines, parse)
    ensures forall key :: Lookup(groups, key).Some? ==> Lookup(groups, key).value == PointsOf(lines, parse, key)
  {
    CollectPoints(FootprintEntries(lines, parse));
    Collect(FootprintEntries(lines, parse), Snoc, [])
  }

  lemma CollectPoints(es: seq<(JsNumber, Point)>)
    ensures forall key :: Lookup(Collect(es, Snoc, []), key).Some? <==> key in KeysOf(es)
    ensures forall key :: Lookup(Collect(es, Snoc, []), key).Some? ==> Lookup(Collect(es, Snoc, []), key).value == ValuesOf(es, key)
  {
    forall key
      ensures Lookup(Collect(es, Snoc, []), key).Some? <==> key in KeysOf(es)
      ensures Lookup(Collect(es, Snoc, []), key).Some? ==> Lookup(Collect(es, Snoc, []), key).value == ValuesOf(es, key)
    {
      LookupCollect(es, Snoc, [], key);
      FoldSnoc(ValuesOf(es, key));
    }
  }

  /** The first sector of cycle `cycle`. */
  function FirstSectorOf(cycle: int): int {
    (cycle - 1) * SectorsPerCycle + 1
  }

  /** Lines 328-332: the sectors of cycle `cycle`, from `(cycle - 1) * 13 + 1`
      to `cycle * 13`. Exactly the sectors the Python side assigns to that
      cycle, in increasing order. */
  method CycleSectors(cycle: int) returns (sectors: seq<int>)
    ensures |sectors| == SectorsPerCycle
    ensures forall k :: 0 <= k < |sectors| ==> sectors[k] == FirstSectorOf(cycle) + k
    ensures forall s :: s in sectors <==> Cycle(s) == cycle
  {
    var start := (cycle - 1) * 13 + 1;
    var end := cycle * 13;
    sectors := [];
    var s := start;
    while s <= end
      invariant start <= s <= end + 1
      invariant |sectors| == s - start
      invariant forall k :: 0 <= k < |sectors| ==> sectors[k] == start + k
    {
      sectors := sectors + [s];
      s := s + 1;
    }
    forall x
      ensures x in sectors <==> Cycle(x) == cycle
    {
      if start <= x <= end {
        assert sectors[x - start] == x;
        CycleUnique(x, cycle);
      }
    }
  }

  /** The polylines drawn for a cycle: for each of its thirteen sectors,
      the points grouped under that sector, or `None` (`undefined`) for a
      sector the file does not list. */
  method CycleOverlay(lines: seq<string>, parse: string -> JsNumber, cycle: int) returns (polylines: seq<Option<seq<Point>>>)
    ensures |polylines| == SectorsPerCycle
    ensures forall k :: 0 <= k < |polylines| ==>
      var key := Num((FirstSectorOf(cycle) + k) as real);
      && (polylines[k].Some? <==> key in SectorsListed(lines, parse))
      && (polylines[k].Some? ==> polylines[k].value == PointsOf(lines, parse, key))
  {
    var groups := SectorPolylines(lines, parse);
    var sectors := CycleSectors(cycle);
    polylines := [];
    var k := 0;
    while k < |sectors|
      invariant 0 <= k <= |sectors|
      invariant |polylines| == k
      invariant forall j :: 0 <= j < k ==> polylines[j] == Lookup(groups, Num(sectors[j] as real))
    {
      var drawn := Lookup(groups, Num(sectors[k] as real));
      polylines := polylines + [drawn];
      k := k + 1;
    }
    OverlayDraws(lines, parse, cycle, sectors, polylines);
  }

  /** Looking up each of the cycle's sectors draws that sector's points. */
  lemma OverlayDraws(lines: seq<string>, parse: string -> JsNumber, cycle: int, sectors: seq<int>, polylines: seq<Option<seq<Point>>>)
    requires |polylines| == |sectors|
    requires forall k :: 0 <= k < |sectors| ==> sectors[k] == FirstSectorOf(cycle) + k
    requires forall j :: 0 <= j < |polylines| ==> polylines[j] == Lookup(SectorPolylines(lines, parse), Num(sectors[j] as real))
    ensures forall k :: 0 <= k < |polylines| ==>
      var key := Num((FirstSectorOf(cycle) + k) as real);
      && (polylines[k].Some? <==> key in SectorsListed(lines, parse))
      && (polylines[k].Some? ==> polylines[k].value == PointsOf(lines, parse, key))
  {
    forall j | 0 <= j < |polylines|
      ensures var key := Num((FirstSectorOf(cycle) + j) as real);
        && (polylines[j].Some? <==> key in SectorsListed(lines, parse))
        && (polylines[j].Some? ==> polylines[j].value == PointsOf(lines, parse, key))
    {
      var key := Num((FirstSectorOf(cycle) + j) as real);
      assert Num(sectors[j] as real) == key;
      PolylineOf(lines, parse, key, polylines[j]);
    }
  }

  /** What the overlay draws for one sector. */
  lemma PolylineOf(lines: seq<string>, parse: string -> JsNumber, key: JsNumber, p: Option<seq<Point>>)
    requires p == Lookup(SectorPolylines(lines, parse), key)
    ensures p.Some? <==> key in SectorsListed(lines, parse)
    ensures p.Some? ==> p.value == PointsOf(lines, parse, key)
  {
  }
}

=== FILE: table_csv.dfy ===
/** The two browser-side CSV builders of the results table: `table_to_csv`
    in static/download.js and the selected-rows builder at the top of
    utils/download.js, with its empty-selection rule. */
module TableCsv {
  import opened Base
  import opened Text

  /** One column of the table's data source, in key order. A cell is the
      text its `toString()` gives, or `None` for `null`. */
  datatype Column = Column(name: string, cells: seq<Option<string>>)

  function Names(cols: seq<Column>): (ns: seq<string>)
    ensures |ns| == |cols| && forall j :: 0 <= j < |cols| ==> ns[j] == cols[j].name
  {
    seq(|cols|, j requires 0 <= j < |cols| => cols[j].name)
  }

  // -----------------------------------------------------------------------
  // static/download.js

  /** `source.data[column][idx].toString()`: an index outside the column
      reads `undefined`, and neither `undefined` nor `null` has a
      `toString`. */
  function CellText(c: Column, idx: int): (r: Result<string>)
    ensures r.Ok? <==> 0 <= idx < |c.cells| && c.cells[idx].Some?
    ensures r.Ok? ==> r.value == c.cells[idx].value
  {
    if idx < 0 || idx >= |c.cells| then Raise(TypeError("Cannot read properties of undefined (reading 'toString')"))
    else if c.cells[idx].None? then Raise(TypeError("Cannot read properties of null (reading 'toString')"))
    else Ok(c.cells[idx].value)
  }

  function CellOf(idx: int): Column -> Result<string> {
    c => CellText(c, idx)
  }

  /** The cells of one selected row, in column order. */
  function RowCells(cols: seq<Column>, idx: int): (r: Result<seq<string>>)
    ensures r.Ok? <==> forall j :: 0 <= j < |cols| ==> 0 <= idx < |cols[j].cells| && cols[j].cells[idx].Some?
    ensures r.Ok? ==> |r.value| == |cols| && forall j :: 0 <= j < |cols| ==> r.value[j] == cols[j].cells[idx].value
  {
    var r := MapAll(cols, CellOf(idx));
    assert forall j :: 0 <= j < |cols| ==> CellOf(idx)(cols[j]) == CellText(cols[j], idx);
    r
  }

  /** `row.join(',')` for one selected index. */
  function RowLine(cols: seq<Column>, idx: int): Result<string> {
    var cells :- RowCells(cols, idx);
    Ok(Join(cells, ","))
  }

  function LineOf(cols: seq<Column>): int -> Result<string> {
    idx => RowLine(cols, idx)
  }

  /** Every selected index can be read in every column. */
  predicate Readable(cols: seq<Column>, selected: seq<int>) {
    forall k, j :: 0 <= k < |selected| && 0 <= j < |cols| ==>
      0 <= selected[k] < |cols[j].cells| && cols[j].cells[selected[k]].Some?
  }

  /** `table_to_csv(source)`: the column names, then one line per selected
      index in selection order (duplicates kept), joined by newlines, with
      a final newline; the first unreadable cell raises TypeError. */
  function TableToCsv(cols: seq<Column>, selected: seq<int>): (r: Result<string>)
    ensures r.Ok? <==> Readable(cols, selected)
    ensures r.Ok? ==> |r.value| > 0 && r.value[|r.value| - 1] == '\n'
    ensures r.Ok? && selected == [] ==> r.value == Join(Names(cols), ",") + "\n"
  {
    var lines :- MapAll(selected, LineOf(cols));
    assert forall k :: 0 <= k < |selected| ==> LineOf(cols)(selected[k]) == RowLine(cols, selected[k]);
    Ok(Join([Join(Names(cols), ",")] + lines, "\n") + "\n")
  }

  /** No name and no readable cell contains a comma or a newline. */
  predicate Plain(cols: seq<Column>) {
    forall j :: 0 <= j < |cols| ==> (',' !in cols[j].name && '\n' !in cols[j].name
      && forall i :: 0 <= i < |cols[j].cells| && cols[j].cells[i].Some? ==>
        ',' !in cols[j].cells[i].value && '\n' !in cols[j].cells[i].value)
  }

  /** The output reads back as the table: dropping the final newline and
      splitting on newlines gives one line for the header and one per
      selected index, and splitting a line on commas gives the column names
      or that row's cells. */
  lemma TableToCsvReadsBack(cols: seq<Column>, selected: seq<int>)
    requires |cols| >= 1 && Plain(cols) && Readable(cols, selected)
    ensures var text := TableToCsv(cols, selected);
      && text.Ok? && |text.value| > 0
      && var lines := Split(text.value[..|text.value| - 1], '\n');
      && |lines| == 1 + |selected|
      && Split(lines[0], ',') == Names(cols)
      && forall k :: 0 <= k < |selected| ==>
        |Split(lines[k + 1], ',')| == |cols| && forall j :: 0 <= j < |cols| ==>
          Split(lines[k + 1], ',')[j] == cols[j].cells[selected[k]].value
  {
    var text := TableToCsv(cols, selected);
    var names := Names(cols);
    var lines := MapAll(selected, LineOf(cols)).value;
    var all := [Join(names, ",")] + lines;
    assert text.value == Join(all, "\n") + "\n";
    assert text.value[..|text.value| - 1] == Join(all, "\n");
    SplitJoin(names, ',');
    assert forall j :: 0 <= j < |names| ==> '\n' !in names[j];
    JoinAvoids(names, ",", '\n');
    LinesReadBack(cols, selected);
    assert forall m :: 0 <= m < |all| ==> '\n' !in all[m] by {
      forall m | 0 <= m < |all| ensures '\n' !in all[m] {
        if m > 0 {
          assert all[m] == lines[m - 1];
        }
      }
    }
    SplitJoin(all, '\n');
    var split := Split(text.value[..|text.value| - 1], '\n');
    assert split == all;
    forall k | 0 <= k < |selected|
      ensures |Split(split[k + 1], ',')| == |cols|
      ensures forall j :: 0 <= j < |cols| ==> Split(split[k + 1], ',')[j] == cols[j].cells[selected[k]].value
    {
      assert split[k + 1] == lines[k];
      assert RowCells(cols, selected[k]).Ok?;
    }
  }

  /** Each data line of `table_to_csv` is one row's cells joined by commas,
      free of newlines. */
  lemma LinesReadBack(cols: seq<Column>, selected: seq<int>)
    requires |cols| >= 1 && Plain(cols) && Readable(cols, selected)
    ensures MapAll(selected, LineOf(cols)).Ok?
    ensures var lines := MapAll(selected, LineOf(cols)).value;
      forall k :: 0 <= k < |selected| ==>
        '\n' !in lines[k] && Split(lines[k], ',') == RowCells(cols, selected[k]).value
  {
    var r := MapAll(selected, LineOf(cols));
    forall k | 0 <= k < |selected|
      ensures '\n' !in r.value[k]
      ensures Split(r.value[k], ',') == RowCells(cols, selected[k]).value
    {
      assert r.value[k] == LineOf(cols)(selected[k]).value;
      LineReadsBack(cols, selected[k]);
    }
  }

  /** One readable row of plain cells: its line has no newline and splits
      on commas into its cells. */
  lemma LineReadsBack(cols: seq<Column>, idx: int)
    requires |cols| >= 1 && Plain(cols) && RowCells(cols, idx).Ok?
    ensures RowLine(cols, idx).Ok?
    ensures '\n' !in RowLine(cols, idx).value
    ensures Split(RowLine(cols, idx).value, ',') == RowCells(cols, idx).value
  {
    var cells := RowCells(cols, idx).value;
    assert forall j :: 0 <= j < |cells| ==> cells[j] == cols[j].cells[idx].value;
    JoinAvoids(cells, ",", '\n');
    SplitJoin(cells, ',');
  }

  // -----------------------------------------------------------------------
  // utils/download.js

  /** The fixed first line of the selected-rows file. */
  const SelectedHeader: string := "temperature,luminosity,magnitudes,distance,sectors,cycles,cameras,observation_dates"

  /** The eight data keys the selected-rows file reads, in header order. */
  const SelectedKeys: seq<string> := ["temperature", "luminosity", "magnitudes", "distance", "sectors", "cycles", "cameras", "observation_dates"]

  /** The column stored under a key, if there is one (`source.data[key]`). */
  function ColumnNamed(cols: seq<Column>, key: string): (r: Option<Column>)
    ensures r.None? <==> forall j :: 0 <= j < |cols| ==> cols[j].name != key
    ensures r.Some? ==> r.value in cols && r.value.name == key
  {
    if |cols| == 0 then None
    else if cols[0].name == key then Some(cols[0])
    else ColumnNamed(cols[1..], key)
  }

  /** A cell as `Array.prototype.join` writes it: `null` and an index
      outside the column (`undefined`) give the empty string. */
  function JoinedCell(c: Column, idx: int): (s: string)
    ensures 0 <= idx < |c.cells| && c.cells[idx].Some? ==> s == c.cells[idx].value
    ensures !(0 <= idx < |c.cells| && c.cells[idx].Some?) ==> s == ""
  {
    if 0 <= idx < |c.cells| && c.cells[idx].Some? then c.cells[idx].value else ""
  }

  predicate HasSelectedKeys(cols: seq<Column>) {
    forall k :: 0 <= k < |SelectedKeys| ==> ColumnNamed(cols, SelectedKeys[k]).Some?
  }

  /** The eight cells of one selected index, in header order. */
  function SelectedRow(cols: seq<Column>, idx: int): (row: seq<string>)
    requires HasSelectedKeys(cols)
    ensures |row| == 8 && forall k :: 0 <= k < 8 ==> row[k] == JoinedCell(ColumnNamed(cols, SelectedKeys[k]).value, idx)
  {
    seq(8, k requires 0 <= k < 8 => JoinedCell(ColumnNamed(cols, SelectedKeys[k]).value, idx))
  }

  /** Lines 3-39 of utils/download.js. Reading a key the data does not
      have throws as soon as a row is built, and the surrounding `catch`
      swallows it: `None`, nothing is downloaded. Otherwise the header,
      a newline, and one line per selected index joined by newlines, with
      no final newline. */
  function SelectedRowsCsv(cols: seq<Column>, selected: seq<int>): (r: Option<string>)
    ensures r.None? <==> selected != [] && !HasSelectedKeys(cols)
    ensures selected == [] ==> r == Some(SelectedHeader + "\n")
    ensures r.Some? ==> StartsWith(r.value, SelectedHeader + "\n")
  {
    if selected == [] then Some(SelectedHeader + "\n")
    else if !HasSelectedKeys(cols) then None
    else
      var lines := seq(|selected|, i requires 0 <= i < |selected| => Join(SelectedRow(cols, selected[i]), ","));
      Some(SelectedHeader + "\n" + Join(lines, "\n"))
  }

  /** With readable plain cells the file reads back as the selection: after
      the header line, line `k` splits on commas into the eight cells of
      the `k`-th selected index. */
  lemma SelectedRowsReadBack(cols: seq<Column>, selected: seq<int>)
    requires selected != [] && HasSelectedKeys(cols) && Plain(cols)
    ensures var r := SelectedRowsCsv(cols, selected);
      && r.Some? && |r.value| >= |SelectedHeader| + 1
      && var lines := Split(r.value[|SelectedHeader| + 1..], '\n');
      && |lines| == |selected|
      && forall i :: 0 <= i < |selected| ==>
        Split(lines[i], ',') == SelectedRow(cols, selected[i])
  {
    var lines := seq(|selected|, i requires 0 <= i < |selected| => Join(SelectedRow(cols, selected[i]), ","));
    var r := SelectedRowsCsv(cols, selected);
    assert r.value == SelectedHeader + "\n" + Join(lines, "\n");
    assert r.value[|SelectedHeader| + 1..] == Join(lines, "\n");
    forall i | 0 <= i < |selected|
      ensures '\n' !in lines[i]
      ensures Split(lines[i], ',') == SelectedRow(cols, selected[i])
    {
      var row := SelectedRow(cols, selected[i]);
      forall k | 0 <= k < |row| ensures ',' !in row[k] && '\n' !in row[k] {
        var c := ColumnNamed(cols, SelectedKeys[k]).value;
        var j :| 0 <= j < |cols| && cols[j] == c;
      }
      JoinAvoids(row, ",", '\n');
      SplitJoin(row, ',');
    }
    SplitJoin(lines, '\n');
  }

  /** The click handler of lines 93-97: an empty selection stands for every
      row, counted by the length of the first data column. With no column
      at all, reading its length throws. */
  function EffectiveSelection(cols: seq<Column>, selected: seq<int>): (r: Result<seq<int>>)
    ensures selected != [] ==> r == Ok(selected)
    ensures selected == [] && cols == [] ==> r.Raise?
    ensures selected == [] && cols != [] ==>
      r.Ok? && |r.value| == |cols[0].cells| && forall i :: 0 <= i < |r.value| ==> r.value[i] == i
  {
    if selected != [] then Ok(selected)
    else if cols == [] then Raise(TypeError("Cannot read properties of undefined (reading 'length')"))
    else Ok(seq(|cols[0].cells|, i => i))
  }

  /** When the table is non-empty and its columns have one length, the
      selection the handler settles on is never empty and every index in it
      is inside every column. */
  lemma EffectiveSelectionInRange(cols: seq<Column>, selected: seq<int>)
    requires cols != [] && |cols[0].cells| > 0
    requires forall j :: 0 <= j < |cols| ==> |cols[j].cells| == |cols[0].cells|
    requires forall k :: 0 <= k < |selected| ==> 0 <= selected[k] < |cols[0].cells|
    ensures var r := EffectiveSelection(cols, selected);
      r.Ok? && r.value != [] && (forall k, j :: 0 <= k < |r.value| && 0 <= j < |cols| ==> 0 <= r.value[k] < |cols[j].cells|)
  {
  }
}

=== FILE: text.dfy ===
/** The string operations the Python and JavaScript code relies on, written
    out: `str.strip`, `str.split`, `str.join`, `str.replace(p, "")`,
    `str.isdigit`, `int(...)` on digit strings and `str(n)` on naturals. */
module Text {

  /** Python's `str.isspace` for one character. */
  predicate IsSpace(c: char) {
    || (9 <= c as int <= 13)
    || (28 <= c as int <= 32)
    || c as int == 0x85
    || c as int == 0xA0
    || c as int == 0x1680
    || (0x2000 <= c as int <= 0x200A)
    || c as int == 0x2028
    || c as int == 0x2029
    || c as int == 0x202F
    || c as int == 0x205F
    || c as int == 0x3000
  }

  /** The character codes of the class `\s` of a JavaScript regular
      expression (white space and line terminators), numbered from 0. */
  function JsSpaceCode(k: nat): int
    requires k < 25
  {
    if k < 5 then 9 + k
    else if k == 5 then 32
    else if k == 6 then 0xA0
    else if k == 7 then 0x1680
    else if k < 19 then 0x2000 + (k - 8)
    else if k == 19 then 0x2028
    else if k == 20 then 0x2029
    else if k == 21 then 0x202F
    else if k == 22 then 0x205F
    else if k == 23 then 0x3000
    else 0xFEFF
  }

  /** `x` is one of the first `k` codes of the class, checked one at a time. */
  predicate AmongJsSpaceCodes(x: int, k: nat)
    requires k <= 25
  {
    k > 0 && (JsSpaceCode(k - 1) == x || AmongJsSpaceCodes(x, k - 1))
  }

  predicate IsJsSpace(c: char) {
    AmongJsSpaceCodes(c as int, 25)
  }

  lemma {:induction false} AmongJsSpaceCodesAscii(x: int, k: nat)
    requires k <= 25
    ensures AmongJsSpaceCodes(x, k) ==> x == 32 || (9 <= x <= 13) || x >= 0xA0
    ensures k > 5 ==> AmongJsSpaceCodes(32, k)
  {
    if k > 0 {
      AmongJsSpaceCodesAscii(x, k - 1);
    }
  }

  /** The only ASCII characters in `\s` are the blank and the controls
      from tab to carriage return. */
  lemma JsSpaceAscii(c: char)
    ensures c == ' ' ==> IsJsSpace(c)
    ensures IsJsSpace(c) ==> c == ' ' || ('\t' <= c <= '\r') || c as int >= 0xA0
  {
    AmongJsSpaceCodesAscii(c as int, 25);
  }

  predicate IsDigit(c: char) {
    '0' <= c <= '9'
  }

  predicate AllDigits(s: string) {
    forall k :: 0 <= k < |s| ==> IsDigit(s[k])
  }

  /** Python's `str.isdigit` (for ASCII digits): non-empty and digits only. */
  predicate IsDigits(s: string) {
    |s| > 0 && AllDigits(s)
  }

  predicate StartsWith(s: string, prefix: string) {
    |prefix| <= |s| && s[..|prefix|] == prefix
  }

  /** Upper-casing of one character, as `toUpperCase` does for ASCII letters. */
  function UpperAscii(c: char): (u: char)
    ensures 'a' <= c <= 'z' ==> 'A' <= u <= 'Z' && u as int + 32 == c as int
    ensures !('a' <= c <= 'z') ==> u == c
  {
    if 'a' <= c <= 'z' then (c as int - 32) as char else c
  }

  // ---------------------------------------------------------------------
  // Trimming

  /** Drops the longest prefix whose characters all satisfy `drop`. */
  function TrimLeft(s: string, drop: char -> bool): (r: string)
    ensures |r| <= |s| && r == s[|s| - |r|..]
    ensures forall k :: 0 <= k < |s| - |r| ==> drop(s[k])
    ensures r == [] || !drop(r[0])
    decreases |s|
  {
    if |s| > 0 && drop(s[0]) then TrimLeft(s[1..], drop) else s
  }

  /** Drops the longest suffix whose characters all satisfy `drop`. */
  function TrimRight(s: string, drop: char -> bool): (r: string)
    ensures |r| <= |s| && r == s[..|r|]
    ensures forall k :: |r| <= k < |s| ==> drop(s[k])
    ensures r == [] || !drop(r[|r| - 1])
    decreases |s|
  {
    if |s| > 0 && drop(s[|s| - 1]) then TrimRight(s[..|s| - 1], drop) else s
  }

  predicate Trimmed(s: string, drop: char -> bool) {
    s == [] || (!drop(s[0]) && !drop(s[|s| - 1]))
  }

  /** `s.strip(chars)`: both ends trimmed; a trimmed string is left alone. */
  function Trim(s: string, drop: char -> bool): (r: string)
    ensures |r| <= |s|
    ensures Trimmed(r, drop)
    ensures Trimmed(s, drop) ==> r == s
  {
    var l := TrimLeft(s, drop);
    var r := TrimRight(l, drop);
    assert Trimmed(r, drop) by {
      if r != [] {
        assert r[0] == l[0];
      }
    }
    assert Trimmed(s, drop) ==> r == s by {
      if Trimmed(s, drop) && s != [] {
        assert l == s;
      }
    }
    r
  }

  /** Python's `s.strip()`. */
  function Strip(s: string): (r: string)
    ensures |r| <= |s|
    ensures Trimmed(r, IsSpace)
    ensures Trimmed(s, IsSpace) ==> r == s
  {
    Trim(s, IsSpace)
  }

  lemma StripIdempotent(s: string)
    ensures Strip(Strip(s)) == Strip(s)
  {
  }

  /** A separator followed by a trimmed word strips back to the word. */
  lemma {:induction false} StripLeadingSpace(w: string)
    requires w != [] && Trimmed(w, IsSpace)
    ensures Strip(" " + w) == w
  {
    var s := " " + w;
    assert s[1..] == w;
    assert TrimLeft(s, IsSpace) == TrimLeft(w, IsSpace) == w;
  }

  // ---------------------------------------------------------------------
  // Splitting and joining

  /** Python's `s.split(sep)` for a one-character separator. */
  function Split(s: string, sep: char): (parts: seq<string>)
    ensures |parts| >= 1
    ensures forall i :: 0 <= i < |parts| ==> sep !in parts[i]
    decreases |s|
  {
    if |s| == 0 then [""]
    else if s[0] == sep then [""] + Split(s[1..], sep)
    else
      var rest := Split(s[1..], sep);
      [[s[0]] + rest[0]] + rest[1..]
  }

  /** Python's `sep.join(parts)` and JavaScript's `parts.join(sep)`. */
  function Join(parts: seq<string>, sep: string): string
  {
    if |parts| == 0 then ""
    else if |parts| == 1 then parts[0]
    else parts[0] + sep + Join(parts[1..], sep)
  }

  /** Joining the pieces of a split gives back the original text. */
  lemma {:induction false} JoinSplit(s: string, sep: char)
    ensures Join(Split(s, sep), [sep]) == s
    decreases |s|
  {
    if |s| == 0 {
    } else if s[0] == sep {
      var rest := Split(s[1..], sep);
      JoinSplit(s[1..], sep);
      assert ([""] + rest)[1..] == rest;
    } else {
      var rest := Split(s[1..], sep);
      JoinSplit(s[1..], sep);
      var parts := [[s[0]] + rest[0]] + rest[1..];
      assert parts[1..] == rest[1..];
      if |rest| > 1 {
        assert Join(rest, [sep]) == rest[0] + [sep] + Join(rest[1..], [sep]);
      }
    }
  }

  lemma {:induction false} SplitWithoutSeparator(x: string, sep: char)
    requires sep !in x
    ensures Split(x, sep) == [x]
    decreases |x|
  {
    if |x| > 0 {
      assert x[0] != sep;
      assert sep !in x[1..];
      SplitWithoutSeparator(x[1..], sep);
      assert [x[0]] + x[1..] == x;
    }
  }

  lemma {:induction false} SplitAtFirst(x: string, y: string, sep: char)
    requires sep !in x
    ensures Split(x + [sep] + y, sep) == [x] + Split(y, sep)
    decreases |x|
  {
    var s := x + [sep] + y;
    if |x| == 0 {
      assert s[1..] == y;
    } else {
      assert s[1..] == x[1..] + [sep] + y;
      SplitAtFirst(x[1..], y, sep);
      assert [s[0]] + x[1..] == x;
    }
  }

  /** Splitting a join gives back the pieces when none contains the separator. */
  lemma {:induction false} SplitJoin(parts: seq<string>, sep: char)
    requires |parts| >= 1
    requires forall i :: 0 <= i < |parts| ==> sep !in parts[i]
    ensures Split(Join(parts, [sep]), sep) == parts
    decreases |parts|
  {
    if |parts| == 1 {
      SplitWithoutSeparator(parts[0], sep);
    } else {
      SplitJoin(parts[1..], sep);
      SplitAtFirst(parts[0], Join(parts[1..], [sep]), sep);
      assert [parts[0]] + parts[1..] == parts;
    }
  }

  /** A join of pieces that avoid a character avoids it too. */
  lemma {:induction false} JoinAvoids(parts: seq<string>, sep: string, c: char)
    requires c !in sep
    requires forall i :: 0 <= i < |parts| ==> c !in parts[i]
    ensures c !in Join(parts, sep)
    decreases |parts|
  {
    if |parts| > 1 {
      JoinAvoids(parts[1..], sep, c);
    }
  }

  // ---------------------------------------------------------------------
  // Removing a pattern

  /** Python's `s.replace(pat, "")`: every occurrence found scanning left to
      right is deleted, in one pass. */
  function RemoveAll(s: string, pat: string): (r: string)
    requires |pat| > 0
    ensures |r| <= |s|
    decreases |s|
  {
    if |s| < |pat| then s
    else if s[..|pat|] == pat then RemoveAll(s[|pat|..], pat)
    else [s[0]] + RemoveAll(s[1..], pat)
  }

  /** Text that does not contain the pattern's first character is unchanged. */
  lemma {:induction false} RemoveAllAbsent(s: string, pat: string)
    requires |pat| > 0 && pat[0] !in s
    ensures RemoveAll(s, pat) == s
    decreases |s|
  {
    if |s| >= |pat| {
      assert s[..|pat|][0] == s[0] != pat[0];
      RemoveAllAbsent(s[1..], pat);
      assert [s[0]] + s[1..] == s;
    }
  }

  // ---------------------------------------------------------------------
  // Decimal naturals

  function DigitValue(c: char): (d: nat)
    requires IsDigit(c)
    ensures d < 10
  {
    c as int - '0' as int
  }

  function DigitChar(d: nat): (c: char)
    requires d < 10
    ensures IsDigit(c) && DigitValue(c) == d
  {
    ('0' as int + d) as char
  }

  /** Python's `int(s)` on a string of decimal digits. */
  function DigitsValue(s: string): nat
    requires AllDigits(s)
    decreases |s|
  {
    if |s| == 0 then 0
    else DigitsValue(s[..|s| - 1]) * 10 + DigitValue(s[|s| - 1])
  }

  /** Python's `str(n)`: canonical decimal digits, no leading zero. */
  function NatToString(n: nat): (s: string)
    ensures IsDigits(s)
    ensures s[0] == '0' ==> s == "0"
    decreases n
  {
    if n < 10 then [DigitChar(n)] else NatToString(n / 10) + [DigitChar(n % 10)]
  }

  /** `int(str(n)) == n`. */
  lemma {:induction false} DigitsValueOfNatToString(n: nat)
    ensures DigitsValue(NatToString(n)) == n
    decreases n
  {
    if n >= 10 {
      var p := NatToString(n / 10);
      var s := p + [DigitChar(n % 10)];
      assert s[..|s| - 1] == p;
      DigitsValueOfNatToString(n / 10);
    }
  }

  lemma {:induction false} DigitsValuePositive(s: string)
    requires IsDigits(s) && s[0] != '0'
    ensures DigitsValue(s) > 0
    decreases |s|
  {
    if |s| > 1 {
      var p := s[..|s| - 1];
      assert p[0] == s[0];
      DigitsValuePositive(p);
    }
  }

  /** `str(int(s)) == s` for digit strings without a leading zero. */
  lemma {:induction false} NatToStringOfDigitsValue(s: string)
    requires IsDigits(s) && (s[0] != '0' || |s| == 1)
    ensures NatToString(DigitsValue(s)) == s
    decreases |s|
  {
    if |s| > 1 {
      var p := s[..|s| - 1];
      assert p[0] == s[0];
      DigitsValuePositive(p);
      NatToStringOfDigitsValue(p);
      var n := DigitsValue(s);
      assert n / 10 == DigitsValue(p);
      assert n % 10 == DigitValue(s[|s| - 1]);
      assert DigitChar(n % 10) == s[|s| - 1];
      assert p + [s[|s| - 1]] == s;
    } else {
      assert DigitChar(DigitValue(s[0])) == s[0];
    }
  }

  /** Leading zeros do not survive `str(int(s))`: "007" becomes "7". */
  lemma LeadingZerosDropped()
    ensures NatToString(DigitsValue("007")) == "7"
  {
    assert "007"[..2] == "00";
    assert "00"[..1] == "0";
    assert DigitsValue("007") == 7;
  }
}

=== FILE: validation.dfy ===
/** utils/input_validation.py: `validate_inputs`, which checks the search
    form in a fixed order, and the step of `target_list_page` that pads
    the eight chart columns to a common length. */
module Validation {
  import opened Base
  import opened External
  import opened Batch

  /** The second element of `validate_inputs`' answer: an error message,
      or the checked `(search_input, radius, sector_number)`. */
  datatype Validation = Invalid(message: string) | Valid(search: string, radius: real, sector: Option<int>)

  const NoSearchMessage: string := "Please provide a valid search input."
  const BadRadiusMessage: string := "Please provide a valid radius value like 0.5, 1 etc..."
  const RadiusSignMessage: string := "Please provide a positive radius value."
  const BadSectorMessage: string := "Please provide a valid sector number."

  /** `float(None)` raises TypeError, which `except ValueError` lets through. */
  const NoneRadiusMessage: string := "float() argument must be a string or a real number, not 'NoneType'"

  /** `validate_inputs(search_input, radius, sector_selection)` with form
      fields that may be missing (`None`). */
  function ValidateInputs(search: Option<string>, radius: Option<string>, sector: Option<string>, o: Services): (r: Result<Validation>)
    ensures r == Ok(Invalid(NoSearchMessage)) <==> search.None? || search == Some("")
    ensures search.Some? && search.value != "" && radius.None? ==> r == Raise(TypeError(NoneRadiusMessage))
    ensures search.Some? && search.value != "" && radius.Some? && o.parseFloat(radius.value).None? ==>
      r == Ok(Invalid(BadRadiusMessage))
    ensures r.Ok? && r.value.Invalid? && r.value.message == RadiusSignMessage <==>
      search.Some? && search.value != "" && radius.Some? && o.parseFloat(radius.value).Some? && o.parseFloat(radius.value).value <= 0.0
    ensures r.Ok? && r.value.Invalid? && r.value.message == BadSectorMessage <==>
      && search.Some? && search.value != "" && radius.Some? && o.parseFloat(radius.value).Some? && o.parseFloat(radius.value).value > 0.0
      && sector.Some? && sector.value != "" && o.parseInt(sector.value).None?
    ensures (&& search.Some? && search.value != "" && radius.Some?
             && o.parseFloat(radius.value).Some? && o.parseFloat(radius.value).value > 0.0
             && (sector.None? || sector.value == "" || o.parseInt(sector.value).Some?))
      ==> r.Ok? && r.value.Valid?
    ensures r.Ok? && r.value.Valid? ==>
      && search == Some(r.value.search)
      && radius.Some? && o.parseFloat(radius.value) == Some(r.value.radius) && r.value.radius > 0.0
      && (r.value.sector.None? <==> sector.None? || sector == Some(""))
      && (r.value.sector.Some? ==> o.parseInt(sector.value) == r.value.sector)
  {
    if search.None? || search.value == "" then Ok(Invalid(NoSearchMessage))
    else
      match radius
      case None => Raise(TypeError(NoneRadiusMessage))
      case Some(text) =>
        match o.parseFloat(text)
        case None => Ok(Invalid(BadRadiusMessage))
        case Some(rad) =>
          if rad <= 0.0 then Ok(Invalid(RadiusSignMessage))
          else if sector.None? || sector.value == "" then Ok(Valid(search.value, rad, None))
          else
            match o.parseInt(sector.value)
            case None => Ok(Invalid(BadSectorMessage))
            case Some(n) => Ok(Valid(search.value, rad, Some(n)))
  }

  /** Whatever is wrong with the later fields, a missing search input is
      reported first; and a radius that does not parse is reported before
      its sign is looked at. */
  lemma ValidationOrder(search: Option<string>, radius: string, sector: Option<string>, o: Services)
    ensures ValidateInputs(None, Some(radius), sector, o) == Ok(Invalid(NoSearchMessage))
    ensures ValidateInputs(Some(""), None, sector, o) == Ok(Invalid(NoSearchMessage))
    ensures search.Some? && search.value != "" && o.parseFloat(radius).None? ==>
      ValidateInputs(search, Some(radius), sector, o) == Ok(Invalid(BadRadiusMessage))
  {
  }

  // -----------------------------------------------------------------------
  // Padding the chart columns

  /** A value in one of the chart columns. */
  datatype Datum = Real(x: real) | Int(n: int) | Text(s: string) | Null

  /** `xs += [fill] * (n - len(xs))`; a negative count adds nothing. */
  function PadTo<T>(xs: seq<T>, n: int, fill: T): (r: seq<T>)
    ensures |r| == Max(|xs|, n)
    ensures r[..|xs|] == xs
    ensures forall i :: |xs| <= i < |r| ==> r[i] == fill
  {
    xs + seq(Max(0, n - |xs|), _ => fill)
  }

  /** Padding to a length the list already has changes nothing. */
  lemma PadToNoop<T>(xs: seq<T>, n: int, fill: T)
    requires n <= |xs|
    ensures PadTo(xs, n, fill) == xs
  {
    assert PadTo(xs, n, fill) == PadTo(xs, n, fill)[..|xs|];
  }

  /** The eight columns handed to the charts. */
  datatype Columns = Columns(
    temperature: seq<Datum>, luminosity: seq<Datum>, magnitudes: seq<Datum>, distance: seq<Datum>,
    sectors: seq<Datum>, cycles: seq<Datum>, cameras: seq<Datum>, observationDates: seq<Datum>)

  /** `max(len(all_temperatures), len(all_luminosities), len(all_magnitudes),
      len(all_distances), len(results))`. */
  function MaxLength(temps: seq<Datum>, lums: seq<Datum>, mags: seq<Datum>, dists: seq<Datum>, results: seq<BatchRecord>): nat {
    Max(Max(Max(Max(|temps|, |lums|), |mags|), |dists|), |results|)
  }

  /** Lines 102-122 of `target_list_page`: the metadata lists are padded
      with "", the sector and date columns (read from the result rows) with
      None, the cycle and camera columns with -1. */
  function PadColumns(temps: seq<Datum>, lums: seq<Datum>, mags: seq<Datum>, dists: seq<Datum>, results: seq<BatchRecord>): (c: Columns)
    ensures var n := MaxLength(temps, lums, mags, dists, results);
      && |c.temperature| == n && |c.luminosity| == n && |c.magnitudes| == n && |c.distance| == n
      && |c.sectors| == n && |c.cycles| == n && |c.cameras| == n && |c.observationDates| == n
    ensures var n := |c.temperature|;
      n == |temps| || n == |lums| || n == |mags| || n == |dists| || n == |results|
    ensures c.temperature[..|temps|] == temps && c.luminosity[..|lums|] == lums
      && c.magnitudes[..|mags|] == mags && c.distance[..|dists|] == dists
    ensures forall i :: 0 <= i < |results| ==>
      && c.sectors[i] == Int(results[i].sector) && c.cycles[i] == Int(results[i].cycle)
      && c.cameras[i] == Int(results[i].camera) && c.observationDates[i] == Text(results[i].obsDate)
    ensures forall i :: |temps| <= i < |c.temperature| ==> c.temperature[i] == Text("")
    ensures forall i :: |lums| <= i < |c.luminosity| ==> c.luminosity[i] == Text("")
    ensures forall i :: |mags| <= i < |c.magnitudes| ==> c.magnitudes[i] == Text("")
    ensures forall i :: |dists| <= i < |c.distance| ==> c.distance[i] == Text("")
    ensures forall i :: |results| <= i < |c.sectors| ==>
      c.sectors[i] == Null && c.cycles[i] == Int(-1) && c.cameras[i] == Int(-1) && c.observationDates[i] == Null
  {
    var n := MaxLength(temps, lums, mags, dists, results);
    var sectors := seq(|results|, i requires 0 <= i < |results| => Int(results[i].sector));
    var cycles := seq(|results|, i requires 0 <= i < |results| => Int(results[i].cycle));
    var cameras := seq(|results|, i requires 0 <= i < |results| => Int(results[i].camera));
    var dates := seq(|results|, i requires 0 <= i < |results| => Text(results[i].obsDate));
    Columns(PadTo(temps, n, Text("")), PadTo(lums, n, Text("")), PadTo(mags, n, Text("")), PadTo(dists, n, Text("")),
      PadTo(sectors, n, Null), PadTo(cycles, n, Int(-1)), PadTo(cameras, n, Int(-1)), PadTo(dates, n, Null))
  }

  /** Padding columns that already share one length leaves them alone. */
  lemma PadColumnsAligned(temps: seq<Datum>, lums: seq<Datum>, mags: seq<Datum>, dists: seq<Datum>, results: seq<BatchRecord>)
    requires |temps| == |lums| == |mags| == |dists| == |results|
    ensures var c := PadColumns(temps, lums, mags, dists, results);
      c.temperature == temps && c.luminosity == lums && c.magnitudes == mags && c.distance == dists
  {
    PadToNoop(temps, |temps|, Text(""));
    PadToNoop(lums, |temps|, Text(""));
    PadToNoop(mags, |temps|, Text(""));
    PadToNoop(dists, |temps|, Text(""));
  }
}
